=== FILE: README.md ===
# Ab4d SharpEngine for Blazor WebAssembly: a Dafny model of the browser bridge and the sample UI layer

This project models three groups of bookkeeping from the SharpEngine Blazor WebAssembly samples.

1. **The canvas interop bridge.** This is the managed `CanvasInterop` class together with its browser script `sharp-engine.js`.
   - The process-wide registry of connected canvases: the "initial" instance plus an ordered list of additional ones, looked up by canvas id.
   - The lifecycle flags set by `InitializeInterop`, `InitWebGL`, `CheckIsInitialized` and `Dispose`.
   - The `OK:v{1|2};width;height;dpi` handshake, written by the script and parsed positionally by the managed side.
   - Load-request coalescing per URL for text, binary and image loads, the fan-out of completions, and the list of URLs whose requester was disposed before the answer came.
   - The script's keyboard-modifier bitmask, pinch-zoom state machine, frame-loop flag, resize change detection and canvas lookup.
2. **The engine-agnostic settings UI** (`UIProvider/`).
   - Label and tool-tip parsing.
   - The provider's element tree, current panel, separator spacing, settings and value refresh.
   - Panel child lists.
   - Each element kind's `SetText`/`SetValue` validation, browser-event handling and style derivation.
3. **Small validators and state machines.**
   - The bitmap reader's file-extension check.
   - The left-button edge detector and bounded message log of the manual-input sample.

## How the model is built

- There is one Dafny module per source component, with immutable datatypes and pure functions.
- An operation on mutable state takes the state and returns the next one.
- Where the source has side effects, the function also returns the effects in order: calls into the browser, events raised, callbacks invoked, console lines.
- Anything the browser or the caller decides is a parameter: context support, measured sizes, what a fetch returns, value getters, formatters.
- `null` is `Option.None`.
- An exception is `Result.Throw` (in `Wrappers`) or an `Option<Exn>` component of a step.
- A `float` or `double` that is written or parsed as text is a `Numbers.Decimal`: the decimal its invariant-culture text denotes. Formatting and parsing are then exact inverses (`Numbers.ParseFormatDecimal`), and `Numbers.Value` gives the real it stands for.
- Style strings are sequences of `UIElement.Piece`: literal CSS text and numbers. Contracts can then talk about which pieces occur without fixing how numbers print.
- The element tree of the provider is a forest of `UIProvider.Node`s. Nodes carry unique ids, and the current panel is a path of child indices.

Modules, in dependency order:

- `Wrappers`, `Text`, `Numbers`
- `Handshake`, `Registry`, `Loader`
- `CanvasInterop`, `SharpEngineScript`
- `ToolTip`, `UIElement`, `UIPanel`
- `RadioButtons`, `ComboBox`, `CheckBox`, `TextBox`, `Label`, `KeyValueLabel`, `Button`, `Slider`, `StackPanel`
- `UIProvider`
- `BitmapIO`, `ManualInput`

## Model

| member | source | states |
|---|---|---|
| Handshake.Parse | Ab4d.SharpEngine.Samples.BlazorWebAssembly/CanvasInterop.cs:244-259 | A null or empty answer, or one without the `OK:` prefix, is declined. Only a text with the prefix can be accepted, and the WebGL2 flag is set iff the first field is `v2`. A failed field read keeps the fields assigned before it. |
| Handshake.SplitSuccessText | Ab4d.SharpEngine.Samples.BlazorWebAssembly/wwwroot/sharp-engine.js:106 | Splitting the success text after `OK:` on `;` gives back exactly the four fields written, because no field contains a `;`. |
| Handshake.ParseSuccessText | Ab4d.SharpEngine.Samples.BlazorWebAssembly/CanvasInterop.cs:255-259 | Round trip: every success text the script writes (32-bit sizes) is parsed back as the same version, width, height and device-pixel ratio. |
| Handshake.ParseOfFields | Ab4d.SharpEngine.Samples.BlazorWebAssembly/CanvasInterop.cs:255-259 | Any text with the `OK:` prefix whose second and third fields read as 32-bit integers and whose fourth reads as an invariant decimal is accepted with exactly those values. The version is WebGL 2 iff the first field is `v2`. |
| Handshake.ErrorTextsAreDeclined | Ab4d.SharpEngine.Samples.BlazorWebAssembly/wwwroot/sharp-engine.js:54-60 | Neither error text the script returns ("WebGL 1.0 is not supported", "Canvas not found: " + id) is ever taken for a success. |
| Numbers.ParseIntOfIntToString | Ab4d.SharpEngine.Samples.BlazorWebAssembly/CanvasInterop.cs:257-258 | `int.Parse` reads back every 32-bit integer from its decimal text. |
| Numbers.ParseFormatDecimal | Ab4d.SharpEngine.Samples.BlazorWebAssembly/CanvasInterop.cs:259 | The invariant-culture parse of a decimal's text gives back that decimal. |
| Numbers.ParseInt32Padded | Ab4d.SharpEngine.Samples.BlazorWebAssembly/UIProvider/ComboBoxUIElement.cs:107 | White space around an integer's text is skipped: `int.TryParse` reads the same value from the padded text. |
| Numbers.TrimWhiteOfPadded | Ab4d.SharpEngine.Samples.BlazorWebAssembly/UIProvider/ComboBoxUIElement.cs:107 | Trimming removes exactly the leading and trailing white space around a text that starts and ends with another character. |
| Text.SplitJoin | Ab4d.SharpEngine.Samples.BlazorWebAssembly/CanvasInterop.cs:255 | `Split` on a separator undoes joining fields that do not contain it. |
| Registry.Register | Ab4d.SharpEngine.Samples.BlazorWebAssembly/CanvasInterop.cs:264-272 | The first connected instance becomes the initial one, and later ones are appended to the additional list. The members in frame-tick order grow by exactly the new entry, and the registry keeps its shape (no empty list, no list without an initial instance). |
| Registry.FirstWithId | Ab4d.SharpEngine.Samples.BlazorWebAssembly/CanvasInterop.cs:221-232 | The scan returns the first entry with the id, and every earlier entry has another id. It returns null iff no entry has the id. |
| Registry.Find | Ab4d.SharpEngine.Samples.BlazorWebAssembly/CanvasInterop.cs:207-237 | A null id throws. Otherwise the initial instance is returned if its id matches, else the first matching additional instance, else null. A found instance is registered and has the id. |
| Registry.FindIsFirstMember | Ab4d.SharpEngine.Samples.BlazorWebAssembly/CanvasInterop.cs:215-232 | The fast path plus the list scan equals a plain first-match scan of all members in frame-tick order. |
| Registry.FindRegistered | Ab4d.SharpEngine.Samples.BlazorWebAssembly/CanvasInterop.cs:207-237 | With distinct canvas ids, every registered instance is found by its own id. |
| Registry.RemoveFirst | Ab4d.SharpEngine.Samples.BlazorWebAssembly/CanvasInterop.cs:536 | `List.Remove` leaves a list without the reference unchanged, and removes exactly one entry when the reference occurs. |
| Registry.Unregister | Ab4d.SharpEngine.Samples.BlazorWebAssembly/CanvasInterop.cs:523-540 | Disposing the initial instance promotes the first additional one and drops it from the list. The registry keeps its shape, and a list left empty becomes null. |
| Registry.UnregisterMembers | Ab4d.SharpEngine.Samples.BlazorWebAssembly/CanvasInterop.cs:523-540 | Unregistering removes exactly the first occurrence of the instance from the members and keeps the order of the rest. |
| Registry.PromotedIsFoundFirst | Ab4d.SharpEngine.Samples.BlazorWebAssembly/CanvasInterop.cs:527-531 | After the initial instance is disposed, the promoted instance is found by its id through the fast path. |
| Loader.Request | Ab4d.SharpEngine.Samples.BlazorWebAssembly/CanvasInterop.cs:307-324 | A browser fetch is issued iff the URL was not pending. The caller is appended to the URL's queue, or starts a one-element queue, and other URLs keep their queues. |
| Loader.RequestsCoalesce | Ab4d.SharpEngine.Samples.BlazorWebAssembly/CanvasInterop.cs:307-324 | Any number of requests for a URL not yet pending issue exactly one fetch, and the callers wait in request order. |
| Loader.LoadedCalls | Ab4d.SharpEngine.Samples.BlazorWebAssembly/CanvasInterop.cs:646-649 | On success every waiting caller's success callback is invoked once, in request order, with the content. |
| Loader.ErrorCalls | Ab4d.SharpEngine.Samples.BlazorWebAssembly/CanvasInterop.cs:638-644 | On failure only callers with an error callback are called, each with the error text. A queue without error callbacks calls nobody. |
| Loader.ErrorCallsAppend | Ab4d.SharpEngine.Samples.BlazorWebAssembly/CanvasInterop.cs:638-644 | The error calls for a queue are those of its parts, in order. |
| Loader.ErrorCallsReachAll | Ab4d.SharpEngine.Samples.BlazorWebAssembly/CanvasInterop.cs:638-644 | Every waiting caller with an error callback receives the error. |
| Loader.Complete | Ab4d.SharpEngine.Samples.BlazorWebAssembly/CanvasInterop.cs:628-651 | A completion removes the URL's queue and notifies it with the content, or with the error text. A missing error text defaults to the kind's "Error loading ...: " + URL. An unknown URL notifies nobody. |
| Loader.CompleteTwice | Ab4d.SharpEngine.Samples.BlazorWebAssembly/CanvasInterop.cs:630-634 | A second completion for the same URL finds nothing to notify. |
| Loader.RequestThenComplete | Ab4d.SharpEngine.Samples.BlazorWebAssembly/CanvasInterop.cs:299-325 | Requests followed by a successful completion call each success callback exactly once, in request order, and leave the URL no longer pending. |
| CanvasInterop.ClassifyImportFailure | Ab4d.SharpEngine.Samples.BlazorWebAssembly/CanvasInterop.cs:153-162 | A JS exception mentioning the failed fetch means a missing script, one starting with `SyntaxError:` means a broken script, and anything else is a load failure. |
| CanvasInterop.InitializeInterop | Ab4d.SharpEngine.Samples.BlazorWebAssembly/CanvasInterop.cs:135-174 | The call is marked as made before any check. The interop ends up initialised iff in a browser, the import succeeded and interop set-up succeeded. Each failure throws its own error, and a repeated call does nothing. |
| CanvasInterop.InitializeInteropOnce | Ab4d.SharpEngine.Samples.BlazorWebAssembly/CanvasInterop.cs:137-140 | Whatever happens on a later call, the first call decides: a failed initialisation is never retried. |
| CanvasInterop.NextIndex | Ab4d.SharpEngine.Samples.BlazorWebAssembly/CanvasInterop.cs:178 | `_canvasIndex++` on a 32-bit int stays in range and wraps from the maximum to the minimum. |
| CanvasInterop.GetNextCanvasId | Ab4d.SharpEngine.Samples.BlazorWebAssembly/CanvasInterop.cs:176-180 | The counter advances, and the id is `sharpEngineCanvas_` followed by the new counter value. |
| CanvasInterop.CanvasIdInjective | Ab4d.SharpEngine.Samples.BlazorWebAssembly/CanvasInterop.cs:179 | Different counter values give different canvas ids. |
| CanvasInterop.NextCanvasIdsAre | Ab4d.SharpEngine.Samples.BlazorWebAssembly/CanvasInterop.cs:176-180 | Before the counter wraps, `k` successive calls give the ids for the counter values n+1, ..., n+k. |
| CanvasInterop.GeneratedIdsDistinct | Ab4d.SharpEngine.Samples.BlazorWebAssembly/CanvasInterop.cs:176-180 | Before the counter wraps, generated canvas ids are pairwise distinct. |
| CanvasInterop.Construct | Ab4d.SharpEngine.Samples.BlazorWebAssembly/CanvasInterop.cs:122-132 | A new object has the given id or the next generated one (only the latter advances the counter). It is not connected, not disposed, has a ratio of 1, and is not registered. |
| CanvasInterop.CheckIsInitialized | Ab4d.SharpEngine.Samples.BlazorWebAssembly/CanvasInterop.cs:287-297 | No error iff initialise was called, the interop is initialised, and (when asked) the canvas is connected. Otherwise the first unmet condition, in that order, gives its own error. |
| CanvasInterop.Load | Ab4d.SharpEngine.Samples.BlazorWebAssembly/CanvasInterop.cs:299-325 | Before the interop is initialised, the request is parked for `WebGLInitialized`, even on a connected object. Afterwards it joins the URL's queue of its kind, and the browser is called only for a URL not yet queued. Other objects and kinds are unchanged. |
| CanvasInterop.LoadAll | Ab4d.SharpEngine.Samples.BlazorWebAssembly/CanvasInterop.cs:377-403 | Loads run in order. They touch only the object's queues, and its parked loads only while the interop is not initialised. |
| CanvasInterop.WithTable | Ab4d.SharpEngine.Samples.BlazorWebAssembly/CanvasInterop.cs:118-120 | Replacing one kind's queue table leaves the other two tables and the object's identity untouched. |
| CanvasInterop.InitWebGL | Ab4d.SharpEngine.Samples.BlazorWebAssembly/CanvasInterop.cs:240-285 | A failed precondition throws with nothing changed. Otherwise the browser's `initWebGLCanvas` is called with the MSAA and drawing-buffer options, the pointer-event flag given at construction, and the frame loop on. A declined answer changes nothing and logs "Error initializing WebGL Canvas: " plus the answer when it is not empty. A parse failure throws that error after storing the version, and the width and height if they were read; nothing else changes. An accepted answer continues as `Connect`. |
| CanvasInterop.Connect | Ab4d.SharpEngine.Samples.BlazorWebAssembly/CanvasInterop.cs:255-284 | Stores version, size, ratio and the MSAA and drawing-buffer flags. Subscribes pointer events as asked at construction. Registers the object and marks it connected. Empties its parked list. After the `initWebGLCanvas` call, the browser is asked for the first parked request of each URL not already pending, in request order, and every parked caller joins its URL's queue. Other objects, the flags, the counter and the ledger are unchanged. |
| CanvasInterop.Run | Ab4d.SharpEngine.Samples.BlazorWebAssembly/CanvasInterop.cs:416-454 | Cursor, capture and (un)subscribe commands throw without calling the browser unless the object is connected. Otherwise they make their one browser call, and only (un)subscribe change state: the pointer-events flag. |
| CanvasInterop.PendingUrls | Ab4d.SharpEngine.Samples.BlazorWebAssembly/CanvasInterop.cs:502 | The keys of a queue table contribute each URL once. |
| CanvasInterop.Dispose | Ab4d.SharpEngine.Samples.BlazorWebAssembly/CanvasInterop.cs:488-543 | A second dispose does nothing. The first raises `Disposing`, disconnects the canvas and clears the flags. It adds every pending URL of the three tables to the disposed-request list, empties the tables without calling anyone, and unregisters the object. No other field of the object, no other object, and neither the static flags nor the canvas counter change. |
| CanvasInterop.DisposeIdempotent | Ab4d.SharpEngine.Samples.BlazorWebAssembly/CanvasInterop.cs:490-491 | Disposing twice is the same as disposing once. |
| CanvasInterop.RemoveFirstSubset | Ab4d.SharpEngine.Samples.BlazorWebAssembly/CanvasInterop.cs:536 | Removing an entry never adds one, so a disposed object's registry stays consistent. |
| CanvasInterop.Deliver | Ab4d.SharpEngine.Samples.BlazorWebAssembly/CanvasInterop.cs:182-205 | A null id throws. With no registered object, one copy of the URL is removed from the disposed-request list and the console line says whether a disposed object asked for it. Otherwise the object's queue for the URL is completed and its callers notified in order. |
| CanvasInterop.NotifyAll | Ab4d.SharpEngine.Samples.BlazorWebAssembly/CanvasInterop.cs:640-650 | The callbacks are invoked in queue order, one effect each. |
| CanvasInterop.OnTextFileLoaded | Ab4d.SharpEngine.Samples.BlazorWebAssembly/CanvasInterop.cs:622-652 | Null content is a failure with the browser's error text. Otherwise the text is the content, delivered to the text queue. |
| CanvasInterop.OnBinaryFileLoaded | Ab4d.SharpEngine.Samples.BlazorWebAssembly/CanvasInterop.cs:654-684 | Null bytes are a failure. Otherwise the bytes are delivered to the binary queue. |
| CanvasInterop.MakeRawImage | Ab4d.SharpEngine.Samples.BlazorWebAssembly/CanvasInterop.cs:712 | The image keeps width, height and bytes, with a stride of 4 bytes a pixel. |
| CanvasInterop.OnImageBytesLoaded | Ab4d.SharpEngine.Samples.BlazorWebAssembly/CanvasInterop.cs:686-718 | Null bytes are a failure. Otherwise the RGBA image is delivered to the image queue. |
| CanvasInterop.Dispatch | Ab4d.SharpEngine.Samples.BlazorWebAssembly/CanvasInterop.cs:720-789 | Pointer, wheel and pinch callbacks raise the event on the object registered under the id, log the not-found warning when none is, and throw on a null id. |
| CanvasInterop.OnCanvasResized | Ab4d.SharpEngine.Samples.BlazorWebAssembly/CanvasInterop.cs:791-807 | The found object's width and height become the truncated sizes and its ratio the reported one, before `CanvasResized` is raised. A missing object only logs. |
| CanvasInterop.Resize | Ab4d.SharpEngine.Samples.BlazorWebAssembly/CanvasInterop.cs:800-804 | The object's width and height become the truncated sizes and its ratio the reported one; no other object or registration changes, and `CanvasResized` is raised for that object only. |
| CanvasInterop.OnFrameUpdate | Ab4d.SharpEngine.Samples.BlazorWebAssembly/CanvasInterop.cs:607-620 | A frame tick raises one frame event per registered object: the initial one first, then each additional one in list order. |
| CanvasInterop.FrameEvents | Ab4d.SharpEngine.Samples.BlazorWebAssembly/CanvasInterop.cs:613-619 | One frame event per member, in member order. |
| CanvasInterop.HandlesOf | Ab4d.SharpEngine.Samples.BlazorWebAssembly/CanvasInterop.cs:617 | The references the frame tick visits, in order. |
| CanvasInterop.RemoveFirstDropsOnly | Ab4d.SharpEngine.Samples.BlazorWebAssembly/CanvasInterop.cs:536 | When an instance occurs at most once, `Remove` drops every entry of it and keeps every other entry. |
| CanvasInterop.DisposedObjectGetsNoFrames | Ab4d.SharpEngine.Samples.BlazorWebAssembly/CanvasInterop.cs:523-540 | For an object registered once: if a frame tick still reaches the managed side after dispose, the object gets none and every other registered object gets one. The browser script stops the shared frame loop on dispose (`SharpEngineScript.DisconnectStopsEveryFrame`), so in practice no tick arrives. |
| CanvasInterop.AnswerAfterDispose | Ab4d.SharpEngine.Samples.BlazorWebAssembly/CanvasInterop.cs:186-201 | An answer to a request made before dispose notifies nobody. It consumes one copy of the URL from the disposed-request list and reports the request as made by a disposed object. |
| CanvasInterop.RequestThenAnswer | Ab4d.SharpEngine.Samples.BlazorWebAssembly/CanvasInterop.cs:299-325 | A request on a connected object makes one browser call. The answer reaches exactly its success callback and leaves the URL no longer pending. |
| CanvasInterop.ParkedLoadsIssuedOnConnect | Ab4d.SharpEngine.Samples.BlazorWebAssembly/CanvasInterop.cs:280-284 | For any list of loads parked before initialisation, a successful `InitWebGL` asks the browser for a (kind, URL) pair iff it was parked and not already pending. Every parked caller is queued under its URL, and callers already waiting stay at the front. |
| CanvasInterop.LoadAllFetchesFirstRequests | Ab4d.SharpEngine.Samples.BlazorWebAssembly/CanvasInterop.cs:299-325 | Once the interop is initialised, a series of loads calls the browser once per URL not already pending, at that URL's first request, in order. It queues every caller behind the callers already waiting, and adds no other URL. |
| CanvasInterop.LoadStep | Ab4d.SharpEngine.Samples.BlazorWebAssembly/CanvasInterop.cs:299-325 | One load of a series fetches iff it is the first request of a URL not pending before the series; the queues stay in step with the requests so far. |
| CanvasInterop.FetchesFromIff | Ab4d.SharpEngine.Samples.BlazorWebAssembly/CanvasInterop.cs:308-316 | The loads fetch a (kind, URL) pair iff it was not pending and is requested, and not before the given index. |
| CanvasInterop.WaitersForHas | Ab4d.SharpEngine.Samples.BlazorWebAssembly/CanvasInterop.cs:308-316 | Every caller of a series is among the waiters recorded for its own URL and kind. |
| SharpEngineScript.KeyboardModifiers | Ab4d.SharpEngine.Samples.BlazorWebAssembly/wwwroot/sharp-engine.js:526-528 | The modifier value lies in 0..7. |
| SharpEngineScript.ModifiersBijective | Ab4d.SharpEngine.Samples.BlazorWebAssembly/wwwroot/sharp-engine.js:526-528 | Shift=4, Ctrl=2, Alt=1 encode the three flags uniquely: decoding inverts encoding, and every value in 0..7 is some flag combination. |
| SharpEngineScript.GetCanvas | Ab4d.SharpEngine.Samples.BlazorWebAssembly/wwwroot/sharp-engine.js:514-524 | The initial canvas answers an empty id or its own id. Otherwise the document's element is returned, and an error is logged iff it is missing. |
| SharpEngineScript.SubscribeInt | Ab4d.SharpEngine.Samples.BlazorWebAssembly/wwwroot/sharp-engine.js:495-512 | Listeners are added to a found canvas when asked. The frame loop is requested iff asked for and not already running, and it is running afterwards. |
| SharpEngineScript.Subscribe | Ab4d.SharpEngine.Samples.BlazorWebAssembly/wwwroot/sharp-engine.js:284-289 | The canvas is looked up as `getCanvas` does: the initial canvas for an empty or matching id, otherwise the page's element, with a log line when it is missing. Listeners are added to the found canvas when asked. The frame loop is requested iff asked for and not already running, after the lookup's log line, and is running afterwards. Nothing else changes. |
| SharpEngineScript.FrameLoopStartedOnce | Ab4d.SharpEngine.Samples.BlazorWebAssembly/wwwroot/sharp-engine.js:508-511 | Two subscriptions start the frame loop once. |
| SharpEngineScript.Unsubscribe | Ab4d.SharpEngine.Samples.BlazorWebAssembly/wwwroot/sharp-engine.js:291-316 | Nothing happens before the interop is set. Afterwards the found canvas loses its listeners, and the frame flag stops the loop. |
| SharpEngineScript.OnFrameUpdate | Ab4d.SharpEngine.Samples.BlazorWebAssembly/wwwroot/sharp-engine.js:434-442 | A frame ticks the managed side and requests the next frame iff the interop is set and the loop is running. |
| SharpEngineScript.UnsubscribeStopsFrames | Ab4d.SharpEngine.Samples.BlazorWebAssembly/wwwroot/sharp-engine.js:314-315 | After unsubscribing with the frame flag, the next frame does nothing, so the loop ends. |
| SharpEngineScript.EffectiveDpi | Ab4d.SharpEngine.Samples.BlazorWebAssembly/wwwroot/sharp-engine.js:77 | A missing or zero device-pixel ratio counts as 1, and any other ratio is kept. |
| SharpEngineScript.InitWebGLCanvas | Ab4d.SharpEngine.Samples.BlazorWebAssembly/wwwroot/sharp-engine.js:31-114 | A missing canvas or no WebGL returns its error text and changes nothing. Success returns the handshake with the version and back-buffer size. The canvas becomes the initial one if there is none, is observed with its size recorded, and gets its subscriptions. |
| SharpEngineScript.HandshakeAgrees | Ab4d.SharpEngine.Samples.BlazorWebAssembly/wwwroot/sharp-engine.js:102-112 | The managed parser accepts the script's answer iff the canvas was found and has WebGL. It then reads exactly the script's version, size and ratio, and it declines every other answer. |
| SharpEngineScript.ResizeOne | Ab4d.SharpEngine.Samples.BlazorWebAssembly/wwwroot/sharp-engine.js:445-492 | A canvas without a recorded size is skipped, and an unchanged size is silent. A changed size is recorded, and reported to the managed side when the interop is set. |
| SharpEngineScript.OnResize | Ab4d.SharpEngine.Samples.BlazorWebAssembly/wwwroot/sharp-engine.js:445-493 | Resizing only updates sizes of canvases already recorded. |
| SharpEngineScript.ResizeReportedOnce | Ab4d.SharpEngine.Samples.BlazorWebAssembly/wwwroot/sharp-engine.js:482-491 | The same size reported twice is forwarded at most once. |
| SharpEngineScript.CheckPinch | Ab4d.SharpEngine.Samples.BlazorWebAssembly/wwwroot/sharp-engine.js:543-576 | Pinching holds iff two touches are down. Leaving the pinch emits one end call. Entering it emits a start call, and continuing emits an update only when updates are asked for. A zero distance emits nothing. |
| SharpEngineScript.OnPointer | Ab4d.SharpEngine.Samples.BlazorWebAssembly/wwwroot/sharp-engine.js:579-613 | Pointer events are ignored before the interop is set. Afterwards the default action is cancelled, and the event is forwarded iff no pinch is in progress. The forwarded call matches the event's kind and carries its canvas, offsets and buttons. A press or release also carries the button and pointer id. The modifier value decodes back to the event's Shift, Control and Alt flags. |
| SharpEngineScript.OnWheel | Ab4d.SharpEngine.Samples.BlazorWebAssembly/wwwroot/sharp-engine.js:615-622 | The wheel is forwarded with its modifiers whenever the interop is set, pinch or not. |
| SharpEngineScript.OnTouchStart | Ab4d.SharpEngine.Samples.BlazorWebAssembly/wwwroot/sharp-engine.js:624-643 | A single touch becomes a move and a press of button 0, then the pinch check runs without updates. |
| SharpEngineScript.OnTouchMove | Ab4d.SharpEngine.Samples.BlazorWebAssembly/wwwroot/sharp-engine.js:645-661 | The pinch check runs with updates, then a single touch becomes a move with the left button held. |
| SharpEngineScript.OnTouchEnd | Ab4d.SharpEngine.Samples.BlazorWebAssembly/wwwroot/sharp-engine.js:663-682 | Lifting the last touch is a move and a release of button 0, then the pinch check runs without updates. |
| SharpEngineScript.PinchGesture | Ab4d.SharpEngine.Samples.BlazorWebAssembly/wwwroot/sharp-engine.js:543-613 | A two-finger gesture reports start, update and end once each, and pointer events in between are swallowed. |
| SharpEngineScript.DisconnectAsWritten | Ab4d.SharpEngine.Samples.BlazorWebAssembly/wwwroot/sharp-engine.js:381-401 | The disconnect as written keeps the observer and the size map created together. |
| SharpEngineScript.DisconnectAsWrittenKeepsObserving | Ab4d.SharpEngine.Samples.BlazorWebAssembly/wwwroot/sharp-engine.js:392-393 | With an observer present, a disconnected canvas stays observed. |
| SharpEngineScript.DisconnectAsWrittenThrows | Ab4d.SharpEngine.Samples.BlazorWebAssembly/wwwroot/sharp-engine.js:392-393 | Without an observer, disconnecting an existing canvas throws a TypeError. |
| SharpEngineScript.Disconnect | Ab4d.SharpEngine.Samples.BlazorWebAssembly/wwwroot/sharp-engine.js:381-401 | With the guard the code intends, disconnecting never throws once an observer exists. |
| SharpEngineScript.ConnectThenDisconnect | Ab4d.SharpEngine.Samples.BlazorWebAssembly/wwwroot/sharp-engine.js:381-401 | After connecting and then disconnecting, the canvas is unobserved, has no recorded size and no listeners, the frame loop is stopped and there is no initial canvas. |
| SharpEngineScript.DisconnectStopsEveryFrame | Ab4d.SharpEngine.Samples.BlazorWebAssembly/wwwroot/sharp-engine.js:381-384 | With the frame loop running, disconnecting one canvas stops the loop, so no further frame reaches any canvas. A second canvas that is still connected stays observed and also gets no frames. This holds with the observer guard as written and as intended. |
| SharpEngineScript.DisconnectSharedLoop | Ab4d.SharpEngine.Samples.BlazorWebAssembly/wwwroot/sharp-engine.js:381-401 | The same as `Disconnect`, except that the frame loop keeps its state while another canvas is still observed. |
| SharpEngineScript.DisconnectSharedLoopKeepsOthers | Ab4d.SharpEngine.Samples.BlazorWebAssembly/wwwroot/sharp-engine.js:381-401 | With the loop kept, a canvas that stays connected still gets a frame tick and the next frame request. |
| SharpEngineScript.DisconnectSharedLoopStopsLast | Ab4d.SharpEngine.Samples.BlazorWebAssembly/wwwroot/sharp-engine.js:381-401 | Disconnecting the last connected canvas still stops the loop. |
| ToolTip.Decorate | Ab4d.SharpEngine.Samples.BlazorWebAssembly/UIProvider/BlazorUIProvider.cs:266-272 | A trailing colon becomes " 🛈:". Without one, " 🛈" is appended. |
| ToolTip.UndecorateDecorate | Ab4d.SharpEngine.Samples.BlazorWebAssembly/UIProvider/BlazorUIProvider.cs:266-272 | Decoration loses nothing: the text before the key can be recovered from the shown label. |
| ToolTip.ParseTextAndToolTip | Ab4d.SharpEngine.Samples.BlazorWebAssembly/UIProvider/BlazorUIProvider.cs:250-281 | Null gives (null, null), and a text without the key is returned unchanged with no tool tip. Otherwise the text before the first key is decorated (null when empty), and the tool tip is what follows the key (null when nothing does). |
| ToolTip.FirstKeyAfterPrefix | Ab4d.SharpEngine.Samples.BlazorWebAssembly/UIProvider/BlazorUIProvider.cs:255 | In a text, then the key, then anything, the first key occurrence is right after the text. |
| ToolTip.ParseCompose | Ab4d.SharpEngine.Samples.BlazorWebAssembly/UIProvider/BlazorUIProvider.cs:250-281 | Parsing a label composed of a text, the key and a tool tip gives the decorated text and that tool tip. |
| ToolTip.ParseRecomposes | Ab4d.SharpEngine.Samples.BlazorWebAssembly/UIProvider/BlazorUIProvider.cs:274-278 | A label with the key has a tool tip iff something follows the first key, and the label is then text + key + tool tip. |
| UIElement.SetIsVisible | Ab4d.SharpEngine.Samples.BlazorWebAssembly/UIProvider/BlazorUIElement.cs:28-34 | The visibility getter returns the last value set, and the tool tip and margin are untouched. |
| UIElement.SetToolTip | Ab4d.SharpEngine.Samples.BlazorWebAssembly/UIProvider/BlazorUIElement.cs:72-78 | The tool-tip getter returns the last value set, and the rest is untouched. |
| UIElement.SetMargin | Ab4d.SharpEngine.Samples.BlazorWebAssembly/UIProvider/BlazorUIElement.cs:85-91 | `GetMargin` returns the four values set, and the rest is untouched. |
| UIElement.SettersCommute | Ab4d.SharpEngine.Samples.BlazorWebAssembly/UIProvider/BlazorUIElement.cs:28-91 | The three setters act on independent state, so their order does not matter. |
| UIElement.MarginStyle | Ab4d.SharpEngine.Samples.BlazorWebAssembly/UIProvider/BlazorUIElement.cs:118-124 | The margin style is empty iff all four margins are zero, and otherwise starts with the `margin: ` shorthand. |
| UIElement.MarginStyleOrder | Ab4d.SharpEngine.Samples.BlazorWebAssembly/UIProvider/BlazorUIElement.cs:118-124 | The shorthand lists the sides in CSS order (top, right, bottom, left), not the stored left-first order. |
| UIElement.VisibilityStyle | Ab4d.SharpEngine.Samples.BlazorWebAssembly/UIProvider/BlazorUIElement.cs:127-130 | Empty iff visible, and `display: none; ` otherwise. |
| UIElement.BaseStyle | Ab4d.SharpEngine.Samples.BlazorWebAssembly/UIProvider/BlazorUIElement.cs:118-130 | The shared style prefix is empty iff the element is visible with no margin. It consists only of margin and visibility pieces. |
| UIElement.BaseFailure | Ab4d.SharpEngine.Samples.BlazorWebAssembly/UIProvider/BlazorUIElement.cs:37-114 | The base text, style and update members throw an invalid-operation error. The base value and property members throw not-implemented. |
| UIPanel.ChildrenCount | Ab4d.SharpEngine.Samples.BlazorWebAssembly/UIProvider/BlazorUIPanel.cs:21 | The count is the length of the child list. |
| UIPanel.GetChild | Ab4d.SharpEngine.Samples.BlazorWebAssembly/UIProvider/BlazorUIPanel.cs:23 | The i-th child is returned iff i is in range. Otherwise an out-of-range error is thrown. |
| UIPanel.AddChild | Ab4d.SharpEngine.Samples.BlazorWebAssembly/UIProvider/BlazorUIPanel.cs:44-52 | A Blazor element is appended and the panel rebuilt once. Any other element changes nothing. |
| UIPanel.InsertChild | Ab4d.SharpEngine.Samples.BlazorWebAssembly/UIProvider/BlazorUIPanel.cs:54-62 | A Blazor element goes to index i, with later children shifted right, iff 0 ≤ i ≤ count. Otherwise an out-of-range error is thrown. Any other element changes nothing. |
| UIPanel.RemoveChildAt | Ab4d.SharpEngine.Samples.BlazorWebAssembly/UIProvider/BlazorUIPanel.cs:27-32 | Exactly index i is removed iff it is in range. Otherwise an out-of-range error is thrown. |
| UIPanel.FirstIndex | Ab4d.SharpEngine.Samples.BlazorWebAssembly/UIProvider/BlazorUIPanel.cs:34-42 | The first position of an element, or none iff it is absent. |
| UIPanel.RemoveChild | Ab4d.SharpEngine.Samples.BlazorWebAssembly/UIProvider/BlazorUIPanel.cs:34-42 | Only the first occurrence of the element is removed, and an absent element leaves the list as it was. A Blazor element always triggers one rebuild. |
| UIPanel.ClearChildren | Ab4d.SharpEngine.Samples.BlazorWebAssembly/UIProvider/BlazorUIPanel.cs:64-69 | Afterwards the count is 0, and there is one rebuild. |
| UIPanel.AddThenGet | Ab4d.SharpEngine.Samples.BlazorWebAssembly/UIProvider/BlazorUIPanel.cs:21-52 | An added child is read back at the old count, and the count grows by one. |
| UIPanel.InsertThenRemoveAt | Ab4d.SharpEngine.Samples.BlazorWebAssembly/UIProvider/BlazorUIPanel.cs:27-62 | Removing at the index just inserted at restores the list. |
| UIPanel.RemoveChildTakesOneCopy | Ab4d.SharpEngine.Samples.BlazorWebAssembly/UIProvider/BlazorUIPanel.cs:34-42 | Removing an element takes away exactly one copy of it. |
| UIPanel.RegenerationCount | Ab4d.SharpEngine.Samples.BlazorWebAssembly/UIProvider/BlazorUIPanel.cs:27-69 | For any series of list calls that does not throw, the panel is rebuilt once per call on a Blazor element and once per index or clear call. A call with an element of another framework does not rebuild it. |
| RadioButtons.Create | Ab4d.SharpEngine.Samples.BlazorWebAssembly/UIProvider/RadioButtonsUIElement.cs:21-46 | The group counter goes up by one and names the group. The items and selection are kept, and the key text is parsed for a tool tip. |
| RadioButtons.GroupNamesDistinct | Ab4d.SharpEngine.Samples.BlazorWebAssembly/UIProvider/RadioButtonsUIElement.cs:36-37 | Groups created one after another get pairwise distinct names. |
| RadioButtons.IndexOfItem | Ab4d.SharpEngine.Samples.BlazorWebAssembly/UIProvider/RadioButtonsUIElement.cs:168 | The first equal item, or none iff no item is equal. |
| RadioButtons.SetValue | Ab4d.SharpEngine.Samples.BlazorWebAssembly/UIProvider/RadioButtonsUIElement.cs:157-181 | An int selects iff it is in range (else out-of-range error), and a text selects its first equal item iff it is an item (else argument error). Any other type is an argument error, and an error changes nothing. |
| RadioButtons.Choose | Ab4d.SharpEngine.Samples.BlazorWebAssembly/UIProvider/RadioButtonsUIElement.cs:127-131 | Checking button i selects it and reports (i, items[i]). |
| RadioButtons.SetText | Ab4d.SharpEngine.Samples.BlazorWebAssembly/UIProvider/RadioButtonsUIElement.cs:142-149 | The key text is stored unparsed and read back as stored. |
| RadioButtons.Render | Ab4d.SharpEngine.Samples.BlazorWebAssembly/UIProvider/RadioButtonsUIElement.cs:88-140 | One button per item, all in the group. A button is checked iff its index is the selection. |
| UIElement.CountTrueExactlyAtIndex | Ab4d.SharpEngine.Samples.BlazorWebAssembly/UIProvider/RadioButtonsUIElement.cs:121-122 | When a mark means "the position is k", exactly one mark is set if k is a position and none otherwise. Radio buttons and combo-box options share this count. |
| RadioButtons.RenderCheckedCount | Ab4d.SharpEngine.Samples.BlazorWebAssembly/UIProvider/RadioButtonsUIElement.cs:121-122 | Exactly one button is checked when the selection is in range, and none otherwise. |
| RadioButtons.SetValueChecksOne | Ab4d.SharpEngine.Samples.BlazorWebAssembly/UIProvider/RadioButtonsUIElement.cs:157-181 | After an accepted `SetValue` exactly one button is checked. |
| ComboBox.Create | Ab4d.SharpEngine.Samples.BlazorWebAssembly/UIProvider/ComboBoxUIElement.cs:18-40 | Items and selection are kept, and the key text is parsed for a tool tip. |
| ComboBox.IndexOrMinusOne | Ab4d.SharpEngine.Samples.BlazorWebAssembly/UIProvider/ComboBoxUIElement.cs:152-155 | `Array.IndexOf` gives -1 iff the item is absent, and otherwise its first position. |
| ComboBox.SetValue | Ab4d.SharpEngine.Samples.BlazorWebAssembly/UIProvider/ComboBoxUIElement.cs:146-162 | An int is stored unchecked. A text stores its first position, or -1 without an error. Any other type is an argument error. |
| ComboBox.OnChange | Ab4d.SharpEngine.Samples.BlazorWebAssembly/UIProvider/ComboBoxUIElement.cs:105-113 | An unparsable value changes nothing. A parsed index is stored and reported with its item, or with null when out of range. |
| ComboBox.ChooseRenderedOption | Ab4d.SharpEngine.Samples.BlazorWebAssembly/UIProvider/ComboBoxUIElement.cs:105-125 | Choosing rendered option i reports (i, items[i]): the option's value text parses back to its index. |
| ComboBox.SetText | Ab4d.SharpEngine.Samples.BlazorWebAssembly/UIProvider/ComboBoxUIElement.cs:131-138 | The key text is stored unparsed. |
| ComboBox.RenderSelected | Ab4d.SharpEngine.Samples.BlazorWebAssembly/UIProvider/ComboBoxUIElement.cs:115-125 | Option i is marked selected iff i is the stored index. |
| ComboBox.RenderMarkCount | Ab4d.SharpEngine.Samples.BlazorWebAssembly/UIProvider/ComboBoxUIElement.cs:115-125 | Exactly one option is marked when the stored index is in range, and none when it is out of range. |
| ComboBox.UnknownItemMarksNothing | Ab4d.SharpEngine.Samples.BlazorWebAssembly/UIProvider/ComboBoxUIElement.cs:152-155 | Selecting an unknown item leaves no option marked. |
| CheckBox.Create | Ab4d.SharpEngine.Samples.BlazorWebAssembly/UIProvider/CheckBoxUIElement.cs:15-28 | The text is the parsed label (null becomes empty), a tool tip is set only when parsed, and the initial state is kept. |
| CheckBox.SetText | Ab4d.SharpEngine.Samples.BlazorWebAssembly/UIProvider/CheckBoxUIElement.cs:65-72 | The text is stored as given, with null read back as empty. |
| CheckBox.SetValue | Ab4d.SharpEngine.Samples.BlazorWebAssembly/UIProvider/CheckBoxUIElement.cs:80-87 | Accepted iff the value is a bool, which becomes the state. Anything else is an argument error. |
| CheckBox.OnChange | Ab4d.SharpEngine.Samples.BlazorWebAssembly/UIProvider/CheckBoxUIElement.cs:55-56 | The new state is true iff the event value is the bool true, and that state is what the action receives. |
| CheckBox.SetTextIsLiteral | Ab4d.SharpEngine.Samples.BlazorWebAssembly/UIProvider/CheckBoxUIElement.cs:21-72 | The constructor parses a label with a tool tip, but `SetText` shows it literally. |
| TextBox.Create | Ab4d.SharpEngine.Samples.BlazorWebAssembly/UIProvider/TextBoxUIElement.cs:16-26 | Null text becomes empty. The box is multi-line iff a height is given or the initial text has a line break. |
| TextBox.Render | Ab4d.SharpEngine.Samples.BlazorWebAssembly/UIProvider/TextBoxUIElement.cs:28-60 | A text area iff multi-line, otherwise an input. The style starts with margin and visibility. It has a width piece iff the width is positive, a height piece iff the height is positive, a font-size piece iff the provider's font size is positive, and scrolls iff multi-line. The numbers after margin and visibility are those sizes, in that order. |
| TextBox.SetText | Ab4d.SharpEngine.Samples.BlazorWebAssembly/UIProvider/TextBoxUIElement.cs:72-80 | Null becomes empty, and a re-render is requested. |
| TextBox.SetValue | Ab4d.SharpEngine.Samples.BlazorWebAssembly/UIProvider/TextBoxUIElement.cs:83-90 | Accepted iff a string, which replaces the text. Anything else is an argument error. |
| TextBox.OnInput | Ab4d.SharpEngine.Samples.BlazorWebAssembly/UIProvider/TextBoxUIElement.cs:62-63 | The stored text and the text passed on are the same: the value, or empty for null. |
| TextBox.KindFixedAtCreation | Ab4d.SharpEngine.Samples.BlazorWebAssembly/UIProvider/TextBoxUIElement.cs:23 | Typing a line break does not turn a single-line box into a text area. |
| Label.Create | Ab4d.SharpEngine.Samples.BlazorWebAssembly/UIProvider/LabelUIElement.cs:18-44 | The text is the parsed label and the tool tip is set only when parsed. A header is bold with the provider's header margins (8 more on top when its panel has children), and a plain label has no style and no margin. |
| Label.SetText | Ab4d.SharpEngine.Samples.BlazorWebAssembly/UIProvider/LabelUIElement.cs:91-99 | The new text is re-parsed. The tool tip is replaced only when the new text has one, and style and margin are kept. |
| Label.SetStyle | Ab4d.SharpEngine.Samples.BlazorWebAssembly/UIProvider/LabelUIElement.cs:107-114 | `GetStyle` returns the last style set, and nothing else changes. |
| Label.Sizes | Ab4d.SharpEngine.Samples.BlazorWebAssembly/UIProvider/LabelUIElement.cs:54-64 | The width, height, max-width and font-size entries each appear iff that size is positive. The numbers written are exactly the positive sizes, in that order. Neither flag appears. |
| Label.Flags | Ab4d.SharpEngine.Samples.BlazorWebAssembly/UIProvider/LabelUIElement.cs:68-72 | Bold iff the style string contains "bold" and italic iff it contains "italic", ignoring case. Nothing else appears. The key-value label uses the same entries. |
| Label.StyleTail | Ab4d.SharpEngine.Samples.BlazorWebAssembly/UIProvider/LabelUIElement.cs:54-72 | After the margin and visibility: each size entry iff its size is positive, the positive sizes in order, and bold and italic as the style string asks. |
| Label.RenderStyle | Ab4d.SharpEngine.Samples.BlazorWebAssembly/UIProvider/LabelUIElement.cs:52-73 | The span style starts with margin and visibility. Each size entry appears iff that size is positive, and after the base style the numbers are the positive width, height, max-width and font size, in that order. It is bold iff the style string asks for bold and italic iff it asks for italic, ignoring case. |
| Label.HeaderIsBold | Ab4d.SharpEngine.Samples.BlazorWebAssembly/UIProvider/LabelUIElement.cs:32-41 | A new header renders bold. |
| Label.WantsIgnoresCase | Ab4d.SharpEngine.Samples.BlazorWebAssembly/UIProvider/LabelUIElement.cs:68-72 | For every style string and word, upper-casing either one leaves the test unchanged. The test needs the whole word. |
| Text.ToUpperAsciiIdempotent | Ab4d.SharpEngine.Samples.BlazorWebAssembly/UIProvider/LabelUIElement.cs:68-72 | Upper-casing an upper-cased text changes nothing. |
| KeyValueLabel.Create | Ab4d.SharpEngine.Samples.BlazorWebAssembly/UIProvider/KeyValueLabelUIElement.cs:19-32 | The key is parsed for a tool tip, and the value is read once through `UpdateValue`. |
| KeyValueLabel.UpdateValue | Ab4d.SharpEngine.Samples.BlazorWebAssembly/UIProvider/KeyValueLabelUIElement.cs:34-41 | The value becomes the getter's result, and a re-render is requested. |
| KeyValueLabel.SetText | Ab4d.SharpEngine.Samples.BlazorWebAssembly/UIProvider/KeyValueLabelUIElement.cs:133-140 | The key text is stored literally and read back as stored. |
| KeyValueLabel.SetStyle | Ab4d.SharpEngine.Samples.BlazorWebAssembly/UIProvider/KeyValueLabelUIElement.cs:148-155 | `GetStyle` returns the last style set. |
| KeyValueLabel.DisplayText | Ab4d.SharpEngine.Samples.BlazorWebAssembly/UIProvider/KeyValueLabelUIElement.cs:125 | The value alone when the key is null or empty, otherwise key, a space, then the value. |
| KeyValueLabel.KeyStyle | Ab4d.SharpEngine.Samples.BlazorWebAssembly/UIProvider/KeyValueLabelUIElement.cs:53-62 | The key span starts with the key width and the 3px gap. It has a font size entry iff the provider's font size is positive, and bold and italic iff the style string asks for them. Its numbers are the key width, then the font size when positive. |
| KeyValueLabel.ValueStyle | Ab4d.SharpEngine.Samples.BlazorWebAssembly/UIProvider/KeyValueLabelUIElement.cs:76-85 | The value span has a font size entry iff the provider's font size is positive, and bold and italic iff the style string asks for them. Its only number is that font size. |
| KeyValueLabel.SpanStyle | Ab4d.SharpEngine.Samples.BlazorWebAssembly/UIProvider/KeyValueLabelUIElement.cs:105-114 | The single span starts with margin and visibility. It has a font size entry iff the font size is positive, and bold and italic iff asked. After margin and visibility, its only number is the font size. |
| KeyValueLabel.Render | Ab4d.SharpEngine.Samples.BlazorWebAssembly/UIProvider/KeyValueLabelUIElement.cs:43-127 | Two spans iff a key width is given, otherwise one span showing the display text. The two spans sit in a flex row that carries margin and visibility; each span has the font size iff positive and the flags iff asked, and the key span starts with the key width. The single span starts with margin and visibility and has the same font size and flag entries. |
| KeyValueLabel.UpdateShowsValue | Ab4d.SharpEngine.Samples.BlazorWebAssembly/UIProvider/KeyValueLabelUIElement.cs:34-41 | After an update the single span shows the key and the new value. |
| Button.Create | Ab4d.SharpEngine.Samples.BlazorWebAssembly/UIProvider/ButtonUIElement.cs:15-29 | The text is the parsed label (null becomes empty), the tool tip is set only when parsed, and width and alignment are kept. |
| Button.SetText | Ab4d.SharpEngine.Samples.BlazorWebAssembly/UIProvider/ButtonUIElement.cs:63-74 | The new text is re-parsed, the old tool tip is kept unless the new text has one, and the rest is unchanged. |
| Button.Style | Ab4d.SharpEngine.Samples.BlazorWebAssembly/UIProvider/ButtonUIElement.cs:38-46 | The style starts with margin and visibility. It aligns left iff asked (centre otherwise), has a width iff the width is positive, and has a font size iff the provider's font size is positive. After margin and visibility, its numbers are the width and then the font size, each when positive. |
| Button.StyleTail | Ab4d.SharpEngine.Samples.BlazorWebAssembly/UIProvider/ButtonUIElement.cs:40-46 | After margin and visibility: a width entry iff the width is positive, exactly one alignment entry, and a font size entry iff the font size is positive, with the numbers in that order. |
| Button.RelabelKeepsToolTip | Ab4d.SharpEngine.Samples.BlazorWebAssembly/UIProvider/ButtonUIElement.cs:63-74 | A new label without the key keeps the tool tip and is shown unchanged. |
| Slider.Create | Ab4d.SharpEngine.Samples.BlazorWebAssembly/UIProvider/SliderUIElement.cs:27-67 | Bounds and value are kept, and the key is parsed. With a formatter and no width, the read-out width is 8 pixels a character of the longer formatted bound plus 10, so it is at least the width of either bound. |
| Slider.UpdateValue | Ab4d.SharpEngine.Samples.BlazorWebAssembly/UIProvider/SliderUIElement.cs:172-177 | The value becomes the getter's result, and nothing else changes. |
| Slider.FromInt | Ab4d.SharpEngine.Samples.BlazorWebAssembly/UIProvider/SliderUIElement.cs:197-198 | An int converts to a float of the same value. |
| Slider.SetValue | Ab4d.SharpEngine.Samples.BlazorWebAssembly/UIProvider/SliderUIElement.cs:195-207 | Accepted iff an int, float or double, which becomes the value. Anything else is an argument error. |
| Slider.SetProperty | Ab4d.SharpEngine.Samples.BlazorWebAssembly/UIProvider/SliderUIElement.cs:209-221 | "Maximum"/"Minimum" in any case set that bound from the parsed value. Either name with a malformed value throws a format error and nothing else does. Other names change nothing. |
| Slider.GetPropertyValue | Ab4d.SharpEngine.Samples.BlazorWebAssembly/UIProvider/SliderUIElement.cs:223-232 | A value exists iff the name is one of the two bounds, in any case. It is the invariant text of the maximum for "Maximum" and of the minimum for "Minimum". |
| Slider.NamesDiffer | Ab4d.SharpEngine.Samples.BlazorWebAssembly/UIProvider/SliderUIElement.cs:211-219 | No name matches both bounds. |
| Slider.SetThenGetProperty | Ab4d.SharpEngine.Samples.BlazorWebAssembly/UIProvider/SliderUIElement.cs:209-232 | A bound written through `SetProperty` is read back unchanged through `GetPropertyValue`, whatever the letter case of either name. |
| Slider.OnInput | Ab4d.SharpEngine.Samples.BlazorWebAssembly/UIProvider/SliderUIElement.cs:154-167 | An unparsable value changes nothing. A parsed one becomes the value and is handed to the set action. |
| Slider.InputRoundTrip | Ab4d.SharpEngine.Samples.BlazorWebAssembly/UIProvider/SliderUIElement.cs:154-167 | Moving the slider to a shown value hands exactly that value to the action. |
| StackPanel.Create | Ab4d.SharpEngine.Samples.BlazorWebAssembly/UIProvider/StackPanelUIElement.cs:19-31 | A new panel has a 5 pixel margin on each side, no children and the given configuration. |
| StackPanel.Horizontal | Ab4d.SharpEngine.Samples.BlazorWebAssembly/UIProvider/StackPanelUIElement.cs:58-60 | Left wins, then right, and with neither the panel is centred. |
| StackPanel.Vertical | Ab4d.SharpEngine.Samples.BlazorWebAssembly/UIProvider/StackPanelUIElement.cs:62-64 | Top wins, then bottom, and with neither the panel is centred. |
| StackPanel.Frame | Ab4d.SharpEngine.Samples.BlazorWebAssembly/UIProvider/StackPanelUIElement.cs:48-55 | A border iff asked for, with a semi-transparent or white background accordingly. |
| StackPanel.Prefix | Ab4d.SharpEngine.Samples.BlazorWebAssembly/UIProvider/StackPanelUIElement.cs:43-55 | Absolute placement iff a top-level panel, then margin and visibility, then the frame. No edge placement appears before the placement part. |
| StackPanel.OuterStyle | Ab4d.SharpEngine.Samples.BlazorWebAssembly/UIProvider/StackPanelUIElement.cs:43-64 | The outer style is the prefix followed by the horizontal and then the vertical placement. |
| StackPanel.EdgePieceAtEnd | Ab4d.SharpEngine.Samples.BlazorWebAssembly/UIProvider/StackPanelUIElement.cs:58-64 | An edge rule occurs in the style only as one of the two placements. |
| StackPanel.OuterStylePlacement | Ab4d.SharpEngine.Samples.BlazorWebAssembly/UIProvider/StackPanelUIElement.cs:58-64 | The Left piece (`left: 0; ` alone) appears iff Left is set. The Right piece (`right: 0; ` alone) appears iff Right is set without Left. The same holds for the Top and Bottom pieces. The centred pieces (`left: 0; right: 0; …` and `top: 50%; bottom: 50%; …`) are separate pieces, so the CSS text of a centred panel still contains `left: 0`. |
| StackPanel.ContentStyle | Ab4d.SharpEngine.Samples.BlazorWebAssembly/UIProvider/StackPanelUIElement.cs:76-84 | A column iff the panel is vertical, a row otherwise. |
| StackPanel.RenderedChildren | Ab4d.SharpEngine.Samples.BlazorWebAssembly/UIProvider/StackPanelUIElement.cs:86-89 | Children are rendered in list order, one per child. |
| UIProvider.AllIdsConcat | Ab4d.SharpEngine.Samples.BlazorWebAssembly/UIProvider/BlazorUIProvider.cs:235-248 | The ids of two lists are those of each list in turn. |
| UIProvider.AllIdsSplit | Ab4d.SharpEngine.Samples.BlazorWebAssembly/UIProvider/BlazorUIProvider.cs:235-248 | The ids of a list split around one node. |
| UIProvider.FreshAfterAdd | Ab4d.SharpEngine.Samples.BlazorWebAssembly/UIProvider/BlazorUIProvider.cs:72-105 | Adding a node with the next id keeps ids unique. |
| UIProvider.AppendAt | Ab4d.SharpEngine.Samples.BlazorWebAssembly/UIProvider/BlazorUIProvider.cs:95-102 | The panel a path leads to gets the node appended at the end of its children, and every path stays valid. |
| UIProvider.AppendAtIds | Ab4d.SharpEngine.Samples.BlazorWebAssembly/UIProvider/BlazorUIProvider.cs:95-102 | Appending adds exactly the new node's ids to the tree. |
| UIProvider.ReplaceIds | Ab4d.SharpEngine.Samples.BlazorWebAssembly/UIProvider/BlazorUIProvider.cs:95-102 | Replacing a node by one with extra ids adds exactly those ids. |
| UIProvider.ResolveAfterRootAppend | Ab4d.SharpEngine.Samples.BlazorWebAssembly/UIProvider/BlazorUIProvider.cs:97-98 | Adding at the root keeps every existing path leading where it did. |
| UIProvider.GetSettingText | Ab4d.SharpEngine.Samples.BlazorWebAssembly/UIProvider/BlazorUIProvider.cs:379-385 | The stored text for a known key, null for an unknown one. |
| UIProvider.GetSettingFloat | Ab4d.SharpEngine.Samples.BlazorWebAssembly/UIProvider/BlazorUIProvider.cs:387-396 | A number iff the stored text parses. Its value is the parsed one, and NaN otherwise. |
| UIProvider.OnSettingsChanged | Ab4d.SharpEngine.Samples.BlazorWebAssembly/UIProvider/BlazorUIProvider.cs:410-435 | The standard margin and font size are re-read (NaN gives 0). The header margins are re-read, or default to 2 and 1.3 times the new standard margin. Nothing else changes. |
| UIProvider.SetSettingText | Ab4d.SharpEngine.Samples.BlazorWebAssembly/UIProvider/BlazorUIProvider.cs:398-402 | The text (null included) is stored under the key and the layout values re-read. |
| UIProvider.SetSettingFloat | Ab4d.SharpEngine.Samples.BlazorWebAssembly/UIProvider/BlazorUIProvider.cs:404-408 | The invariant text of the number is stored, and `GetSettingFloat` reads the same number back. |
| UIProvider.SettingTextRoundTrip | Ab4d.SharpEngine.Samples.BlazorWebAssembly/UIProvider/BlazorUIProvider.cs:379-402 | A text written under a key is read back, and other keys are unaffected. |
| UIProvider.StandardMarginDrivesDefaults | Ab4d.SharpEngine.Samples.BlazorWebAssembly/UIProvider/BlazorUIProvider.cs:39-40 | With the header margins cleared, they follow the standard margin written. |
| UIProvider.UnsubscribePointer | Ab4d.SharpEngine.Samples.BlazorWebAssembly/UIProvider/BlazorUIProvider.cs:58-62 | A recorded pointer-moved subscription is dropped once. |
| UIProvider.WriteDefaults | Ab4d.SharpEngine.Samples.BlazorWebAssembly/UIProvider/BlazorUIProvider.cs:63-69 | The default settings are written and the layout values re-read. |
| UIProvider.DefaultLayout | Ab4d.SharpEngine.Samples.BlazorWebAssembly/UIProvider/BlazorUIProvider.cs:63-69 | The defaults give margin 3, header margins 6 and 3.9, and font size 14. |
| UIProvider.WriteLayout | Ab4d.SharpEngine.Samples.BlazorWebAssembly/UIProvider/BlazorUIProvider.cs:60-63 | Four `SetSettingFloat` writes into an emptied map leave exactly the four invariant texts under the four layout keys. The layout is the one re-read from that map. |
| UIProvider.LayoutOfSettings | Ab4d.SharpEngine.Samples.BlazorWebAssembly/UIProvider/BlazorUIProvider.cs:410-435 | Settings holding the texts of four numbers under the layout keys give those four numbers as standard margin, header margins and font size. |
| UIProvider.SettingFloatOfFormat | Ab4d.SharpEngine.Samples.BlazorWebAssembly/UIProvider/BlazorUIProvider.cs:387-396 | A setting that holds a decimal's invariant text reads back as that decimal's value. |
| UIProvider.ResetSettings | Ab4d.SharpEngine.Samples.BlazorWebAssembly/UIProvider/BlazorUIProvider.cs:56-70 | Only the default settings remain, the layout values follow them, the pointer subscription is dropped, and the tree is untouched. |
| UIProvider.New | Ab4d.SharpEngine.Samples.BlazorWebAssembly/UIProvider/BlazorUIProvider.cs:46-54 | A new provider is empty, has no current panel or separator and no pointer subscription. It holds the default settings: margin 3, header margins 6 and 3.9, font size 14. |
| UIProvider.AddSeparator | Ab4d.SharpEngine.Samples.BlazorWebAssembly/UIProvider/BlazorUIProvider.cs:217-220 | Separator heights add up, and nothing else changes. |
| UIProvider.PlacedMargin | Ab4d.SharpEngine.Samples.BlazorWebAssembly/UIProvider/BlazorUIProvider.cs:74-93 | With a pending separator or a standard margin, the element's top margin (or the standard margin when that is 0) plus the separator goes on top in a vertical panel. In a horizontal panel it goes on the left, and the old left margin is lost. Otherwise the margin is kept. |
| UIProvider.AddNode | Ab4d.SharpEngine.Samples.BlazorWebAssembly/UIProvider/BlazorUIProvider.cs:95-102 | The node is appended to the current panel's children, or to the root list when there is no current panel. Ids stay unique. |
| UIProvider.InTreeLast | Ab4d.SharpEngine.Samples.BlazorWebAssembly/UIProvider/BlazorUIProvider.cs:97-98 | A node appended at the root is in the tree. |
| UIProvider.InTreeIndex | Ab4d.SharpEngine.Samples.BlazorWebAssembly/UIProvider/BlazorUIProvider.cs:95-102 | A node at or below a root entry is in the tree. |
| UIProvider.InTreeAtPath | Ab4d.SharpEngine.Samples.BlazorWebAssembly/UIProvider/BlazorUIProvider.cs:100-101 | The last child of a panel in the tree is in the tree. |
| UIProvider.AddToCurrentPanel | Ab4d.SharpEngine.Samples.BlazorWebAssembly/UIProvider/BlazorUIProvider.cs:72-105 | The element, with its placed margin, is the new last entry of the target list. The separator is consumed when used, and one state change is notified. |
| UIProvider.CreateKeyValueLabel | Ab4d.SharpEngine.Samples.BlazorWebAssembly/UIProvider/BlazorUIProvider.cs:152-158 | Two notifications: one from the constructor's `UpdateValue` and one from adding. The new key-value element, with the key's parsed tool tip, is appended to the current panel and the provider stays valid. |
| UIProvider.CreateLabel | Ab4d.SharpEngine.Samples.BlazorWebAssembly/UIProvider/BlazorUIProvider.cs:144-150 | The label gets the provider's header margins and whether its panel already has children, then it is added like any element. |
| UIProvider.HeaderSpacing | Ab4d.SharpEngine.Samples.BlazorWebAssembly/UIProvider/BlazorUIProvider.cs:72-93 | A header in a vertical panel sits the header top margin plus the pending separator below its predecessor, and the separator is consumed. |
| UIProvider.SeparatorsAccumulate | Ab4d.SharpEngine.Samples.BlazorWebAssembly/UIProvider/BlazorUIProvider.cs:217-220 | Two separators before an element add to its top spacing together with the standard margin. |
| UIProvider.CreateStackPanel | Ab4d.SharpEngine.Samples.BlazorWebAssembly/UIProvider/BlazorUIProvider.cs:119-137 | The panel is added to the parent, or to the root without one, and becomes current. |
| UIProvider.ResolveChild | Ab4d.SharpEngine.Samples.BlazorWebAssembly/UIProvider/BlazorUIProvider.cs:128-132 | A child index appended to a panel path leads to that child. |
| UIProvider.SetCurrentPanel | Ab4d.SharpEngine.Samples.BlazorWebAssembly/UIProvider/BlazorUIProvider.cs:139-142 | A panel of the tree becomes current, and anything else clears the current panel. |
| UIProvider.ClearAll | Ab4d.SharpEngine.Samples.BlazorWebAssembly/UIProvider/BlazorUIProvider.cs:107-117 | No elements, no current panel, no separator, the default settings, and one notification. |
| UIProvider.Updates | Ab4d.SharpEngine.Samples.BlazorWebAssembly/UIProvider/BlazorUIProvider.cs:235-248 | Only ids of the tree are updated. |
| UIProvider.UpdatesComplete | Ab4d.SharpEngine.Samples.BlazorWebAssembly/UIProvider/BlazorUIProvider.cs:235-248 | Every element that supports updates, at any depth, is updated. |
| UIProvider.UpdatesSound | Ab4d.SharpEngine.Samples.BlazorWebAssembly/UIProvider/BlazorUIProvider.cs:235-248 | Every updated id belongs to an element that supports updates. |
| UIProvider.UpdatePass | Ab4d.SharpEngine.Samples.BlazorWebAssembly/UIProvider/BlazorUIProvider.cs:224-247 | The walk updates exactly the ids `Updates` lists, in that order, and notifies once per key-value label in the forest. The slider's update does not notify. |
| UIProvider.UpdateAllValues | Ab4d.SharpEngine.Samples.BlazorWebAssembly/UIProvider/BlazorUIProvider.cs:222-233 | The updated ids are those `Updates` lists, all of them tree ids. The notifications are one per key-value label plus one for the pass, and nothing else changes. |
| UIProvider.KeyValueLabelNotifiesOnUpdate | Ab4d.SharpEngine.Samples.BlazorWebAssembly/UIProvider/KeyValueLabelUIElement.cs:34-41 | A key-value label added at the root is updated last in every later pass and adds one notification to it. |
| UIProvider.UpdateAllValuesExactlyOnce | Ab4d.SharpEngine.Samples.BlazorWebAssembly/UIProvider/BlazorUIProvider.cs:222-248 | Every element that supports updates is updated exactly once, and nothing else is updated. |
| UIProvider.NotifyStateChanged | Ab4d.SharpEngine.Samples.BlazorWebAssembly/UIProvider/BlazorUIProvider.cs:441-444 | One more notification, and nothing else changes. |
| UIProvider.RegisterPointerMoved | Ab4d.SharpEngine.Samples.BlazorWebAssembly/UIProvider/BlazorUIProvider.cs:458-468 | It succeeds iff there is a canvas interop. A handler is then attached to it and the interop remembered, and otherwise nothing changes. |
| UIProvider.RegisterTwiceLeavesOne | Ab4d.SharpEngine.Samples.BlazorWebAssembly/UIProvider/BlazorUIProvider.cs:56-62 | Registering twice and then clearing leaves one handler attached, because only the last subscription is remembered. |
| BitmapIO.StripDot | Ab4d.SharpEngine.Samples.BlazorWebAssembly/BrowserBitmapIO.cs:84-85 | Exactly one leading dot is removed. |
| BitmapIO.IsFileFormatSupported | Ab4d.SharpEngine.Samples.BlazorWebAssembly/BrowserBitmapIO.cs:80-94 | Null throws. Otherwise the answer is true iff the extension without its dot equals some format, ignoring case. |
| BitmapIO.IsFileFormatImportSupported | Ab4d.SharpEngine.Samples.BlazorWebAssembly/BrowserBitmapIO.cs:34-37 | True iff the extension without its dot is PNG, JPG, BMP or GIF in any case. Null throws. |
| BitmapIO.IsFileFormatExportSupported | Ab4d.SharpEngine.Samples.BlazorWebAssembly/BrowserBitmapIO.cs:40-43 | Never supported. |
| BitmapIO.IsStreamSupported | Ab4d.SharpEngine.Samples.BlazorWebAssembly/BrowserBitmapIO.cs:46 | Never supported. |
| BitmapIO.Perform | Ab4d.SharpEngine.Samples.BlazorWebAssembly/BrowserBitmapIO.cs:49-69 | Every synchronous load and save throws not-supported. |
| BitmapIO.FixDirectorySeparator | Ab4d.SharpEngine.Samples.BlazorWebAssembly/BrowserBitmapIO.cs:72-78 | The result has the same length. Every `/` and `\` becomes the platform separator (`\` when that is the separator, `/` otherwise), and every other character is kept. |
| BitmapIO.FixDirectorySeparatorIdempotent | Ab4d.SharpEngine.Samples.BlazorWebAssembly/BrowserBitmapIO.cs:72-78 | Fixing a fixed path changes nothing. |
| ManualInput.Subscribe | Ab4d.SharpEngine.Samples.Common.Blazor/HitTesting/BlazorManualInputEventsSample.cs:19-31 | Without a canvas interop nothing happens. Otherwise the three handlers are attached and the canvas remembered. |
| ManualInput.Unsubscribe | Ab4d.SharpEngine.Samples.Common.Blazor/HitTesting/BlazorManualInputEventsSample.cs:76-86 | Exactly the three handlers come off the remembered canvas, which is forgotten. It is a no-op when nothing is subscribed. |
| ManualInput.OnDisposed | Ab4d.SharpEngine.Samples.Common.Blazor/HitTesting/BlazorManualInputEventsSample.cs:33-37 | Disposal unsubscribes. |
| ManualInput.SubscribeThenDispose | Ab4d.SharpEngine.Samples.Common.Blazor/HitTesting/BlazorManualInputEventsSample.cs:19-86 | Subscribing and then disposing leaves the canvas's handlers as they were. |
| ManualInput.OnPointerDown | Ab4d.SharpEngine.Samples.Common.Blazor/HitTesting/BlazorManualInputEventsSample.cs:45-59 | Ignored while pressed. Otherwise the flag takes the left-button state, and a press is reported iff it became set. |
| ManualInput.OnPointerUp | Ab4d.SharpEngine.Samples.Common.Blazor/HitTesting/BlazorManualInputEventsSample.cs:61-73 | Ignored while released. Otherwise the flag takes the left-button state, and a release is reported iff it became clear. |
| ManualInput.EdgesAlternate | Ab4d.SharpEngine.Samples.Common.Blazor/HitTesting/BlazorManualInputEventsSample.cs:45-73 | Whatever the canvas reports, presses and releases alternate strictly, starting with the one the initial state allows, and the final flag matches the last edge. |
| ManualInput.ShowMessage | Ab4d.SharpEngine.Samples.Common.Blazor/HitTesting/BlazorManualInputEventsSample.cs:88-98 | Without a text box nothing happens. Otherwise the text is the message, a line break, and the old text cut to its first 2000 characters. |
| ManualInput.ShowMessageBounded | Ab4d.SharpEngine.Samples.Common.Blazor/HitTesting/BlazorManualInputEventsSample.cs:94-95 | However many messages are shown, the text never exceeds the last message plus 2001 characters. |

## Findings

| source | as written | input that shows it | evidently intended | confidence | as-written member | corrected member |
|---|---|---|---|---|---|---|
| Ab4d.SharpEngine.Samples.BlazorWebAssembly/wwwroot/sharp-engine.js:392-393 | `disconnectWebGLCanvas` calls `resizeObserver.unobserve(canvas)` only when `resizeObserver` is falsy. | Connect a canvas, which creates the observer, then disconnect it: the canvas stays observed. Disconnect an existing canvas on a page that never connected one: `unobserve` is called on `undefined` and throws a TypeError. | Unobserve when the observer exists. | high, not executed | SharpEngineScript.DisconnectAsWrittenKeepsObserving | SharpEngineScript.ConnectThenDisconnect |
| Ab4d.SharpEngine.Samples.BlazorWebAssembly/wwwroot/sharp-engine.js:314-315 | `disconnectWebGLCanvas` unsubscribes with the frame flag set, and that sets the module-wide `isUpdating` to false. The script runs one frame loop for every canvas. | Connect two canvases, then dispose the `CanvasInterop` of one of them: the loop stops, and the other canvas gets no more `OnFrameUpdate` calls. | Stop the frame loop only when no connected canvas remains. | medium, not executed | SharpEngineScript.DisconnectStopsEveryFrame | SharpEngineScript.DisconnectSharedLoopKeepsOthers |

`SharpEngineScript.DisconnectAsWritten` models the code as written. `SharpEngineScript.Disconnect` models it with the guard negated, and `SharpEngineScript.ConnectThenDisconnect` proves that connecting and then disconnecting a canvas leaves it unobserved. Without an observer the size map does not exist either, so `canvasToDisplaySizeMap.delete` still throws in that case. Both versions keep this behaviour.

The frame loop is modelled as written by `SharpEngineScript.Disconnect` and `DisconnectAsWritten`: both stop it. `SharpEngineScript.DisconnectSharedLoop` is the corrected definition, and it differs only in the frame flag. `CanvasInterop.DisposedObjectGetsNoFrames` is stated for a tick that still reaches the managed side.

## Left out

- Browser I/O is not modelled: `fetch`, image decoding and `OffscreenCanvas` in `loadTextFile`/`loadBinaryFile`/`loadImageBytes`. What they answer is the `outcome` parameter of `CanvasInterop.Deliver`.
- WebGL context creation is left out. `SharpEngineScript.InitWebGLCanvas` takes the context support it gets as a parameter.
- ResizeObserver box measurement and `Math.round` of the scaled sizes are left out. The rounded size arrives in a `ResizeEntry`.
- The pinch distance and centre (`Math.hypot`, averaging) are left out. They arrive in the `TouchEvent`.
- Spector capture (`StartSpectorCapture`, `StopSpectorCapture`) is left out: it is a debugging aid that loads an external script.
- `ShowRawBitmap` and `GetCanvasSizeJs` are left out: they are one-line pass-throughs to the browser.
- `LoadTextFileAsync`, `LoadBinaryFileAsync` and `LoadImageBytesAsync` are left out. They only wrap the callback versions in a task.
- Console lines behind the `IsLoggingInteropEvents`/`isLogging` switches are left out; the switches are off.
- `CanvasInterop.Dispatch`: the context-lost callback also writes one unconditional console line before the lookup, which is not modelled.
- `CanvasInterop.Dispatch`: events are modelled up to the handle they are raised on. The event arguments' enum casts and the subscribers' own code are not part of this model.
- The JS-to-.NET marshalling is not modelled. This includes the pointer-down call passing seven arguments to a five-parameter callback.
- `RawImageData`'s transparency check is engine code and is left out. `CanvasInterop.MakeRawImage` keeps width, height, stride and bytes.
- The `WebGLInitialized` event is modelled only as the list of loads parked on it. Other subscribers are caller code.
- `Handshake.Parse` reads integers and decimals as `Numbers.ParseInt32` and `Numbers.ParseDecimal` do. These skip surrounding white space and take a leading sign. A decimal may leave out its whole or its fraction part (`.5`, `5.`). Exponents, group separators, `Infinity`/`NaN`, culture-specific signs and `float` rounding are not modelled.
- `ComboBox.OnChange`: `int.TryParse` uses the current culture. The model reads the invariant forms only (white space, sign, digits). A culture-specific sign or digit form is treated as not a number.
- `Slider.OnInput`: `float.TryParse` also reads exponents (`1e3`), group separators and `Infinity`/`NaN`. The model treats these as not a number, so the slider keeps its value where .NET would take one.
- `Slider.SetProperty`: `float.Parse` also reads exponents, group separators and `Infinity`/`NaN`. The model throws a format error for these where .NET would set the bound.
- `CanvasInterop.InitWebGL` stores the device-pixel ratio as an exact real; rounding to `float` is not modelled.
- `CanvasInterop.OnCanvasResized` truncates sizes toward zero as `(int)` does for in-range values. The out-of-range result of the cast is not modelled.
- `RadioButtons.Create`: the static group counter is a `nat`. The 32-bit wrap after 2^31 groups is not modelled.
- Case-insensitive comparisons (`Text.EqualsIgnoreCase`, `Label.Wants`) fold ASCII letters only. .NET's invariant-culture folding of other scripts is not modelled.
- `ToolTip.ParseTextAndToolTip` searches for the key ordinally. .NET's culture-aware `IndexOf` (ignorable characters) is not modelled.
- The tool-tip glyph U+1F6C8 is one character here, but two UTF-16 units in .NET. Lengths used in the model are counted in characters.
- `ManualInput.ShowMessage` counts the 2000-character cut in characters, not UTF-16 units, and the line break is `"\n"` (`Environment.NewLine` in the browser).
- `BitmapIO.FixDirectorySeparator` takes the platform's directory separator as a parameter.
- `SetColor` and the `(int)(c*255)` colour conversion are left out: floating-point colour arithmetic with no state beyond a style text.
- Blazor `RenderTreeBuilder` output is reduced to the element kind and the style pieces (for the key-value label's two-span form, the flex row's style and the two span styles). Sequence numbers and event-callback factories are left out.
- `Slider.Create`: the slider getter and the read-out formatter are caller code, so their results are parameters. A `float` is its decimal text, without rounding to single precision.
- `UIProvider.GetSettingFloat`: NaN is `None`, and parsing follows `Numbers.ParseDecimal`. .NET's culture-specific parse forms are not modelled.
- `UIProvider.DefaultLayout`: the 1.3 factor and the 3.9 default are exact reals. The float-to-double widening of 3.9f and of 1.3 times the margin is not modelled.
- The other `Create*` factories of the provider (button, slider, combo box, radio buttons, check box, text box) are `UIProvider.AddToCurrentPanel` with the element's kind. The element state each one builds is the `Create` of its element module.
- `CreateMarkdownText`, `RegisterKeyDown` and `RegisterFileDropped` are left out. The first adds nothing the label does not, and the other two only return `false`.
- `GetAllSettingKeys` and `GetRootUIElements` are left out: they are read-only views of the settings map and the root list.
- The state-changed callback is counted (`notifications`) rather than called.
- `UIProvider.SetCurrentPanel`: a panel object that is not part of the tree (detached) becomes "no current panel" here. The model addresses panels by their path in the tree.
- `UIProvider.CreateStackPanel` requires an explicit parent to be a panel of the tree, for the same reason.
- `OnPointerMoved` of the provider (the pointer position handed to the registered action) is caller code and left out.
- The older copy of the bridge script at the repository root (`wwwroot/sharp-engine.js`) is superseded. Its handshake has no version field, and it is not part of this model.

=== FILE: bitmap_io.dfy ===
/** `BrowserBitmapIO`: the browser's bitmap reader answers which file
    extensions it can import; export, streams and the synchronous load and
    save calls are not supported.
 */
module BitmapIO {
  import opened Wrappers
  import Text

  const SupportedLoadFileExtensions: seq<string> := ["png", "jpg", "bmp", "gif"]

  /** The extension with one leading dot removed. */
  function StripDot(ext: string): (r: string)
    ensures |ext| > 0 && ext[0] == '.' ==> ext == "." + r
    ensures !(|ext| > 0 && ext[0] == '.') ==> r == ext
  {
    if |ext| > 0 && ext[0] == '.' then ext[1..] else ext
  }

  /** `IsFileFormatSupported`: null throws; otherwise one leading dot is
      dropped and the rest is compared, ignoring case, with each format in
      turn. */
  method IsFileFormatSupported(fileExtension: Option<string>, fileFormats: seq<string>) returns (r: Result<bool>)
    ensures fileExtension.None? <==> r == Throw(ArgumentNull)
    ensures fileExtension.Some? ==>
              r == Ok(exists i :: 0 <= i < |fileFormats| &&
                                  Text.EqualsIgnoreCase(StripDot(fileExtension.value), fileFormats[i]))
  {
    if fileExtension.None? {
      return Throw(ArgumentNull);
    }
    var ext := StripDot(fileExtension.value);
    var i := 0;
    while i < |fileFormats|
      invariant 0 <= i <= |fileFormats|
      invariant forall j :: 0 <= j < i ==> !Text.EqualsIgnoreCase(ext, fileFormats[j])
    {
      if Text.EqualsIgnoreCase(ext, fileFormats[i]) {
        return Ok(true);
      }
      i := i + 1;
    }
    return Ok(false);
  }

  /** `IsFileFormatImportSupported`. */
  method IsFileFormatImportSupported(fileExtension: Option<string>) returns (r: Result<bool>)
    ensures fileExtension.None? <==> r == Throw(ArgumentNull)
    ensures fileExtension.Some? ==>
              r == Ok(Text.ToUpperAscii(StripDot(fileExtension.value)) in {"PNG", "JPG", "BMP", "GIF"})
  {
    r := IsFileFormatSupported(fileExtension, SupportedLoadFileExtensions);
    if fileExtension.Some? {
      var u := Text.ToUpperAscii(StripDot(fileExtension.value));
      assert Text.ToUpperAscii("png") == "PNG" && Text.ToUpperAscii("jpg") == "JPG";
      assert Text.ToUpperAscii("bmp") == "BMP" && Text.ToUpperAscii("gif") == "GIF";
      assert u in {"PNG", "JPG", "BMP", "GIF"} ==>
               exists i :: 0 <= i < 4 && Text.EqualsIgnoreCase(StripDot(fileExtension.value),
                                                               SupportedLoadFileExtensions[i]) by {
        if u == "PNG" { assert Text.EqualsIgnoreCase(StripDot(fileExtension.value), SupportedLoadFileExtensions[0]); }
        if u == "JPG" { assert Text.EqualsIgnoreCase(StripDot(fileExtension.value), SupportedLoadFileExtensions[1]); }
        if u == "BMP" { assert Text.EqualsIgnoreCase(StripDot(fileExtension.value), SupportedLoadFileExtensions[2]); }
        if u == "GIF" { assert Text.EqualsIgnoreCase(StripDot(fileExtension.value), SupportedLoadFileExtensions[3]); }
      }
    }
  }

  /** Saving to a file is not supported in the browser. */
  function IsFileFormatExportSupported(fileExtension: string): (r: bool)
    ensures !r
  {
    false
  }

  function IsStreamSupported(): (r: bool)
    ensures !r
  {
    false
  }

  /** The four synchronous `LoadBitmap`/`SaveBitmap` overloads. */
  datatype Operation = LoadFromFile | LoadFromStream | SaveToFile | SaveToStream

  function Perform(op: Operation): (r: Result<()>)
    ensures r == Throw(NotSupported)
  {
    Throw(NotSupported)
  }

  /** `FixDirectorySeparator`: every separator of the other platform is
      replaced by the one of this platform. */
  function FixDirectorySeparator(filePath: string, directorySeparator: char): (r: string)
    ensures |r| == |filePath|
    ensures directorySeparator == '\\' ==> '/' !in r
    ensures directorySeparator != '\\' ==> '\\' !in r
    ensures forall i :: 0 <= i < |r| && filePath[i] != '/' && filePath[i] != '\\' ==> r[i] == filePath[i]
    ensures forall i :: 0 <= i < |r| && (filePath[i] == '/' || filePath[i] == '\\') ==>
              r[i] == (if directorySeparator == '\\' then '\\' else '/')
  {
    if directorySeparator == '\\' then Text.ReplaceChar(filePath, '/', '\\')
    else Text.ReplaceChar(filePath, '\\', '/')
  }

  /** Fixing a path twice is fixing it once. */
  lemma FixDirectorySeparatorIdempotent(filePath: string, directorySeparator: char)
    ensures var once := FixDirectorySeparator(filePath, directorySeparator);
            FixDirectorySeparator(once, directorySeparator) == once
  {
    var once := FixDirectorySeparator(filePath, directorySeparator);
    var twice := FixDirectorySeparator(once, directorySeparator);
    assert forall i :: 0 <= i < |once| ==> twice[i] == once[i];
  }
}

=== FILE: button.dfy ===
/** `ButtonUIElement`: a push button with a label that may carry a tool
    tip. The click callback is outside the model.
 */
module Button {
  import opened Wrappers
  import Text
  import ToolTip
  import UIElement

  datatype Button = Button(base: UIElement.Base, text: string, width: real, alignLeft: bool)

  function Create(text: Option<string>, width: real, alignLeft: bool): (b: Button)
    ensures b.text == ToolTip.ParseTextAndToolTip(text).text.GetOr("")
    ensures b.base.toolTip == ToolTip.ParseTextAndToolTip(text).toolTip
    ensures b.width == width && b.alignLeft == alignLeft
  {
    var parsed := ToolTip.ParseTextAndToolTip(text);
    var base := if parsed.toolTip.Some? then UIElement.SetToolTip(UIElement.NewBase, parsed.toolTip.value)
                else UIElement.NewBase;
    Button(base, parsed.text.GetOr(""), width, alignLeft)
  }

  /** `SetText` re-parses; without a new tool tip the old one stays. */
  function SetText(b: Button, text: Option<string>): (r: Button)
    ensures r.text == ToolTip.ParseTextAndToolTip(text).text.GetOr("")
    ensures r.base.toolTip == (if ToolTip.ParseTextAndToolTip(text).toolTip.Some?
                               then ToolTip.ParseTextAndToolTip(text).toolTip else b.base.toolTip)
    ensures r.base.margin == b.base.margin && r.base.isVisible == b.base.isVisible
    ensures r.width == b.width && r.alignLeft == b.alignLeft
  {
    var parsed := ToolTip.ParseTextAndToolTip(text);
    var base := if parsed.toolTip.Some? then UIElement.SetToolTip(b.base, parsed.toolTip.value) else b.base;
    b.(base := base, text := parsed.text.GetOr(""))
  }

  const AlignLeftPiece: UIElement.Piece := UIElement.Lit("text-align: left;")
  const AlignCenterPiece: UIElement.Piece := UIElement.Lit("text-align: center;")
  const WidthPiece: UIElement.Piece := UIElement.Lit("width: ")

  /** The button style: margin and visibility, the width when positive, the
      text alignment, and the provider's font size when positive. */
  function Style(b: Button, fontSize: real): (s: UIElement.Style)
    ensures UIElement.BaseStyle(b.base) <= s
    ensures AlignLeftPiece in s <==> b.alignLeft
    ensures AlignCenterPiece in s <==> !b.alignLeft
    ensures WidthPiece in s <==> b.width > 0.0
    ensures UIElement.Lit("font-size: ") in s <==> fontSize > 0.0
    ensures UIElement.NumbersOf(s[|UIElement.BaseStyle(b.base)|..]) ==
            (if b.width > 0.0 then [b.width] else []) + (if fontSize > 0.0 then [fontSize] else [])
  {
    var base := UIElement.BaseStyle(b.base);
    var tail := StyleTail(b.width, b.alignLeft, fontSize);
    AfterBase(b.base, tail, b.alignLeft, b.width > 0.0, fontSize > 0.0);
    base + tail
  }

  /** What follows margin and visibility: width, alignment, font size. */
  function StyleTail(width: real, alignLeft: bool, fontSize: real): (t: UIElement.Style)
    ensures AlignLeftPiece in t <==> alignLeft
    ensures AlignCenterPiece in t <==> !alignLeft
    ensures WidthPiece in t <==> width > 0.0
    ensures UIElement.Lit("font-size: ") in t <==> fontSize > 0.0
    ensures UIElement.NumbersOf(t) == (if width > 0.0 then [width] else []) + (if fontSize > 0.0 then [fontSize] else [])
  {
    var w := UIElement.SizePiece("width: ", width);
    var align := [if alignLeft then AlignLeftPiece else AlignCenterPiece];
    var f := UIElement.SizePiece("font-size: ", fontSize);
    TailApart(w, align, f, width, alignLeft, fontSize);
    w + align + f
  }

  /** Each entry of the tail is there only through its own part, and the
      alignment carries no number. */
  lemma TailApart(w: UIElement.Style, align: UIElement.Style, f: UIElement.Style,
                  width: real, alignLeft: bool, fontSize: real)
    requires w == UIElement.SizePiece("width: ", width) && f == UIElement.SizePiece("font-size: ", fontSize)
    requires align == [if alignLeft then AlignLeftPiece else AlignCenterPiece]
    ensures AlignLeftPiece in w + align + f <==> alignLeft
    ensures AlignCenterPiece in w + align + f <==> !alignLeft
    ensures WidthPiece in w + align + f <==> width > 0.0
    ensures UIElement.Lit("font-size: ") in w + align + f <==> fontSize > 0.0
    ensures UIElement.NumbersOf(w + align + f) ==
            (if width > 0.0 then [width] else []) + (if fontSize > 0.0 then [fontSize] else [])
  {
    SizesLackAlign(width, fontSize);
    UIElement.SizePieceLacks("width: ", width, "font-size: ");
    UIElement.SizePieceLacks("font-size: ", fontSize, "width: ");
    UIElement.NumbersOfAppend(w, align);
    UIElement.NumbersOfAppend(w + align, f);
    UIElement.NoNumbers(align);
  }

  lemma SizesLackAlign(width: real, fontSize: real)
    ensures AlignLeftPiece !in UIElement.SizePiece("width: ", width) + UIElement.SizePiece("font-size: ", fontSize)
    ensures AlignCenterPiece !in UIElement.SizePiece("width: ", width) + UIElement.SizePiece("font-size: ", fontSize)
  {
    assert |AlignLeftPiece.text| == 17 && |AlignCenterPiece.text| == 19;
  }

  /** Margin and visibility carry none of the entries a button style is
      judged by, so after them each is there exactly when the tail has it. */
  lemma AfterBase(base: UIElement.Base, tail: UIElement.Style, alignLeft: bool, width: bool, fontSize: bool)
    requires AlignLeftPiece in tail <==> alignLeft
    requires AlignCenterPiece in tail <==> !alignLeft
    requires WidthPiece in tail <==> width
    requires UIElement.Lit("font-size: ") in tail <==> fontSize
    ensures var s := UIElement.BaseStyle(base) + tail;
      && UIElement.BaseStyle(base) <= s
      && s[|UIElement.BaseStyle(base)|..] == tail
      && (AlignLeftPiece in s <==> alignLeft)
      && (AlignCenterPiece in s <==> !alignLeft)
      && (WidthPiece in s <==> width)
      && (UIElement.Lit("font-size: ") in s <==> fontSize)
  {
    var b := UIElement.BaseStyle(base);
    assert (b + tail)[|b|..] == tail;
    UIElement.BaseLacks(base, AlignLeftPiece);
    UIElement.BaseLacks(base, AlignCenterPiece);
    UIElement.BaseLacks(base, WidthPiece);
    UIElement.BaseLacks(base, UIElement.Lit("font-size: "));
  }

  /** Relabelling a button keeps its tool tip unless the new label brings
      one. */
  lemma RelabelKeepsToolTip(b: Button, text: string)
    requires !Text.Contains(text, ToolTip.Key)
    ensures SetText(b, Some(text)).base.toolTip == b.base.toolTip
    ensures SetText(b, Some(text)).text == text
  {
  }
}

=== FILE: canvas_interop.dfy ===
/** The managed side of the browser bridge: the `CanvasInterop` class.

    The process-wide static state and every `CanvasInterop` object form one
    `World`; objects are addressed by a handle (their reference identity).
    Each operation returns the next world, the observable effects in the
    order they happen (calls into the browser script, events raised on an
    object, callbacks invoked, console lines), and the exception it ends
    with, if any. What the browser script answers is a parameter.
 */
module CanvasInterop {
  import opened Wrappers
  import Text
  import Numbers
  import Handshake
  import Registry
  import Loader

  /** A load request re-issued from a `WebGLInitialized` subscription. */
  datatype LoadRequest = LoadRequest(kind: Loader.Kind, url: string, waiter: Loader.Waiter)

  datatype Instance = Instance(
    canvasId: string,
    isWebGLInitialized: bool,
    isWebGL2: bool,
    isDisposed: bool,
    width: int,
    height: int,
    dpiScale: real,
    usesMultisampleAntiAliasing: bool,
    preservesDrawingBuffer: bool,
    arePointerEventsSubscribed: bool,
    subscribeOnInitialize: bool,
    textPending: Loader.Pending,
    binaryPending: Loader.Pending,
    imagePending: Loader.Pending,
    deferred: seq<LoadRequest>)

  datatype World = World(
    initializeCalled: bool,
    interopInitialized: bool,
    canvasIndex: int,
    registry: Registry.Registry,
    ledger: multiset<string>,          // URLs requested by objects disposed before completion
    objects: map<nat, Instance>)

  const InitialWorld: World := World(false, false, 0, Registry.Empty, multiset{}, map[])

  /** A decoded image as handed to image callbacks (RGBA, 4 bytes a pixel). */
  datatype RawImage = RawImage(width: int, height: int, stride: int, bytes: seq<bv8>)

  datatype Asset = TextAsset(text: string) | BinaryAsset(bytes: seq<bv8>) | ImageAsset(image: RawImage)

  datatype JsCall =
    | InitWebGLCanvasJs(canvasId: string, useMsaa: bool, preserveDrawingBuffer: bool,
                        subscribePointerEvents: bool, subscribeAnimationFrame: bool)
    | LoadJs(kind: Loader.Kind, canvasId: string, url: string)
    | SetCursorStyleJs(canvasId: string, style: string)
    | SubscribeBrowserEventsJs(canvasId: string, pointer: bool, animationFrame: bool)
    | UnsubscribeBrowserEventsJs(canvasId: string, pointer: bool, animationFrame: bool)
    | SetPointerCaptureJs(canvasId: string, pointerId: int)
    | ReleasePointerCaptureJs(canvasId: string, pointerId: int)
    | DisconnectWebGLCanvasJs(canvasId: string)

  /** Events an object raises to its subscribers. */
  datatype Event =
    | PointerDown(changedButton: int, pressedButtons: int, pointerId: int, modifiers: int)
    | PointerUp(changedButton: int, pressedButtons: int, pointerId: int, modifiers: int)
    | PointerMoved(x: real, y: real, buttons: int, modifiers: int)
    | MouseWheelChanged(deltaX: real, deltaY: real, modifiers: int)
    | PinchZoomStarted(distance: real, centerX: real, centerY: real)
    | PinchZoomEnded
    | PinchZoomed(distance: real, centerX: real, centerY: real)
    | AnimationFrameUpdated
    | CanvasResized(width: real, height: real, devicePixelRatio: real)
    | ContextLost
    | Disposing

  datatype Effect =
    | Call(call: JsCall)
    | Raise(handle: nat, event: Event)
    | Notify(invocation: Loader.Invocation<Asset>)
    | Log(message: string)

  datatype Step = Step(world: World, effects: seq<Effect>, error: Option<Exn>)

  /** Every registered entry names an existing object by that object's id,
      and the registry has its normal shape. */
  predicate Valid(w: World) {
    && Registry.Valid(w.registry)
    && (forall e :: e in Registry.Members(w.registry) ==>
          e.handle in w.objects && w.objects[e.handle].canvasId == e.canvasId)
    && (w.interopInitialized ==> w.initializeCalled)
  }

  /** Two worlds with the same registry and the same objects by id. */
  predicate SameShape(w: World, w': World) {
    && w'.registry == w.registry
    && w'.objects.Keys == w.objects.Keys
    && (forall h :: h in w.objects ==> w'.objects[h].canvasId == w.objects[h].canvasId)
    && w'.initializeCalled == w.initializeCalled
    && w'.interopInitialized == w.interopInitialized
  }

  lemma SameShapeValid(w: World, w': World)
    requires Valid(w) && SameShape(w, w')
    ensures Valid(w')
  {
  }

  /** Replacing one object by one with the same canvas id keeps the shape. */
  lemma UpdateKeepsShape(w: World, h: nat, i': Instance)
    requires Valid(w) && h in w.objects && i'.canvasId == w.objects[h].canvasId
    ensures SameShape(w, w.(objects := w.objects[h := i']))
    ensures Valid(w.(objects := w.objects[h := i']))
  {
    SameShapeValid(w, w.(objects := w.objects[h := i']));
  }

  /** Registering an object under its own canvas id keeps the world valid. */
  lemma RegisterKeepsValid(w: World, h: nat, i': Instance)
    requires Valid(w) && h in w.objects && i'.canvasId == w.objects[h].canvasId
    ensures Valid(w.(registry := Registry.Register(w.registry, Registry.Entry(h, i'.canvasId)),
                     objects := w.objects[h := i']))
  {
    var w' := w.(registry := Registry.Register(w.registry, Registry.Entry(h, i'.canvasId)),
                 objects := w.objects[h := i']);
    assert Registry.Members(w'.registry) == Registry.Members(w.registry) + [Registry.Entry(h, i'.canvasId)];
  }

  // ---------------------------------------------------------------------
  // Static initialisation and canvas ids
  // ---------------------------------------------------------------------

  /** How importing the script module failed. */
  datatype ImportFailure = ImportFailure(isJsException: bool, message: string)

  const FetchFailedText: string := "Failed to fetch dynamically imported module"
  const SyntaxErrorPrefix: string := "SyntaxError:"

  /** The exception `InitializeInterop` turns an import failure into. */
  function ClassifyImportFailure(f: ImportFailure): (e: Exn)
    ensures e in {ScriptNotFound, ScriptSyntaxError, ScriptLoadFailed}
    ensures e == ScriptNotFound <==> f.isJsException && Text.Contains(f.message, FetchFailedText)
    ensures e == ScriptSyntaxError <==>
              f.isJsException && !Text.Contains(f.message, FetchFailedText) && SyntaxErrorPrefix <= f.message
    ensures !f.isJsException ==> e == ScriptLoadFailed
  {
    if f.isJsException && Text.Contains(f.message, FetchFailedText) then ScriptNotFound
    else if f.isJsException && SyntaxErrorPrefix <= f.message then ScriptSyntaxError
    else ScriptLoadFailed
  }

  /** `InitializeInterop`: only the first call does anything; it marks the
      call as made before any check, so a failed initialisation is never
      retried. */
  function InitializeInterop(w: World, isBrowser: bool, importFailure: Option<ImportFailure>,
                             initSucceeds: bool): (s: Step)
    ensures s.effects == []
    ensures w.initializeCalled ==> s.world == w && s.error.None?
    ensures !w.initializeCalled && !w.interopInitialized ==>
              && s.world.initializeCalled
              && (s.world.interopInitialized <==> isBrowser && importFailure.None? && initSucceeds)
              && (s.error.None? <==> s.world.interopInitialized)
              && (!isBrowser ==> s.error == Some(NotInBrowser))
              && (isBrowser && importFailure.Some? ==> s.error == Some(ClassifyImportFailure(importFailure.value)))
              && (isBrowser && importFailure.None? && !initSucceeds ==> s.error == Some(InteropInitFailed))
              && s.world == w.(initializeCalled := true, interopInitialized := s.world.interopInitialized)
    ensures Valid(w) ==> Valid(s.world)
  {
    if w.initializeCalled then Step(w, [], None)
    else
      var w1 := w.(initializeCalled := true);
      if !isBrowser then Step(w1, [], Some(NotInBrowser))
      else if importFailure.Some? then Step(w1, [], Some(ClassifyImportFailure(importFailure.value)))
      else if !initSucceeds then Step(w1, [], Some(InteropInitFailed))
      else Step(w1.(interopInitialized := true), [], None)
  }

  /** Whatever the circumstances of a later call, the first call decides. */
  lemma InitializeInteropOnce(w: World, b1: bool, f1: Option<ImportFailure>, i1: bool,
                              b2: bool, f2: Option<ImportFailure>, i2: bool)
    ensures var s1 := InitializeInterop(w, b1, f1, i1);
            var s2 := InitializeInterop(s1.world, b2, f2, i2);
            s2.world == s1.world && s2.error.None?
  {
  }

  const CanvasIdPrefix: string := "sharpEngineCanvas_"

  function CanvasIdFor(index: int): string {
    CanvasIdPrefix + Numbers.IntToString(index)
  }

  /** Different counter values give different ids. */
  lemma CanvasIdInjective(a: int, b: int)
    ensures CanvasIdFor(a) == CanvasIdFor(b) ==> a == b
  {
    Numbers.ParseIntOfIntToString(a);
    Numbers.ParseIntOfIntToString(b);
    if CanvasIdFor(a) == CanvasIdFor(b) {
      assert CanvasIdFor(a)[|CanvasIdPrefix|..] == Numbers.IntToString(a);
      assert CanvasIdFor(b)[|CanvasIdPrefix|..] == Numbers.IntToString(b);
    }
  }

  /** `_canvasIndex++` on a 32-bit `int` (unchecked: wraps to the minimum). */
  function NextIndex(i: int): (r: int)
    requires Numbers.Int32Min <= i <= Numbers.Int32Max
    ensures Numbers.Int32Min <= r <= Numbers.Int32Max
    ensures i < Numbers.Int32Max ==> r == i + 1
    ensures i == Numbers.Int32Max ==> r == Numbers.Int32Min
  {
    if i == Numbers.Int32Max then Numbers.Int32Min else i + 1
  }

  /** `GetNextCanvasId`: advance the counter, then name the canvas after it. */
  function GetNextCanvasId(w: World): (r: (World, string))
    requires Numbers.Int32Min <= w.canvasIndex <= Numbers.Int32Max
    ensures r.0 == w.(canvasIndex := NextIndex(w.canvasIndex))
    ensures CanvasIdPrefix <= r.1
    ensures r.1 == CanvasIdFor(r.0.canvasIndex)
  {
    var i := NextIndex(w.canvasIndex);
    (w.(canvasIndex := i), CanvasIdFor(i))
  }

  /** The ids of `k` successive calls. */
  function NextCanvasIds(w: World, k: nat): seq<string>
    requires Numbers.Int32Min <= w.canvasIndex <= Numbers.Int32Max
    decreases k
  {
    if k == 0 then []
    else
      var (w', id) := GetNextCanvasId(w);
      [id] + NextCanvasIds(w', k - 1)
  }

  lemma {:induction false} NextCanvasIdsAre(w: World, k: nat)
    requires 0 <= w.canvasIndex && w.canvasIndex + k <= Numbers.Int32Max
    ensures |NextCanvasIds(w, k)| == k
    ensures forall j :: 0 <= j < k ==> NextCanvasIds(w, k)[j] == CanvasIdFor(w.canvasIndex + j + 1)
    decreases k
  {
    if k > 0 {
      var (w', id) := GetNextCanvasId(w);
      assert w'.canvasIndex == w.canvasIndex + 1;
      NextCanvasIdsAre(w', k - 1);
      var ids := NextCanvasIds(w, k);
      var rest := NextCanvasIds(w', k - 1);
      assert ids == [id] + rest;
      forall j | 0 <= j < k
        ensures ids[j] == CanvasIdFor(w.canvasIndex + j + 1)
      {
        if j > 0 {
          assert ids[j] == rest[j - 1];
        }
      }
    }
  }

  /** Generated canvas ids never repeat until the 32-bit counter wraps. */
  lemma GeneratedIdsDistinct(w: World, k: nat)
    requires 0 <= w.canvasIndex && w.canvasIndex + k <= Numbers.Int32Max
    ensures |NextCanvasIds(w, k)| == k
    ensures forall i, j :: 0 <= i < j < k ==> NextCanvasIds(w, k)[i] != NextCanvasIds(w, k)[j]
  {
    NextCanvasIdsAre(w, k);
    forall i, j | 0 <= i < j < k
      ensures NextCanvasIds(w, k)[i] != NextCanvasIds(w, k)[j]
    {
      CanvasIdInjective(w.canvasIndex + i + 1, w.canvasIndex + j + 1);
    }
  }

  function NewInstance(canvasId: string, subscribePointerEvents: bool): Instance {
    Instance(canvasId, false, false, false, 0, 0, 1.0, false, false, false,
             subscribePointerEvents, map[], map[], map[], [])
  }

  /** The two constructors: with an explicit canvas id, or with the next
      generated one. `handle` is the new object's fresh reference. */
  function Construct(w: World, handle: nat, canvasId: Option<string>, subscribePointerEvents: bool): (w': World)
    requires handle !in w.objects
    requires Numbers.Int32Min <= w.canvasIndex <= Numbers.Int32Max
    ensures handle in w'.objects
    ensures canvasId.Some? ==> w'.objects[handle].canvasId == canvasId.value && w'.canvasIndex == w.canvasIndex
    ensures canvasId.None? ==> w'.objects[handle].canvasId == CanvasIdFor(w'.canvasIndex)
                               && w'.canvasIndex == NextIndex(w.canvasIndex)
    ensures !w'.objects[handle].isWebGLInitialized && !w'.objects[handle].isDisposed
    ensures w'.objects[handle].dpiScale == 1.0
    ensures w'.registry == w.registry
    ensures forall h :: h in w.objects ==> h in w'.objects && w'.objects[h] == w.objects[h]
    ensures Valid(w) ==> Valid(w')
  {
    match canvasId
    case Some(id) => w.(objects := w.objects[handle := NewInstance(id, subscribePointerEvents)])
    case None =>
      var (w1, id) := GetNextCanvasId(w);
      w1.(objects := w1.objects[handle := NewInstance(id, subscribePointerEvents)])
  }

  // ---------------------------------------------------------------------
  // Guards
  // ---------------------------------------------------------------------

  /** `CheckIsInitialized`: the first unmet condition, in this order. */
  function CheckIsInitialized(w: World, i: Instance, checkConnected: bool, methodName: string): (e: Option<Exn>)
    ensures e.None? <==> w.initializeCalled && w.interopInitialized && (checkConnected ==> i.isWebGLInitialized)
    ensures !w.initializeCalled ==> e == Some(NotInitializeCalled(methodName))
    ensures w.initializeCalled && !w.interopInitialized ==> e == Some(InteropNotInitialized(methodName))
    ensures w.initializeCalled && w.interopInitialized && e.Some? ==> e == Some(NotConnected(methodName))
  {
    if !w.initializeCalled then Some(NotInitializeCalled(methodName))
    else if !w.interopInitialized then Some(InteropNotInitialized(methodName))
    else if checkConnected && !i.isWebGLInitialized then Some(NotConnected(methodName))
    else None
  }

  // ---------------------------------------------------------------------
  // Loads
  // ---------------------------------------------------------------------

  function Table(i: Instance, kind: Loader.Kind): Loader.Pending {
    match kind
    case TextFile => i.textPending
    case BinaryFile => i.binaryPending
    case ImageBytes => i.imagePending
  }

  function WithTable(i: Instance, kind: Loader.Kind, p: Loader.Pending): (i': Instance)
    ensures Table(i', kind) == p
    ensures forall k :: k != kind ==> Table(i', k) == Table(i, k)
    ensures i'.canvasId == i.canvasId && i'.deferred == i.deferred
    ensures i'.isWebGLInitialized == i.isWebGLInitialized && i'.isDisposed == i.isDisposed
  {
    match kind
    case TextFile => i.(textPending := p)
    case BinaryFile => i.(binaryPending := p)
    case ImageBytes => i.(imagePending := p)
  }

  /** The two objects differ at most in their queues and parked loads. */
  predicate SameFields(i: Instance, i': Instance) {
    i' == i.(textPending := i'.textPending, binaryPending := i'.binaryPending,
             imagePending := i'.imagePending, deferred := i'.deferred)
  }

  /** `LoadTextFile` / `LoadBinaryFile` / `LoadImageBytes`. Before the
      interop is initialised the request is parked on `WebGLInitialized`;
      afterwards it joins the URL's queue, and only the first request for a
      URL calls the browser. */
  function Load(w: World, h: nat, r: LoadRequest): (s: Step)
    requires h in w.objects
    ensures s.error.None?
    ensures SameShape(w, s.world) && s.world.ledger == w.ledger && s.world.canvasIndex == w.canvasIndex
    ensures forall g :: g in w.objects && g != h ==> s.world.objects[g] == w.objects[g]
    ensures SameFields(w.objects[h], s.world.objects[h])
    ensures var i := w.objects[h]; var i' := s.world.objects[h];
            && (!w.interopInitialized ==>
                  && s.effects == []
                  && i' == i.(deferred := i.deferred + [r]))
            && (w.interopInitialized ==>
                  && i'.deferred == i.deferred
                  && Table(i', r.kind) == Loader.Request(Table(i, r.kind), r.url, r.waiter).pending
                  && (forall k :: k != r.kind ==> Table(i', k) == Table(i, k))
                  && (r.url !in Table(i, r.kind) ==> s.effects == [Call(LoadJs(r.kind, i.canvasId, r.url))])
                  && (r.url in Table(i, r.kind) ==> s.effects == []))
  {
    if !w.interopInitialized then Park(w, h, r) else Enqueue(w, h, r)
  }

  /** A request made before the interop is initialised waits for
      `WebGLInitialized`. */
  function Park(w: World, h: nat, r: LoadRequest): (s: Step)
    requires h in w.objects
    ensures s.error.None? && s.effects == []
    ensures s.world == w.(objects := w.objects[h := w.objects[h].(deferred := w.objects[h].deferred + [r])])
  {
    var i := w.objects[h];
    Step(w.(objects := w.objects[h := i.(deferred := i.deferred + [r])]), [], None)
  }

  /** A request made once the interop is initialised joins the URL's queue;
      the browser is called for the first request only. */
  function Enqueue(w: World, h: nat, r: LoadRequest): (s: Step)
    requires h in w.objects
    ensures s.error.None?
    ensures var i := w.objects[h];
            var i' := WithTable(i, r.kind, Loader.Request(Table(i, r.kind), r.url, r.waiter).pending);
            && s.world == w.(objects := w.objects[h := i'])
            && (r.url !in Table(i, r.kind) ==> s.effects == [Call(LoadJs(r.kind, i.canvasId, r.url))])
            && (r.url in Table(i, r.kind) ==> s.effects == [])
  {
    var i := w.objects[h];
    var q := Loader.Request(Table(i, r.kind), r.url, r.waiter);
    Step(w.(objects := w.objects[h := WithTable(i, r.kind, q.pending)]),
         if q.fetch then [Call(LoadJs(r.kind, i.canvasId, r.url))] else [],
         None)
  }

  /** Loads run one after another, effects concatenated. */
  function LoadAll(w: World, h: nat, rs: seq<LoadRequest>): (s: Step)
    requires h in w.objects
    ensures s.error.None?
    ensures SameShape(w, s.world) && s.world.ledger == w.ledger && s.world.canvasIndex == w.canvasIndex
    ensures forall g :: g in w.objects && g != h ==> s.world.objects[g] == w.objects[g]
    ensures w.interopInitialized ==> s.world.objects[h].deferred == w.objects[h].deferred
    ensures SameFields(w.objects[h], s.world.objects[h])
    decreases |rs|
  {
    if |rs| == 0 then Step(w, [], None)
    else
      var s1 := Load(w, h, rs[0]);
      var s2 := LoadAll(s1.world, h, rs[1..]);
      Step(s2.world, s1.effects + s2.effects, None)
  }

  /** The callers among `rs` that asked for `url` as a `kind` load, in
      request order. */
  function WaitersFor(rs: seq<LoadRequest>, kind: Loader.Kind, url: string): (r: seq<Loader.Waiter>)
    ensures |r| <= |rs|
  {
    if |rs| == 0 then []
    else (if rs[0].kind == kind && rs[0].url == url then [rs[0].waiter] else []) + WaitersFor(rs[1..], kind, url)
  }

  lemma {:induction false} WaitersForSnoc(rs: seq<LoadRequest>, r: LoadRequest, kind: Loader.Kind, url: string)
    ensures WaitersFor(rs + [r], kind, url) ==
            WaitersFor(rs, kind, url) + (if r.kind == kind && r.url == url then [r.waiter] else [])
    decreases |rs|
  {
    if |rs| == 0 {
      assert [r][1..] == [];
    } else {
      assert (rs + [r])[0] == rs[0] && (rs + [r])[1..] == rs[1..] + [r];
      WaitersForSnoc(rs[1..], r, kind, url);
    }
  }

  /** The queue a table holds for a URL, empty when there is none. */
  function Queue(p: Loader.Pending, url: string): seq<Loader.Waiter> {
    if url in p then p[url] else []
  }

  /** `i'` holds the queues of `i` with the callers of `rs` added behind
      them, and no other URL. */
  ghost predicate QueuedAfter(i: Instance, rs: seq<LoadRequest>, i': Instance) {
    forall k: Loader.Kind, u: string ::
      && (u in Table(i', k) <==> u in Table(i, k) || WaitersFor(rs, k, u) != [])
      && (u in Table(i', k) ==> Table(i', k)[u] == Queue(Table(i, k), u) + WaitersFor(rs, k, u))
  }

  /** Request `j` of `rs` is the first for its URL, and that URL was not
      already pending on `i`. */
  predicate FirstRequest(i: Instance, rs: seq<LoadRequest>, j: nat)
    requires j < |rs|
  {
    rs[j].url !in Table(i, rs[j].kind) && WaitersFor(rs[..j], rs[j].kind, rs[j].url) == []
  }

  /** The browser calls that requests `rs[j..]` issue on `i`: one for each
      first request of a URL not already pending, in order. */
  function FetchesFrom(i: Instance, rs: seq<LoadRequest>, j: nat): seq<Effect>
    requires j <= |rs|
    decreases |rs| - j
  {
    if j == |rs| then []
    else
      (if FirstRequest(i, rs, j) then [Call(LoadJs(rs[j].kind, i.canvasId, rs[j].url))] else [])
        + FetchesFrom(i, rs, j + 1)
  }

  /** One request keeps the queue of every (kind, URL) pair in step with
      the requests made so far. */
  lemma QueuedStep(i0: Instance, prefix: seq<LoadRequest>, r: LoadRequest, i: Instance, i1: Instance,
                   k: Loader.Kind, u: string)
    requires u in Table(i, k) <==> u in Table(i0, k) || WaitersFor(prefix, k, u) != []
    requires u in Table(i, k) ==> Table(i, k)[u] == Queue(Table(i0, k), u) + WaitersFor(prefix, k, u)
    requires Table(i1, r.kind) == Loader.Request(Table(i, r.kind), r.url, r.waiter).pending
    requires forall k' :: k' != r.kind ==> Table(i1, k') == Table(i, k')
    ensures u in Table(i1, k) <==> u in Table(i0, k) || WaitersFor(prefix + [r], k, u) != []
    ensures u in Table(i1, k) ==> Table(i1, k)[u] == Queue(Table(i0, k), u) + WaitersFor(prefix + [r], k, u)
  {
    WaitersForSnoc(prefix, r, k, u);
  }

  /** One load of a series: it fetches iff it is the first request of a URL
      not pending before the series. */
  lemma LoadStep(w: World, h: nat, i0: Instance, rs: seq<LoadRequest>, j: nat)
    requires h in w.objects && w.interopInitialized && j < |rs|
    requires w.objects[h].canvasId == i0.canvasId
    requires QueuedAfter(i0, rs[..j], w.objects[h])
    ensures var s1 := Load(w, h, rs[j]);
            && s1.effects == (if FirstRequest(i0, rs, j) then [Call(LoadJs(rs[j].kind, i0.canvasId, rs[j].url))] else [])
            && s1.world.interopInitialized
            && h in s1.world.objects && s1.world.objects[h].canvasId == i0.canvasId
            && QueuedAfter(i0, rs[..j + 1], s1.world.objects[h])
  {
    var r := rs[j];
    var i := w.objects[h];
    var i1 := Load(w, h, r).world.objects[h];
    assert rs[..j + 1] == rs[..j] + [r];
    assert r.url in Table(i, r.kind) <==> !FirstRequest(i0, rs, j);
    forall k: Loader.Kind, u: string
      ensures && (u in Table(i1, k) <==> u in Table(i0, k) || WaitersFor(rs[..j + 1], k, u) != [])
              && (u in Table(i1, k) ==> Table(i1, k)[u] == Queue(Table(i0, k), u) + WaitersFor(rs[..j + 1], k, u))
    {
      QueuedStep(i0, rs[..j], r, i, i1, k, u);
    }
  }

  /** Once the interop is initialised, a series of loads calls the browser
      once for each URL that was not pending, at its first request, and
      queues every caller behind those already waiting. */
  lemma {:induction false} LoadAllFetchesFirstRequests(w: World, h: nat, i0: Instance, rs: seq<LoadRequest>, j: nat)
    requires h in w.objects && w.interopInitialized && j <= |rs|
    requires w.objects[h].canvasId == i0.canvasId
    requires QueuedAfter(i0, rs[..j], w.objects[h])
    ensures LoadAll(w, h, rs[j..]).effects == FetchesFrom(i0, rs, j)
    ensures QueuedAfter(i0, rs, LoadAll(w, h, rs[j..]).world.objects[h])
    decreases |rs| - j
  {
    if j == |rs| {
      assert rs[..j] == rs;
    } else {
      assert rs[j..][0] == rs[j] && rs[j..][1..] == rs[j + 1..];
      LoadStep(w, h, i0, rs, j);
      LoadAllFetchesFirstRequests(Load(w, h, rs[j]).world, h, i0, rs, j + 1);
    }
  }

  // ---------------------------------------------------------------------
  // Connecting to the canvas
  // ---------------------------------------------------------------------

  const InitErrorPrefix: string := "Error initializing WebGL Canvas: "

  /** The browser call `InitWebGL` makes: the pointer events as asked at
      construction, and always the animation-frame loop. */
  function InitCall(i: Instance, useMsaa: bool, preserveDrawingBuffer: bool): Effect {
    Call(InitWebGLCanvasJs(i.canvasId, useMsaa, preserveDrawingBuffer, i.subscribeOnInitialize, true))
  }

  /** `InitWebGL`. `jsResult` is what the browser's `initWebGLCanvas`
      answers. A declined answer is logged when it is not empty. On
      success the fields are taken from the handshake text, the object is
      registered for callbacks, and the loads parked on `WebGLInitialized`
      are re-issued in order (the subscription list is then emptied). A
      parse failure throws after the fields read so far have been
      assigned. */
  function InitWebGL(w: World, h: nat, jsResult: Option<string>, useMsaa: bool, preserveDrawingBuffer: bool): (s: Step)
    requires h in w.objects
    ensures var i := w.objects[h];
            CheckIsInitialized(w, i, false, "InitWebGL").Some? ==>
              s == Step(w, [], CheckIsInitialized(w, i, false, "InitWebGL"))
    ensures var i := w.objects[h]; var p := Handshake.Parse(jsResult);
            CheckIsInitialized(w, i, false, "InitWebGL").None? && p.Declined? ==>
              && s.world == w && s.error.None?
              && s.effects == [InitCall(i, useMsaa, preserveDrawingBuffer)]
                              + (if jsResult.Some? && jsResult.value != ""
                                 then [Log(InitErrorPrefix + jsResult.value)] else [])
    ensures var i := w.objects[h]; var p := Handshake.Parse(jsResult);
            CheckIsInitialized(w, i, false, "InitWebGL").None? && p.Failed? ==>
              && s.error == Some(p.error)
              && s.effects == [InitCall(i, useMsaa, preserveDrawingBuffer)]
              && s.world == w.(objects := s.world.objects)
              && h in s.world.objects
              && s.world.objects == w.objects[h := s.world.objects[h]]
              && var i' := s.world.objects[h];
                 && i' == i.(isWebGL2 := i'.isWebGL2, width := i'.width, height := i'.height)
                 && i'.isWebGL2 == p.partial.isWebGL2
                 && i'.width == p.partial.width.GetOr(i.width)
                 && i'.height == p.partial.height.GetOr(i.height)
    ensures var i := w.objects[h]; var p := Handshake.Parse(jsResult);
            CheckIsInitialized(w, i, false, "InitWebGL").None? && p.Accepted? ==>
              && Numbers.WellFormed(p.dpi)
              && s == Connect(w, h, p.isWebGL2, p.width, p.height, p.dpi, useMsaa, preserveDrawingBuffer)
    ensures Valid(w) ==> Valid(s.world)
  {
    var i := w.objects[h];
    var check := CheckIsInitialized(w, i, false, "InitWebGL");
    if check.Some? then Step(w, [], check)
    else
      var call := InitCall(i, useMsaa, preserveDrawingBuffer);
      match Handshake.Parse(jsResult)
      case Declined =>
        var logged := if jsResult.Some? && jsResult.value != "" then [Log(InitErrorPrefix + jsResult.value)] else [];
        Step(w, [call] + logged, None)
      case Failed(partial, e) =>
        var i1 := i.(isWebGL2 := partial.isWebGL2,
                     width := partial.width.GetOr(i.width),
                     height := partial.height.GetOr(i.height));
        Step(w.(objects := w.objects[h := i1]), [call], Some(e))
      case Accepted(v2, width, height, dpi) =>
        Connect(w, h, v2, width, height, dpi, useMsaa, preserveDrawingBuffer)
  }

  /** The successful end of `InitWebGL`: the handshake fields are stored,
      the object is registered for callbacks, and the parked loads are
      issued again in the order they were made. */
  function Connect(w: World, h: nat, isWebGL2: bool, width: int, height: int, dpi: Numbers.Decimal,
                   useMsaa: bool, preserveDrawingBuffer: bool): (s: Step)
    requires h in w.objects && w.interopInitialized
    requires Numbers.WellFormed(dpi)
    ensures var i := w.objects[h];
            && s.error.None?
            && s.effects == [InitCall(i, useMsaa, preserveDrawingBuffer)] + FetchesFrom(i, i.deferred, 0)
            && s.world.registry == Registry.Register(w.registry, Registry.Entry(h, i.canvasId))
            && SameWorldBut(w, s.world, h)
            && var i' := s.world.objects[h];
               && i'.canvasId == i.canvasId && i'.isDisposed == i.isDisposed
               && i'.isWebGLInitialized && i'.deferred == []
               && i'.isWebGL2 == isWebGL2 && i'.width == width && i'.height == height
               && i'.dpiScale == Numbers.Value(dpi)
               && i'.usesMultisampleAntiAliasing == useMsaa
               && i'.preservesDrawingBuffer == preserveDrawingBuffer
               && i'.arePointerEventsSubscribed == i.subscribeOnInitialize
               && QueuedAfter(i, i.deferred, i')
    ensures Valid(w) ==> Valid(s.world)
  {
    var i := w.objects[h];
    var i1 := i.(isWebGL2 := isWebGL2, width := width, height := height, dpiScale := Numbers.Value(dpi),
                 usesMultisampleAntiAliasing := useMsaa, preservesDrawingBuffer := preserveDrawingBuffer,
                 arePointerEventsSubscribed := i.subscribeOnInitialize, isWebGLInitialized := true,
                 deferred := []);
    var w1 := w.(registry := Registry.Register(w.registry, Registry.Entry(h, i.canvasId)),
                 objects := w.objects[h := i1]);
    assert i.deferred[..0] == [] && i.deferred[0..] == i.deferred;
    assert QueuedAfter(i, [], i1);
    LoadAllFetchesFirstRequests(w1, h, i, i.deferred, 0);
    var replay := LoadAll(w1, h, i.deferred);
    assert Valid(w) ==> Valid(replay.world) by {
      if Valid(w) {
        RegisterKeepsValid(w, h, i1);
        SameShapeValid(w1, replay.world);
      }
    }
    Step(replay.world, [InitCall(i, useMsaa, preserveDrawingBuffer)] + replay.effects, None)
  }

  /** `w'` differs from `w` only in the object `h` and the registry; the
      static flags, the counter and the ledger are kept. */
  predicate SameWorldBut(w: World, w': World, h: nat) {
    && w'.initializeCalled == w.initializeCalled
    && w'.interopInitialized == w.interopInitialized
    && w'.canvasIndex == w.canvasIndex
    && w'.ledger == w.ledger
    && w'.objects.Keys == w.objects.Keys
    && h in w'.objects
    && (forall g :: g in w.objects && g != h ==> w'.objects[g] == w.objects[g])
  }

  // ---------------------------------------------------------------------
  // Commands on a connected object
  // ---------------------------------------------------------------------

  datatype Command =
    | SetCursorStyle(style: string)
    | SubscribePointerEvents
    | UnsubscribePointerEvents
    | SetPointerCapture(pointerId: int)
    | ReleasePointerCapture(pointerId: int)

  function CommandName(c: Command): string {
    match c
    case SetCursorStyle(_) => "SetCursorStyle"
    case SubscribePointerEvents => "SubscribePointerEvents"
    case UnsubscribePointerEvents => "UnsubscribePointerEvents"
    case SetPointerCapture(_) => "SetPointerCapture"
    case ReleasePointerCapture(_) => "ReleasePointerCapture"
  }

  /** The browser call a command makes. Subscribing also (re)starts the
      animation-frame loop; unsubscribing leaves the loop running. */
  function CommandCall(canvasId: string, c: Command): JsCall {
    match c
    case SetCursorStyle(style) => SetCursorStyleJs(canvasId, style)
    case SubscribePointerEvents => SubscribeBrowserEventsJs(canvasId, true, true)
    case UnsubscribePointerEvents => UnsubscribeBrowserEventsJs(canvasId, true, false)
    case SetPointerCapture(p) => SetPointerCaptureJs(canvasId, p)
    case ReleasePointerCapture(p) => ReleasePointerCaptureJs(canvasId, p)
  }

  /** The commands need a connected object; they throw before calling the
      browser otherwise. Only the (un)subscribe commands change state: the
      pointer-events flag. */
  function Run(w: World, h: nat, c: Command): (s: Step)
    requires h in w.objects
    ensures var i := w.objects[h];
            (s.error.Some? <==> !(w.initializeCalled && w.interopInitialized && i.isWebGLInitialized))
    ensures s.error.Some? ==> s.world == w && s.effects == []
    ensures s.error.None? ==>
              && s.effects == [Call(CommandCall(w.objects[h].canvasId, c))]
              && SameShape(w, s.world)
              && (c.SubscribePointerEvents? ==> s.world.objects[h].arePointerEventsSubscribed)
              && (c.UnsubscribePointerEvents? ==> !s.world.objects[h].arePointerEventsSubscribed)
              && (!c.SubscribePointerEvents? && !c.UnsubscribePointerEvents? ==> s.world == w)
    ensures Valid(w) ==> Valid(s.world)
  {
    var i := w.objects[h];
    var check := CheckIsInitialized(w, i, true, CommandName(c));
    if check.Some? then Step(w, [], check)
    else
      var effects := [Call(CommandCall(i.canvasId, c))];
      match c
      case SubscribePointerEvents =>
        Step(w.(objects := w.objects[h := i.(arePointerEventsSubscribed := true)]), effects, None)
      case UnsubscribePointerEvents =>
        Step(w.(objects := w.objects[h := i.(arePointerEventsSubscribed := false)]), effects, None)
      case _ => Step(w, effects, None)
  }

  // ---------------------------------------------------------------------
  // Dispose
  // ---------------------------------------------------------------------

  /** The URLs of a pending table, one each. */
  function PendingUrls(p: Loader.Pending): (m: multiset<string>)
    ensures forall u :: m[u] == (if u in p then 1 else 0)
  {
    multiset(p.Keys)
  }

  /** `Dispose`: a second call does nothing. The first one disconnects the
      canvas, moves every pending URL to the ledger of requests whose
      answer will find no object, empties the queues without calling
      anyone, and takes the object out of the registry. */
  function Dispose(w: World, h: nat): (s: Step)
    requires h in w.objects
    ensures s.error.None?
    ensures s.world.objects.Keys == w.objects.Keys
    ensures w.objects[h].isDisposed ==> s.world == w && s.effects == []
    ensures !w.objects[h].isDisposed ==>
              var i := w.objects[h]; var i' := s.world.objects[h];
              && s.effects == [Raise(h, Disposing), Call(DisconnectWebGLCanvasJs(i.canvasId))]
              && i'.isDisposed && !i'.isWebGLInitialized && !i'.arePointerEventsSubscribed
              && i'.textPending == map[] && i'.binaryPending == map[] && i'.imagePending == map[]
              && (forall u :: s.world.ledger[u] == w.ledger[u] + PendingUrls(i.textPending)[u]
                                 + PendingUrls(i.binaryPending)[u] + PendingUrls(i.imagePending)[u])
              && s.world.registry == Registry.Unregister(w.registry, h)
              && i' == i.(isDisposed := i'.isDisposed, isWebGLInitialized := i'.isWebGLInitialized,
                          arePointerEventsSubscribed := i'.arePointerEventsSubscribed,
                          textPending := i'.textPending, binaryPending := i'.binaryPending,
                          imagePending := i'.imagePending)
    ensures s.world.initializeCalled == w.initializeCalled && s.world.interopInitialized == w.interopInitialized
    ensures s.world.canvasIndex == w.canvasIndex
    ensures forall g :: g in w.objects && g != h ==> s.world.objects[g] == w.objects[g]
    ensures Valid(w) ==> Valid(s.world)
  {
    var i := w.objects[h];
    if i.isDisposed then Step(w, [], None)
    else
      var i' := i.(isDisposed := true, isWebGLInitialized := false, arePointerEventsSubscribed := false,
                   textPending := map[], binaryPending := map[], imagePending := map[]);
      var ledger := w.ledger + PendingUrls(i.textPending) + PendingUrls(i.binaryPending)
                    + PendingUrls(i.imagePending);
      var w' := w.(ledger := ledger, registry := Registry.Unregister(w.registry, h),
                   objects := w.objects[h := i']);
      assert Valid(w) ==> Valid(w') by {
        if Valid(w) {
          Registry.UnregisterMembers(w.registry, h);
          RemoveFirstSubset(Registry.Members(w.registry), h);
        }
      }
      Step(w', [Raise(h, Disposing), Call(DisconnectWebGLCanvasJs(i.canvasId))], None)
  }

  lemma {:induction false} RemoveFirstSubset(list: seq<Registry.Entry>, h: nat)
    ensures forall e :: e in Registry.RemoveFirst(list, h) ==> e in list
    decreases |list|
  {
    if |list| > 0 && list[0].handle != h {
      RemoveFirstSubset(list[1..], h);
    }
  }

  /** Disposing twice is the same as disposing once. */
  lemma DisposeIdempotent(w: World, h: nat)
    requires h in w.objects
    ensures var s1 := Dispose(w, h);
            Dispose(s1.world, h) == Step(s1.world, [], None)
  {
  }

  // ---------------------------------------------------------------------
  // Callbacks from the browser script
  // ---------------------------------------------------------------------

  /** The console line for an answer whose object is gone. */
  function OrphanMessage(url: string, canvasId: string, requestedByDisposed: bool): string {
    var base := "'" + url + "' content received but that CanvasInterop object ('" + canvasId
                + "') that started the request";
    if requestedByDisposed then base + " was already disposed." else "WARNING: " + base + " is not found."
  }

  const DisposedSuffix: string := " was already disposed."

  /** The answer to a load request. The object is looked up by canvas id; if
      none is registered the URL is crossed off the ledger (first match) and
      the console says whether a disposed object had asked for it. If the
      object has the URL queued, the queue is removed and every caller is
      notified; otherwise nothing happens. A null canvas id throws. */
  function Deliver(w: World, kind: Loader.Kind, canvasId: Option<string>, url: string,
                   outcome: Loader.Outcome<Asset>): (s: Step)
    requires Valid(w)
    ensures canvasId.None? <==> s.error == Some(LookupFailed)
    ensures s.error.Some? ==> s.world == w && s.effects == []
    ensures canvasId.Some? && Registry.Find(w.registry, canvasId).value.None? ==>
              && s.error.None?
              && s.world == w.(ledger := s.world.ledger)
              && (url in w.ledger ==> s.world.ledger == w.ledger - multiset{url})
              && (url !in w.ledger ==> s.world.ledger == w.ledger)
              && s.effects == [Log(OrphanMessage(url, canvasId.value, url in w.ledger))]
    ensures canvasId.Some? && Registry.Find(w.registry, canvasId).value.Some? ==>
              var h := Registry.Find(w.registry, canvasId).value.value.handle;
              var c := Loader.Complete(Table(w.objects[h], kind), kind, url, outcome);
              && s.error.None?
              && s.world.ledger == w.ledger
              && SameShape(w, s.world)
              && Table(s.world.objects[h], kind) == c.pending
              && s.effects == NotifyAll(c.calls)
    ensures Valid(s.world)
  {
    match Registry.Find(w.registry, canvasId)
    case Throw(e) => Step(w, [], Some(e))
    case Ok(None) => DeliverOrphan(w, canvasId.value, url)
    case Ok(Some(e)) => DeliverTo(w, e.handle, kind, url, outcome)
  }

  /** An answer nobody is registered for crosses one copy of the URL off the
      ledger and says on the console whether a disposed object asked. */
  function DeliverOrphan(w: World, canvasId: string, url: string): (s: Step)
    ensures s.error.None? && s.world == w.(ledger := s.world.ledger)
    ensures url in w.ledger ==> s.world.ledger == w.ledger - multiset{url}
    ensures url !in w.ledger ==> s.world.ledger == w.ledger
    ensures s.effects == [Log(OrphanMessage(url, canvasId, url in w.ledger))]
  {
    var disposed := url in w.ledger;
    Step(w.(ledger := if disposed then w.ledger - multiset{url} else w.ledger),
         [Log(OrphanMessage(url, canvasId, disposed))], None)
  }

  /** An answer for a registered object completes its queue for the URL. */
  function DeliverTo(w: World, h: nat, kind: Loader.Kind, url: string, outcome: Loader.Outcome<Asset>): (s: Step)
    requires Valid(w) && h in w.objects
    ensures var c := Loader.Complete(Table(w.objects[h], kind), kind, url, outcome);
            && s.error.None?
            && s.world.ledger == w.ledger
            && SameShape(w, s.world)
            && Table(s.world.objects[h], kind) == c.pending
            && s.effects == NotifyAll(c.calls)
    ensures Valid(s.world)
  {
    var i := w.objects[h];
    var c := Loader.Complete(Table(i, kind), kind, url, outcome);
    var s := Step(w.(objects := w.objects[h := WithTable(i, kind, c.pending)]), NotifyAll(c.calls), None);
    SameShapeValid(w, s.world);
    s
  }

  function NotifyAll(calls: seq<Loader.Invocation<Asset>>): (r: seq<Effect>)
    ensures |r| == |calls|
    ensures forall k :: 0 <= k < |calls| ==> r[k] == Notify(calls[k])
  {
    if |calls| == 0 then [] else [Notify(calls[0])] + NotifyAll(calls[1..])
  }

  /** `OnTextFileLoaded`: null content means failure. */
  function OnTextFileLoaded(w: World, canvasId: Option<string>, url: string,
                            content: Option<string>, errorText: Option<string>): (s: Step)
    requires Valid(w)
    ensures content.Some? ==> s == Deliver(w, Loader.TextFile, canvasId, url, Loader.Content(TextAsset(content.value)))
    ensures content.None? ==> s == Deliver(w, Loader.TextFile, canvasId, url, Loader.Failure(errorText))
  {
    Deliver(w, Loader.TextFile, canvasId, url,
            if content.Some? then Loader.Content(TextAsset(content.value)) else Loader.Failure(errorText))
  }

  /** `OnBinaryFileLoaded`: null bytes mean failure. */
  function OnBinaryFileLoaded(w: World, canvasId: Option<string>, url: string,
                              bytes: Option<seq<bv8>>, errorText: Option<string>): (s: Step)
    requires Valid(w)
    ensures bytes.Some? ==> s == Deliver(w, Loader.BinaryFile, canvasId, url, Loader.Content(BinaryAsset(bytes.value)))
    ensures bytes.None? ==> s == Deliver(w, Loader.BinaryFile, canvasId, url, Loader.Failure(errorText))
  {
    Deliver(w, Loader.BinaryFile, canvasId, url,
            if bytes.Some? then Loader.Content(BinaryAsset(bytes.value)) else Loader.Failure(errorText))
  }

  /** The RGBA image handed to image callbacks: a row is 4 bytes a pixel. */
  function MakeRawImage(width: int, height: int, bytes: seq<bv8>): (r: RawImage)
    ensures r.width == width && r.height == height && r.bytes == bytes
    ensures r.stride == 4 * width
  {
    RawImage(width, height, width * 4, bytes)
  }

  /** `OnImageBytesLoaded`: null bytes mean failure. */
  function OnImageBytesLoaded(w: World, canvasId: Option<string>, url: string, width: int, height: int,
                              bytes: Option<seq<bv8>>, errorText: Option<string>): (s: Step)
    requires Valid(w)
    ensures bytes.Some? ==>
              s == Deliver(w, Loader.ImageBytes, canvasId, url,
                           Loader.Content(ImageAsset(MakeRawImage(width, height, bytes.value))))
    ensures bytes.None? ==> s == Deliver(w, Loader.ImageBytes, canvasId, url, Loader.Failure(errorText))
  {
    Deliver(w, Loader.ImageBytes, canvasId, url,
            if bytes.Some? then Loader.Content(ImageAsset(MakeRawImage(width, height, bytes.value)))
            else Loader.Failure(errorText))
  }

  function NotFoundWarning(canvasId: string): string {
    "WARNING: CanvasInterop object with canvasId '" + canvasId
      + "' not found. Probably it was disposed when a javascript request was not yet finished."
  }

  /** The pointer, wheel, pinch and context-lost callbacks: find the object
      by id and raise the event on it; warn when it is gone. */
  function Dispatch(w: World, canvasId: Option<string>, ev: Event): (s: Step)
    ensures s.world == w
    ensures canvasId.None? <==> s.error == Some(LookupFailed)
    ensures canvasId.Some? ==> match Registry.Find(w.registry, canvasId).value
                               case Some(e) => s.effects == [Raise(e.handle, ev)]
                               case None => s.effects == [Log(NotFoundWarning(canvasId.value))]
  {
    match Registry.Find(w.registry, canvasId)
    case Throw(e) => Step(w, [], Some(e))
    case Ok(None) => Step(w, [Log(NotFoundWarning(canvasId.value))], None)
    case Ok(Some(e)) => Step(w, [Raise(e.handle, ev)], None)
  }

  /** `OnCanvasResizedJsCallback`: the size is truncated into the integer
      properties and the ratio stored before the event is raised. */
  function OnCanvasResized(w: World, canvasId: Option<string>, width: real, height: real,
                           devicePixelRatio: real): (s: Step)
    requires Valid(w)
    ensures Valid(s.world)
    ensures canvasId.None? <==> s.error == Some(LookupFailed)
    ensures s.error.None? && Registry.Find(w.registry, canvasId).value.None? ==>
              s.world == w && s.effects == [Log(NotFoundWarning(canvasId.value))]
    ensures s.error.None? && Registry.Find(w.registry, canvasId).value.Some? ==>
              var h := Registry.Find(w.registry, canvasId).value.value.handle;
              && SameShape(w, s.world)
              && h in s.world.objects
              && var i' := s.world.objects[h];
              && i'.width == Numbers.TruncateToInt(width)
              && i'.height == Numbers.TruncateToInt(height)
              && i'.dpiScale == devicePixelRatio
              && s.effects == [Raise(h, CanvasResized(width, height, devicePixelRatio))]
  {
    var found := Registry.Find(w.registry, canvasId);
    if found.Throw? then Step(w, [], Some(found.error))
    else if found.value.None? then Step(w, [Log(NotFoundWarning(canvasId.value))], None)
    else Resize(w, found.value.value.handle, width, height, devicePixelRatio)
  }

  /** The found object takes the truncated size and the ratio, then raises
      `CanvasResized`. */
  function Resize(w: World, h: nat, width: real, height: real, devicePixelRatio: real): (s: Step)
    requires Valid(w) && h in w.objects
    ensures s.error.None? && SameShape(w, s.world) && Valid(s.world)
    ensures h in s.world.objects
    ensures s.world.objects[h].width == Numbers.TruncateToInt(width)
    ensures s.world.objects[h].height == Numbers.TruncateToInt(height)
    ensures s.world.objects[h].dpiScale == devicePixelRatio
    ensures s.effects == [Raise(h, CanvasResized(width, height, devicePixelRatio))]
  {
    var i' := w.objects[h].(width := Numbers.TruncateToInt(width), height := Numbers.TruncateToInt(height),
                            dpiScale := devicePixelRatio);
    UpdateKeepsShape(w, h, i');
    Step(w.(objects := w.objects[h := i']), [Raise(h, CanvasResized(width, height, devicePixelRatio))], None)
  }

  /** `OnFrameUpdateJsCallback`: every registered object, initial first. */
  function OnFrameUpdate(w: World): (s: Step)
    ensures s.world == w && s.error.None?
    ensures |s.effects| == |Registry.Members(w.registry)|
    ensures forall k :: 0 <= k < |s.effects| ==>
              s.effects[k] == Raise(Registry.Members(w.registry)[k].handle, AnimationFrameUpdated)
  {
    Step(w, FrameEvents(Registry.Members(w.registry)), None)
  }

  function FrameEvents(members: seq<Registry.Entry>): (r: seq<Effect>)
    ensures |r| == |members|
    ensures forall k :: 0 <= k < |members| ==> r[k] == Raise(members[k].handle, AnimationFrameUpdated)
  {
    if |members| == 0 then [] else [Raise(members[0].handle, AnimationFrameUpdated)] + FrameEvents(members[1..])
  }

  // ---------------------------------------------------------------------
  // Properties across operations
  // ---------------------------------------------------------------------

  /** An object registered once stops receiving frame ticks when disposed,
      and every other registered object keeps receiving them. */
  lemma DisposedObjectGetsNoFrames(w: World, h: nat)
    requires Valid(w) && h in w.objects && !w.objects[h].isDisposed
    requires multiset(HandlesOf(Registry.Members(w.registry)))[h] <= 1
    ensures var w' := Dispose(w, h).world;
            && (forall k :: 0 <= k < |OnFrameUpdate(w').effects| ==> OnFrameUpdate(w').effects[k].handle != h)
            && (forall e :: e in Registry.Members(w.registry) && e.handle != h ==>
                  Raise(e.handle, AnimationFrameUpdated) in OnFrameUpdate(w').effects)
  {
    var m := Registry.Members(w.registry);
    Registry.UnregisterMembers(w.registry, h);
    RemoveFirstDropsOnly(m, h);
    var w' := Dispose(w, h).world;
    var m' := Registry.Members(w'.registry);
    forall e | e in m && e.handle != h
      ensures Raise(e.handle, AnimationFrameUpdated) in OnFrameUpdate(w').effects
    {
      var k :| 0 <= k < |m'| && m'[k] == e;
      assert OnFrameUpdate(w').effects[k] == Raise(e.handle, AnimationFrameUpdated);
    }
  }

  function HandlesOf(list: seq<Registry.Entry>): (r: seq<nat>)
    ensures |r| == |list|
    ensures forall k :: 0 <= k < |list| ==> r[k] == list[k].handle
  {
    if |list| == 0 then [] else [list[0].handle] + HandlesOf(list[1..])
  }

  /** Removing the first entry of a handle that occurs at most once removes
      all of its entries and keeps every other one. */
  lemma {:induction false} RemoveFirstDropsOnly(list: seq<Registry.Entry>, h: nat)
    requires multiset(HandlesOf(list))[h] <= 1
    ensures forall e :: e in Registry.RemoveFirst(list, h) ==> e.handle != h
    ensures forall e :: e in list && e.handle != h ==> e in Registry.RemoveFirst(list, h)
    decreases |list|
  {
    if |list| > 0 {
      assert HandlesOf(list) == [list[0].handle] + HandlesOf(list[1..]);
      assert multiset(HandlesOf(list)) == multiset{list[0].handle} + multiset(HandlesOf(list[1..]));
      if list[0].handle == h {
        assert multiset(HandlesOf(list[1..]))[h] == 0;
        forall e | e in list[1..] ensures e.handle != h {
          var k :| 0 <= k < |list[1..]| && list[1..][k] == e;
          assert HandlesOf(list[1..])[k] == e.handle;
          assert HandlesOf(list[1..])[k] in multiset(HandlesOf(list[1..]));
        }
      } else {
        RemoveFirstDropsOnly(list[1..], h);
        assert list == [list[0]] + list[1..];
      }
    }
  }

  /** Once an object is gone from the registry, an answer to a request it
      made before being disposed notifies nobody, crosses the URL off the
      ledger and reports it as requested by a disposed object. */
  lemma AnswerAfterDispose(w: World, h: nat, kind: Loader.Kind, url: string, outcome: Loader.Outcome<Asset>)
    requires Valid(w) && h in w.objects && !w.objects[h].isDisposed
    requires url in Table(w.objects[h], kind)
    ensures var w' := Dispose(w, h).world;
            var id := w.objects[h].canvasId;
            Registry.Find(w'.registry, Some(id)) == Ok(None) ==>
              var s := Deliver(w', kind, Some(id), url, outcome);
              && s.effects == [Log(OrphanMessage(url, id, true))]
              && s.world.ledger[url] + 1 == w'.ledger[url]
  {
    var i := w.objects[h];
    var w' := Dispose(w, h).world;
    assert PendingUrls(Table(i, kind))[url] == 1;
    assert w'.ledger[url] >= 1;
  }

  /** A request on a connected object, answered with content, reaches its
      success callback and leaves the URL no longer pending. */
  lemma RequestThenAnswer(w: World, h: nat, r: LoadRequest, content: Asset)
    requires Valid(w) && h in w.objects && w.interopInitialized
    requires r.url !in Table(w.objects[h], r.kind)
    requires Registry.Find(w.registry, Some(w.objects[h].canvasId)) == Ok(Some(Registry.Entry(h, w.objects[h].canvasId)))
    ensures var s1 := Load(w, h, r);
            var s2 := Deliver(s1.world, r.kind, Some(w.objects[h].canvasId), r.url, Loader.Content(content));
            && s1.effects == [Call(LoadJs(r.kind, w.objects[h].canvasId, r.url))]
            && s2.effects == [Notify(Loader.Loaded(r.waiter.onLoaded, content))]
            && r.url !in Table(s2.world.objects[h], r.kind)
  {
    var s1 := Load(w, h, r);
    SameShapeValid(w, s1.world);
    assert Table(s1.world.objects[h], r.kind)[r.url] == [r.waiter];
  }

  lemma {:induction false} WaitersForAppend(a: seq<LoadRequest>, b: seq<LoadRequest>, kind: Loader.Kind, url: string)
    ensures WaitersFor(a + b, kind, url) == WaitersFor(a, kind, url) + WaitersFor(b, kind, url)
    decreases |a|
  {
    if |a| == 0 {
      assert a + b == b;
    } else {
      assert (a + b)[0] == a[0] && (a + b)[1..] == a[1..] + b;
      WaitersForAppend(a[1..], b, kind, url);
    }
  }

  /** Every caller of `rs` is among the waiters of its own URL. */
  lemma {:induction false} WaitersForHas(rs: seq<LoadRequest>, m: nat)
    requires m < |rs|
    ensures rs[m].waiter in WaitersFor(rs, rs[m].kind, rs[m].url)
    decreases m
  {
    var r := rs[m];
    var tail := WaitersFor(rs[1..], r.kind, r.url);
    if m == 0 {
      assert WaitersFor(rs, r.kind, r.url) == [r.waiter] + tail;
    } else {
      assert rs[1..][m - 1] == r;
      WaitersForHas(rs[1..], m - 1);
      assert WaitersFor(rs, r.kind, r.url) ==
             (if rs[0].kind == r.kind && rs[0].url == r.url then [rs[0].waiter] else []) + tail;
    }
  }

  /** `rs[j..]` fetches a (kind, URL) pair iff the pair was not pending,
      is requested somewhere in `rs`, and not before index `j`. */
  lemma {:induction false} FetchesFromIff(i: Instance, rs: seq<LoadRequest>, j: nat, kind: Loader.Kind, url: string)
    requires j <= |rs|
    ensures Call(LoadJs(kind, i.canvasId, url)) in FetchesFrom(i, rs, j) <==>
            url !in Table(i, kind) && WaitersFor(rs[..j], kind, url) == [] && WaitersFor(rs, kind, url) != []
    decreases |rs| - j
  {
    if j == |rs| {
      assert rs[..j] == rs;
    } else {
      var r := rs[j];
      FetchesFromIff(i, rs, j + 1, kind, url);
      assert rs[..j + 1] == rs[..j] + [r];
      WaitersForSnoc(rs[..j], r, kind, url);
      assert rs == rs[..j + 1] + rs[j + 1..];
      WaitersForAppend(rs[..j + 1], rs[j + 1..], kind, url);
    }
  }

  /** Loads asked for before the interop was initialised are issued when the
      object connects: after the `initWebGLCanvas` call, the browser is
      asked once for every (kind, URL) pair that was parked and not already
      pending, and every parked caller is queued under its URL behind the
      callers already waiting. */
  lemma ParkedLoadsIssuedOnConnect(w: World, h: nat, jsResult: Option<string>, msaa: bool, preserve: bool)
    requires h in w.objects
    requires CheckIsInitialized(w, w.objects[h], false, "InitWebGL").None?
    requires Handshake.Parse(jsResult).Accepted?
    ensures var i := w.objects[h]; var s := InitWebGL(w, h, jsResult, msaa, preserve);
            && |s.effects| >= 1 && s.effects[0] == InitCall(i, msaa, preserve)
            && (forall k, u :: Call(LoadJs(k, i.canvasId, u)) in s.effects[1..] <==>
                                 u !in Table(i, k) && WaitersFor(i.deferred, k, u) != [])
            && (forall m :: 0 <= m < |i.deferred| ==>
                  var r := i.deferred[m];
                  && r.url in Table(s.world.objects[h], r.kind)
                  && r.waiter in Table(s.world.objects[h], r.kind)[r.url])
            && (forall k, u :: u in Table(i, k) ==>
                  u in Table(s.world.objects[h], k) && Table(i, k)[u] <= Table(s.world.objects[h], k)[u])
  {
    var i := w.objects[h];
    var s := InitWebGL(w, h, jsResult, msaa, preserve);
    var i' := s.world.objects[h];
    assert s.effects[1..] == FetchesFrom(i, i.deferred, 0);
    forall k, u
      ensures Call(LoadJs(k, i.canvasId, u)) in s.effects[1..] <==>
              u !in Table(i, k) && WaitersFor(i.deferred, k, u) != []
    {
      FetchesFromIff(i, i.deferred, 0, k, u);
      assert i.deferred[..0] == [];
    }
    forall m | 0 <= m < |i.deferred|
      ensures var r := i.deferred[m]; r.url in Table(i', r.kind) && r.waiter in Table(i', r.kind)[r.url]
    {
      WaitersForHas(i.deferred, m);
    }
  }
}

=== FILE: check_box.dfy ===
/** `CheckBoxUIElement`: a labelled check box. The label is parsed for a
    tool tip only when the box is created.
 */
module CheckBox {
  import opened Wrappers
  import Text
  import ToolTip
  import UIElement

  datatype Box = Box(base: UIElement.Base, text: string, isChecked: bool)

  function Create(text: Option<string>, isInitiallyChecked: bool): (b: Box)
    ensures b.text == ToolTip.ParseTextAndToolTip(text).text.GetOr("")
    ensures b.base.toolTip == ToolTip.ParseTextAndToolTip(text).toolTip
    ensures b.isChecked == isInitiallyChecked
    ensures b.base.isVisible && b.base.margin == UIElement.NoMargin
  {
    var parsed := ToolTip.ParseTextAndToolTip(text);
    var base := if parsed.toolTip.Some? then UIElement.SetToolTip(UIElement.NewBase, parsed.toolTip.value)
                else UIElement.NewBase;
    Box(base, parsed.text.GetOr(""), isInitiallyChecked)
  }

  /** `SetText` stores the text as given; null reads back as empty. */
  function SetText(b: Box, text: Option<string>): (r: Box)
    ensures r.text == text.GetOr("")
    ensures r.base == b.base && r.isChecked == b.isChecked
  {
    b.(text := text.GetOr(""))
  }

  function SetValue(b: Box, v: UIElement.Value): (r: Result<Box>)
    ensures r.Ok? <==> v.BoolV?
    ensures r.Throw? ==> r.error == Argument
    ensures v.BoolV? ==> r == Ok(b.(isChecked := v.b))
  {
    if v.BoolV? then Ok(b.(isChecked := v.b)) else Throw(Argument)
  }

  /** The browser's `onchange`: the new state is the event's bool value, or
      false when it is not a bool; the callback receives the new state. */
  function OnChange(b: Box, v: UIElement.Value): (r: (Box, bool))
    ensures r.1 == r.0.isChecked
    ensures r.0 == b.(isChecked := r.1)
    ensures r.1 <==> v == UIElement.BoolV(true)
  {
    var c := if v.BoolV? then v.b else false;
    (b.(isChecked := c), c)
  }

  /** `SetText` does not parse: a label with a tool-tip marker is shown
      literally, unlike at creation. */
  lemma SetTextIsLiteral(b: Box, prefix: string, tip: string)
    requires prefix != "" && !Text.Contains(prefix, ToolTip.Key)
    ensures SetText(b, Some(ToolTip.Compose(prefix, tip))).text == prefix + ToolTip.Key + tip
    ensures Create(Some(ToolTip.Compose(prefix, tip)), false).text == ToolTip.Decorate(prefix)
  {
    ToolTip.ParseCompose(prefix, tip);
  }
}

=== FILE: combo_box.dfy ===
/** `ComboBoxUIElement`: a drop-down list. Unlike the radio buttons it
    stores whatever index it is given, and an unknown item selects -1.
 */
module ComboBox {
  import opened Wrappers
  import Numbers
  import ToolTip
  import UIElement
  import RadioButtons

  datatype Combo = Combo(
    base: UIElement.Base,
    items: seq<string>,
    selected: int,
    keyText: Option<string>)

  function Create(items: seq<string>, selectedIndex: int, keyText: Option<string>): (c: Combo)
    ensures c.items == items && c.selected == selectedIndex
    ensures c.keyText == ToolTip.ParseTextAndToolTip(keyText).text
    ensures c.base.toolTip == ToolTip.ParseTextAndToolTip(keyText).toolTip
  {
    var parsed := ToolTip.ParseTextAndToolTip(keyText);
    var b := if parsed.toolTip.Some? then UIElement.SetToolTip(UIElement.NewBase, parsed.toolTip.value)
             else UIElement.NewBase;
    Combo(b, items, selectedIndex, parsed.text)
  }

  /** `Array.IndexOf`: the first equal item, or -1. */
  function IndexOrMinusOne(items: seq<string>, s: string): (k: int)
    ensures -1 <= k < |items|
    ensures k == -1 <==> s !in items
    ensures k >= 0 ==> items[k] == s && s !in items[..k]
  {
    match RadioButtons.IndexOfItem(items, s)
    case None => -1
    case Some(k) =>
      assert forall i :: 0 <= i < k ==> items[..k][i] != s;
      k
  }

  /** `SetValue`: an int is stored without a range check, a text selects
      its first occurrence (or -1), anything else is rejected. */
  function SetValue(c: Combo, v: UIElement.Value): (res: Result<Combo>)
    ensures res.Ok? <==> v.IntV? || v.StringV?
    ensures res.Throw? ==> res.error == Argument
    ensures v.IntV? ==> res == Ok(c.(selected := v.i))
    ensures v.StringV? ==> res.Ok? && res.value == c.(selected := res.value.selected)
    ensures v.StringV? ==> (res.value.selected == -1 <==> v.s !in c.items)
    ensures v.StringV? && res.value.selected >= 0 ==>
              res.value.selected < |c.items| && c.items[res.value.selected] == v.s
  {
    match v
    case IntV(i) => Ok(c.(selected := i))
    case StringV(s) => Ok(c.(selected := IndexOrMinusOne(c.items, s)))
    case _ => Throw(Argument)
  }

  /** The browser's `onchange` with the option's value text: a number is
      stored and reported with the item at that index (null when out of
      range); anything else changes nothing and reports nothing. */
  function OnChange(c: Combo, value: Option<string>): (r: (Combo, Option<(int, Option<string>)>))
    ensures value.None? ==> r == (c, None)
    ensures value.Some? && Numbers.TryParseInt32(value.value).None? ==> r == (c, None)
    ensures value.Some? && Numbers.TryParseInt32(value.value).Some? ==>
              var k := Numbers.TryParseInt32(value.value).value;
              && r.0 == c.(selected := k)
              && r.1 == Some((k, if 0 <= k < |c.items| then Some(c.items[k]) else None))
  {
    if value.None? then (c, None)
    else
      match Numbers.TryParseInt32(value.value)
      case None => (c, None)
      case Some(k) =>
        var text := if k < 0 || k > |c.items| - 1 then None else Some(c.items[k]);
        (c.(selected := k), Some((k, text)))
  }

  /** The value text the rendered option `i` carries. */
  function OptionValue(i: nat): string {
    Numbers.NatToString(i)
  }

  /** Choosing the rendered option `i` reports that option's index and text. */
  lemma ChooseRenderedOption(c: Combo, i: nat)
    requires i < |c.items|
    requires i <= Numbers.Int32Max
    ensures OnChange(c, Some(OptionValue(i))) == (c.(selected := i), Some((i, Some(c.items[i]))))
  {
    Numbers.ParseIntOfIntToString(i);
  }

  /** `GetText`/`SetText` work on the key text, unparsed. */
  function SetText(c: Combo, text: Option<string>): (r: Combo)
    ensures r.keyText == text && r.(keyText := c.keyText) == c
  {
    c.(keyText := text)
  }

  /** Which options carry the `selected` attribute. */
  function RenderSelected(c: Combo): (marks: seq<bool>)
    ensures |marks| == |c.items|
    ensures forall i :: 0 <= i < |marks| ==> (marks[i] <==> i == c.selected)
  {
    seq(|c.items|, i => i == c.selected)
  }

  /** Exactly one option is marked when the stored index is in range, and
      none otherwise (which `SetValue` and an unknown item allow). */
  lemma RenderMarkCount(c: Combo)
    ensures UIElement.CountTrue(RenderSelected(c)) == if 0 <= c.selected < |c.items| then 1 else 0
  {
    UIElement.CountTrueExactlyAtIndex(RenderSelected(c), c.selected);
  }

  /** Selecting an unknown item leaves the list with nothing marked. */
  lemma UnknownItemMarksNothing(c: Combo, s: string)
    requires s !in c.items
    ensures UIElement.CountTrue(RenderSelected(SetValue(c, UIElement.StringV(s)).value)) == 0
  {
    RenderMarkCount(SetValue(c, UIElement.StringV(s)).value);
  }
}

=== FILE: handshake.dfy ===
/** The WebGL handshake string: written by the browser script's
    `initWebGLCanvas` and read back positionally by `CanvasInterop.InitWebGL`.

    Success is `OK:v{1|2};{width};{height};{dpiScale}`; anything that does
    not start with `OK:` is an error text.
 */
module Handshake {
  import opened Wrappers
  import Text
  import Numbers

  const OkPrefix: string := "OK:"
  const NoWebGLText: string := "WebGL 1.0 is not supported"
  const CanvasNotFoundPrefix: string := "Canvas not found: "

  /** The error text for a canvas id the document does not contain. */
  function CanvasNotFoundText(canvasId: string): string {
    CanvasNotFoundPrefix + canvasId
  }

  function VersionField(isWebGL2: bool): string {
    if isWebGL2 then "v2" else "v1"
  }

  /** The success text: version, back-buffer width and height, and the
      device-pixel ratio as JavaScript prints it. */
  function SuccessText(isWebGL2: bool, width: int, height: int, dpi: Numbers.Decimal): string {
    OkPrefix + Text.Join([VersionField(isWebGL2), Numbers.IntToString(width),
                          Numbers.IntToString(height), Numbers.FormatDecimal(dpi)], ';')
  }

  /** The fields `InitWebGL` had already assigned when a parse step threw. */
  datatype Partial = Partial(isWebGL2: bool, width: Option<int>, height: Option<int>)

  datatype Parsed =
    | Declined                                       // null, empty or no "OK:" prefix
    | Accepted(isWebGL2: bool, width: int, height: int, dpi: Numbers.Decimal)
    | Failed(partial: Partial, error: Exn)           // a parse step threw

  /** One `int.Parse(dataParts[i])`, with the index check of the array. */
  function IntField(parts: seq<string>, i: nat): Result<int> {
    if i < |parts| then Numbers.ParseInt32(parts[i]) else Throw(IndexOutOfRange)
  }

  /** `float.Parse(dataParts[3], CultureInfo.InvariantCulture)`. */
  function DpiField(parts: seq<string>): Result<Numbers.Decimal> {
    if 3 < |parts| then
      match Numbers.ParseDecimal(parts[3])
      case Some(d) => Ok(d)
      case None => Throw(Format)
    else Throw(IndexOutOfRange)
  }

  /** The parse in `InitWebGL`: skip `OK:`, split on `;`, then read fields
      0 to 3 in order; the first failing read ends the parse. */
  function Parse(result: Option<string>): (p: Parsed)
    ensures p.Declined? <==> result.None? || result.value == "" || !(OkPrefix <= result.value)
    ensures p.Accepted? ==>
              && result.Some? && OkPrefix <= result.value
              && (p.isWebGL2 <==> Text.Split(result.value[|OkPrefix|..], ';')[0] == "v2")
  {
    if result.None? || result.value == "" || !(OkPrefix <= result.value) then Declined
    else
      var parts := Text.Split(result.value[|OkPrefix|..], ';');
      var isWebGL2 := parts[0] == "v2";
      match IntField(parts, 1)
      case Throw(e) => Failed(Partial(isWebGL2, None, None), e)
      case Ok(w) =>
        match IntField(parts, 2)
        case Throw(e) => Failed(Partial(isWebGL2, Some(w), None), e)
        case Ok(h) =>
          match DpiField(parts)
          case Throw(e) => Failed(Partial(isWebGL2, Some(w), Some(h)), e)
          case Ok(d) => Accepted(isWebGL2, w, h, d)
  }

  lemma IntToStringHasNoSemicolon(n: int)
    ensures ';' !in Numbers.IntToString(n)
  {
    var s := Numbers.IntToString(n);
    var digits := if n < 0 then Numbers.NatToString(-n) else Numbers.NatToString(n);
    assert n < 0 ==> s == "-" + digits;
    forall i | 0 <= i < |digits| ensures digits[i] != ';' {
      assert Numbers.IsDigit(digits[i]);
    }
  }

  lemma DecimalHasNoSemicolon(d: Numbers.Decimal)
    requires Numbers.WellFormed(d)
    ensures ';' !in Numbers.FormatDecimal(d)
  {
    var w := Numbers.NatToString(d.whole);
    forall i | 0 <= i < |w| ensures w[i] != ';' {
      assert Numbers.IsDigit(w[i]);
    }
    forall i | 0 <= i < |d.frac| ensures d.frac[i] != ';' {
      assert Numbers.IsDigit(d.frac[i]);
    }
    assert Numbers.FormatDecimal(d) ==
      (if d.negative then "-" else "") + w + (if d.frac == "" then "" else "." + d.frac);
  }

  function SuccessFields(isWebGL2: bool, width: int, height: int, dpi: Numbers.Decimal): seq<string> {
    [VersionField(isWebGL2), Numbers.IntToString(width),
     Numbers.IntToString(height), Numbers.FormatDecimal(dpi)]
  }

  lemma SplitSuccessText(isWebGL2: bool, width: int, height: int, dpi: Numbers.Decimal)
    requires Numbers.WellFormed(dpi)
    ensures OkPrefix <= SuccessText(isWebGL2, width, height, dpi)
    ensures Text.Split(SuccessText(isWebGL2, width, height, dpi)[|OkPrefix|..], ';')
            == SuccessFields(isWebGL2, width, height, dpi)
  {
    var fields := SuccessFields(isWebGL2, width, height, dpi);
    var text := SuccessText(isWebGL2, width, height, dpi);
    IntToStringHasNoSemicolon(width);
    IntToStringHasNoSemicolon(height);
    DecimalHasNoSemicolon(dpi);
    assert forall i :: 0 <= i < |fields| ==> ';' !in fields[i];
    Text.SplitJoin(fields, ';');
    assert text == OkPrefix + Text.Join(fields, ';');
    assert text[|OkPrefix|..] == Text.Join(fields, ';');
  }

  /** A text with the `OK:` prefix whose fields read back as a width, a
      height and a ratio is accepted with them. */
  lemma ParseOfFields(text: string, fields: seq<string>, width: int, height: int, dpi: Numbers.Decimal)
    requires OkPrefix <= text && |fields| > 3
    requires Text.Split(text[|OkPrefix|..], ';') == fields
    requires IntField(fields, 1) == Ok(width) && IntField(fields, 2) == Ok(height)
    requires DpiField(fields) == Ok(dpi)
    ensures Parse(Some(text)) == Accepted(fields[0] == "v2", width, height, dpi)
  {
  }

  lemma VersionFieldNamesVersion(isWebGL2: bool)
    ensures (VersionField(isWebGL2) == "v2") == isWebGL2
  {
    assert "v1" != "v2" by { assert "v1"[1] != "v2"[1]; }
  }

  lemma IntFieldOfText(fields: seq<string>, i: nat, n: int)
    requires Numbers.Int32Min <= n <= Numbers.Int32Max
    requires i < |fields| && fields[i] == Numbers.IntToString(n)
    ensures IntField(fields, i) == Ok(n)
  {
    Numbers.ParseIntOfIntToString(n);
  }

  lemma DpiFieldOfText(fields: seq<string>, dpi: Numbers.Decimal)
    requires Numbers.WellFormed(dpi)
    requires 3 < |fields| && fields[3] == Numbers.FormatDecimal(dpi)
    ensures DpiField(fields) == Ok(dpi)
  {
    Numbers.ParseFormatDecimal(dpi);
  }

  /** The numeric fields of a success text read back as their numbers. */
  lemma SuccessFieldsRead(isWebGL2: bool, width: int, height: int, dpi: Numbers.Decimal)
    requires Numbers.Int32Min <= width <= Numbers.Int32Max
    requires Numbers.Int32Min <= height <= Numbers.Int32Max
    requires Numbers.WellFormed(dpi)
    ensures IntField(SuccessFields(isWebGL2, width, height, dpi), 1) == Ok(width)
    ensures IntField(SuccessFields(isWebGL2, width, height, dpi), 2) == Ok(height)
    ensures DpiField(SuccessFields(isWebGL2, width, height, dpi)) == Ok(dpi)
  {
    var fields := SuccessFields(isWebGL2, width, height, dpi);
    IntFieldOfText(fields, 1, width);
    IntFieldOfText(fields, 2, height);
    DpiFieldOfText(fields, dpi);
  }

  /** Every success text the browser script writes is read back as the same
      version, width, height and device-pixel ratio. */
  lemma ParseSuccessText(isWebGL2: bool, width: int, height: int, dpi: Numbers.Decimal)
    requires Numbers.Int32Min <= width <= Numbers.Int32Max
    requires Numbers.Int32Min <= height <= Numbers.Int32Max
    requires Numbers.WellFormed(dpi)
    ensures Parse(Some(SuccessText(isWebGL2, width, height, dpi))) == Accepted(isWebGL2, width, height, dpi)
  {
    var fields := SuccessFields(isWebGL2, width, height, dpi);
    SplitSuccessText(isWebGL2, width, height, dpi);
    SuccessFieldsRead(isWebGL2, width, height, dpi);
    VersionFieldNamesVersion(isWebGL2);
    ParseOfFields(SuccessText(isWebGL2, width, height, dpi), fields, width, height, dpi);
  }

  /** Neither error text of the browser script is taken for a success. */
  lemma ErrorTextsAreDeclined(canvasId: string)
    ensures Parse(Some(NoWebGLText)) == Declined
    ensures Parse(Some(CanvasNotFoundText(canvasId))) == Declined
  {
    assert NoWebGLText[0] != OkPrefix[0];
    assert CanvasNotFoundText(canvasId)[0] != OkPrefix[0];
  }
}

=== FILE: key_value_label.dfy ===
/** `KeyValueLabelUIElement`: a key text and a value text that is read
    again from a caller-supplied getter on every `UpdateValue`. The getter
    is code outside the model; its result is a parameter.
 */
module KeyValueLabel {
  import opened Wrappers
  import ToolTip
  import UIElement
  import Label

  datatype KeyValue = KeyValue(
    base: UIElement.Base,
    keyText: Option<string>,
    currentValue: string,
    keyTextWidth: real,
    styleString: Option<string>)

  /** The only element kinds with periodic updates are this one and the
      slider. */
  const IsUpdateSupported: bool := true

  /** Construction reads the value once, through `UpdateValue`, which asks
      the provider to re-render (the second component). */
  function Create(keyText: Option<string>, value: string, keyTextWidth: real): (r: (KeyValue, bool))
    ensures r.0.keyText == ToolTip.ParseTextAndToolTip(keyText).text
    ensures r.0.base.toolTip == ToolTip.ParseTextAndToolTip(keyText).toolTip
    ensures r.0.currentValue == value && r.0.styleString.None?
    ensures r.1
  {
    var parsed := ToolTip.ParseTextAndToolTip(keyText);
    var b := if parsed.toolTip.Some? then UIElement.SetToolTip(UIElement.NewBase, parsed.toolTip.value)
             else UIElement.NewBase;
    UpdateValue(KeyValue(b, parsed.text, "", keyTextWidth, None), value)
  }

  /** `UpdateValue`: the value becomes the getter's result and a re-render
      is requested; nothing else changes. */
  function UpdateValue(kv: KeyValue, value: string): (r: (KeyValue, bool))
    ensures r.0 == kv.(currentValue := value)
    ensures r.1
  {
    (kv.(currentValue := value), true)
  }

  /** `GetText`/`SetText` work on the key text, unparsed. */
  function SetText(kv: KeyValue, text: Option<string>): (r: KeyValue)
    ensures r.keyText == text && r.(keyText := kv.keyText) == kv
  {
    kv.(keyText := text)
  }

  function SetStyle(kv: KeyValue, style: string): (r: KeyValue)
    ensures r.styleString == Some(style) && r.(styleString := kv.styleString) == kv
  {
    kv.(styleString := Some(style))
  }

  /** The text of the single-span form. */
  function DisplayText(kv: KeyValue): (t: string)
    ensures kv.keyText.None? || kv.keyText == Some("") ==> t == kv.currentValue
    ensures kv.keyText.Some? && kv.keyText != Some("") ==>
              && |t| == |kv.keyText.value| + 1 + |kv.currentValue|
              && t[..|kv.keyText.value|] == kv.keyText.value
              && t[|kv.keyText.value|] == ' '
              && t[|kv.keyText.value| + 1..] == kv.currentValue
  {
    if kv.keyText.None? || kv.keyText.value == "" then kv.currentValue
    else
      var t := kv.keyText.value + " " + kv.currentValue;
      assert t[|kv.keyText.value| + 1..] == kv.currentValue;
      t
  }

  /** The rendered form: with a key width, a flex row (which carries the
      margin and visibility) holding a key span and a value span; without
      one, a single span with the display text. */
  datatype Rendered =
    | TwoSpans(outerStyle: UIElement.Style, key: Option<string>, value: string,
               keyStyle: UIElement.Style, valueStyle: UIElement.Style)
    | OneSpan(text: string, style: UIElement.Style)

  const Flex: UIElement.Piece := UIElement.Lit("display: flex;")
  const KeyWidth: UIElement.Piece := UIElement.Lit("width: ")
  const KeyGap: UIElement.Piece := UIElement.Lit("px; margin-right: 3px;")

  /** The style of the value span in the two-span form: the provider's font
      size when positive, then bold and italic as the style string asks. */
  function ValueStyle(kv: KeyValue, fontSize: real): (s: UIElement.Style)
    ensures UIElement.Lit("font-size: ") in s <==> fontSize > 0.0
    ensures Label.Bold in s <==> Label.Wants(kv.styleString, "bold")
    ensures Label.Italic in s <==> Label.Wants(kv.styleString, "italic")
    ensures UIElement.NumbersOf(s) == (if fontSize > 0.0 then [fontSize] else [])
  {
    var size := UIElement.SizePiece("font-size: ", fontSize);
    var flags := Label.Flags(kv.styleString);
    SizeThenFlags(size, flags);
    size + flags
  }

  /** The style of the key span: the key width and the gap to the value,
      then what the value span carries. */
  function KeyStyle(kv: KeyValue, fontSize: real): (s: UIElement.Style)
    ensures |s| >= 3 && s[0] == KeyWidth && s[1] == UIElement.Num(kv.keyTextWidth) && s[2] == KeyGap
    ensures UIElement.Lit("font-size: ") in s <==> fontSize > 0.0
    ensures Label.Bold in s <==> Label.Wants(kv.styleString, "bold")
    ensures Label.Italic in s <==> Label.Wants(kv.styleString, "italic")
    ensures UIElement.NumbersOf(s) == [kv.keyTextWidth] + (if fontSize > 0.0 then [fontSize] else [])
  {
    var head := [KeyWidth, UIElement.Num(kv.keyTextWidth), KeyGap];
    var rest := ValueStyle(kv, fontSize);
    HeadApart(kv.keyTextWidth);
    Prefixed(head, rest);
    head + rest
  }

  /** The style of the single span: margin and visibility, then the font
      size and the flags. */
  function SpanStyle(kv: KeyValue, fontSize: real): (s: UIElement.Style)
    ensures UIElement.BaseStyle(kv.base) <= s
    ensures UIElement.Lit("font-size: ") in s <==> fontSize > 0.0
    ensures Label.Bold in s <==> Label.Wants(kv.styleString, "bold")
    ensures Label.Italic in s <==> Label.Wants(kv.styleString, "italic")
    ensures UIElement.NumbersOf(s[|UIElement.BaseStyle(kv.base)|..]) == (if fontSize > 0.0 then [fontSize] else [])
  {
    var base := UIElement.BaseStyle(kv.base);
    var rest := ValueStyle(kv, fontSize);
    UIElement.BaseLacks(kv.base, UIElement.Lit("font-size: "));
    UIElement.BaseLacks(kv.base, Label.Bold);
    UIElement.BaseLacks(kv.base, Label.Italic);
    Prefixed(base, rest);
    base + rest
  }

  /** A font size entry followed by flags: each entry is there through its
      own part, and the flags carry no numbers. */
  lemma SizeThenFlags(size: UIElement.Style, flags: UIElement.Style)
    requires forall p :: p in size ==> p == UIElement.Lit("font-size: ") || p.Num? || p == UIElement.Lit("px;")
    requires forall i :: 0 <= i < |flags| ==> flags[i] == Label.Bold || flags[i] == Label.Italic
    ensures UIElement.Lit("font-size: ") in size + flags <==> UIElement.Lit("font-size: ") in size
    ensures Label.Bold in size + flags <==> Label.Bold in flags
    ensures Label.Italic in size + flags <==> Label.Italic in flags
    ensures UIElement.NumbersOf(size + flags) == UIElement.NumbersOf(size)
  {
    assert |Label.Bold.text| == 18 && |Label.Italic.text| == 19;
    UIElement.NumbersOfAppend(size, flags);
    UIElement.NoNumbers(flags);
  }

  /** The key span's head holds none of the entries a span style is judged
      by, and its one number is the key width. */
  lemma HeadApart(keyTextWidth: real)
    ensures var head := [KeyWidth, UIElement.Num(keyTextWidth), KeyGap];
      && UIElement.Lit("font-size: ") !in head && Label.Bold !in head && Label.Italic !in head
      && UIElement.NumbersOf(head) == [keyTextWidth]
  {
    assert |KeyWidth.text| == 7 && |KeyGap.text| == 22;
    assert |Label.Bold.text| == 18 && |Label.Italic.text| == 19;
    var head := [KeyWidth, UIElement.Num(keyTextWidth), KeyGap];
    assert head[1..] == [UIElement.Num(keyTextWidth), KeyGap] && head[2..] == [KeyGap];
    assert UIElement.NumbersOf(head[2..]) == [] + UIElement.NumbersOf(head[3..]);
    assert UIElement.NumbersOf(head[1..]) == [keyTextWidth] + UIElement.NumbersOf(head[2..]);
    assert UIElement.NumbersOf(head) == [] + UIElement.NumbersOf(head[1..]);
  }

  /** A prefix without font size or flags leaves those entries to the rest. */
  lemma Prefixed(front: UIElement.Style, rest: UIElement.Style)
    requires UIElement.Lit("font-size: ") !in front && Label.Bold !in front && Label.Italic !in front
    ensures front <= front + rest && (front + rest)[|front|..] == rest
    ensures UIElement.Lit("font-size: ") in front + rest <==> UIElement.Lit("font-size: ") in rest
    ensures Label.Bold in front + rest <==> Label.Bold in rest
    ensures Label.Italic in front + rest <==> Label.Italic in rest
    ensures UIElement.NumbersOf(front + rest) == UIElement.NumbersOf(front) + UIElement.NumbersOf(rest)
  {
    UIElement.NumbersOfAppend(front, rest);
  }

  function Render(kv: KeyValue, fontSize: real): (r: Rendered)
    ensures r.TwoSpans? <==> kv.keyTextWidth > 0.0
    ensures r.TwoSpans? ==> r.key == kv.keyText && r.value == kv.currentValue
    ensures r.OneSpan? ==> r.text == DisplayText(kv)
    ensures r.TwoSpans? ==>
              && |r.outerStyle| >= 1 && r.outerStyle[0] == Flex
              && r.outerStyle[1..] == UIElement.BaseStyle(kv.base)
    ensures r.TwoSpans? ==>
              && |r.keyStyle| >= 2 && r.keyStyle[0] == KeyWidth && r.keyStyle[1] == UIElement.Num(kv.keyTextWidth)
              && UIElement.NumbersOf(r.keyStyle) == [kv.keyTextWidth] + (if fontSize > 0.0 then [fontSize] else [])
              && UIElement.NumbersOf(r.valueStyle) == (if fontSize > 0.0 then [fontSize] else [])
    ensures r.TwoSpans? ==>
              && (UIElement.Lit("font-size: ") in r.keyStyle <==> fontSize > 0.0)
              && (UIElement.Lit("font-size: ") in r.valueStyle <==> fontSize > 0.0)
              && (Label.Bold in r.keyStyle <==> Label.Wants(kv.styleString, "bold"))
              && (Label.Bold in r.valueStyle <==> Label.Wants(kv.styleString, "bold"))
              && (Label.Italic in r.keyStyle <==> Label.Wants(kv.styleString, "italic"))
              && (Label.Italic in r.valueStyle <==> Label.Wants(kv.styleString, "italic"))
    ensures r.OneSpan? ==>
              && UIElement.BaseStyle(kv.base) <= r.style
              && UIElement.NumbersOf(r.style[|UIElement.BaseStyle(kv.base)|..]) == (if fontSize > 0.0 then [fontSize] else [])
              && (UIElement.Lit("font-size: ") in r.style <==> fontSize > 0.0)
              && (Label.Bold in r.style <==> Label.Wants(kv.styleString, "bold"))
              && (Label.Italic in r.style <==> Label.Wants(kv.styleString, "italic"))
  {
    if kv.keyTextWidth > 0.0 then
      var outer := [Flex] + UIElement.BaseStyle(kv.base);
      assert outer[1..] == UIElement.BaseStyle(kv.base);
      TwoSpans(outer, kv.keyText, kv.currentValue, KeyStyle(kv, fontSize), ValueStyle(kv, fontSize))
    else
      OneSpan(DisplayText(kv), SpanStyle(kv, fontSize))
  }

  /** Updating the value shows the new value and keeps the key: in the
      single-span form the text is the key, a space and the value. */
  lemma UpdateShowsValue(kv: KeyValue, value: string, key: string)
    requires kv.keyTextWidth <= 0.0 && kv.keyText == Some(key) && key != ""
    ensures Render(UpdateValue(kv, value).0, 0.0).text == key + " " + value
  {
  }
}

=== FILE: label.dfy ===
/** `LabelUIElement`: a text span, optionally a section header. The style
    string set by the samples is free text; the label looks for the words
    "bold" and "italic" in it, ignoring case.
 */
module Label {
  import opened Wrappers
  import Text
  import ToolTip
  import UIElement

  datatype Label = Label(
    base: UIElement.Base,
    text: string,
    styleString: Option<string>,
    width: real,
    height: real,
    maxWidth: real,
    isHeader: bool)

  /** Extra space above a header that follows other elements of its panel. */
  const HeaderGap: real := 8.0

  /** Construction. A header is bold and gets the provider's header margins,
      with the gap added when the current panel already has children. */
  function Create(text: Option<string>, isHeader: bool, width: real, height: real, maxWidth: real,
                  headerTopMargin: real, headerBottomMargin: real, panelHasChildren: bool): (l: Label)
    ensures l.text == ToolTip.ParseTextAndToolTip(text).text.GetOr("")
    ensures l.base.toolTip == ToolTip.ParseTextAndToolTip(text).toolTip
    ensures l.isHeader == isHeader && l.base.isVisible
    ensures !isHeader ==> l.styleString.None? && l.base.margin == UIElement.NoMargin
    ensures isHeader ==> l.styleString == Some("bold")
    ensures isHeader ==>
              l.base.margin == UIElement.Margin(0.0, headerTopMargin + (if panelHasChildren then HeaderGap else 0.0),
                                                0.0, headerBottomMargin)
  {
    var parsed := ToolTip.ParseTextAndToolTip(text);
    var b0 := if parsed.toolTip.Some? then UIElement.SetToolTip(UIElement.NewBase, parsed.toolTip.value)
              else UIElement.NewBase;
    if isHeader then
      var top := if panelHasChildren then headerTopMargin + HeaderGap else headerTopMargin;
      Label(UIElement.SetMargin(b0, 0.0, top, 0.0, headerBottomMargin), parsed.text.GetOr(""),
            Some("bold"), width, height, maxWidth, true)
    else
      Label(b0, parsed.text.GetOr(""), None, width, height, maxWidth, false)
  }

  /** `SetText` re-parses; a new tool tip replaces the old one, but a text
      without one keeps the old tool tip. */
  function SetText(l: Label, text: Option<string>): (r: Label)
    ensures r.text == ToolTip.ParseTextAndToolTip(text).text.GetOr("")
    ensures ToolTip.ParseTextAndToolTip(text).toolTip.Some? ==>
              r.base.toolTip == ToolTip.ParseTextAndToolTip(text).toolTip
    ensures ToolTip.ParseTextAndToolTip(text).toolTip.None? ==> r.base == l.base
    ensures r.styleString == l.styleString && r.base.margin == l.base.margin
  {
    var parsed := ToolTip.ParseTextAndToolTip(text);
    var b := if parsed.toolTip.Some? then UIElement.SetToolTip(l.base, parsed.toolTip.value) else l.base;
    l.(base := b, text := parsed.text.GetOr(""))
  }

  function SetStyle(l: Label, style: string): (r: Label)
    ensures r.styleString == Some(style)
    ensures r == l.(styleString := Some(style))
  {
    l.(styleString := Some(style))
  }

  const Bold: UIElement.Piece := UIElement.Lit("font-weight: bold;")
  const Italic: UIElement.Piece := UIElement.Lit("font-style: italic;")

  /** Whether the style string asks for a word, as the label tests it. */
  predicate Wants(styleString: Option<string>, word: string) {
    styleString.Some? && Text.ContainsIgnoreCase(styleString.value, word)
  }

  const Layout: UIElement.Piece :=
    UIElement.Lit("vertical-align: middle; display: inline-block; word-wrap: break-word;")

  /** Each size entry is in the style exactly when its size is positive:
      the label's width, height and maximum width, and the provider's font
      size. */
  predicate SizesShown(s: UIElement.Style, l: Label, fontSize: real) {
    && (UIElement.Lit("width: ") in s <==> l.width > 0.0)
    && (UIElement.Lit("height: ") in s <==> l.height > 0.0)
    && (UIElement.Lit("max-width: ") in s <==> l.maxWidth > 0.0)
    && (UIElement.Lit("font-size: ") in s <==> fontSize > 0.0)
  }

  /** The positive sizes, in the order the style writes them. */
  function SizeNumbers(l: Label, fontSize: real): seq<real> {
    (if l.width > 0.0 then [l.width] else []) + (if l.height > 0.0 then [l.height] else [])
    + (if l.maxWidth > 0.0 then [l.maxWidth] else []) + (if fontSize > 0.0 then [fontSize] else [])
  }

  /** The sized part of the span style: the label's width, height and
      maximum width and the provider's font size, each written only when
      positive, in that order. */
  function Sizes(l: Label, fontSize: real): (s: UIElement.Style)
    ensures SizesShown(s, l, fontSize)
    ensures Bold !in s && Italic !in s
    ensures UIElement.NumbersOf(s) == SizeNumbers(l, fontSize)
  {
    var w := UIElement.SizePiece("width: ", l.width);
    var h := UIElement.SizePiece("height: ", l.height);
    var m := UIElement.SizePiece("max-width: ", l.maxWidth);
    var f := UIElement.SizePiece("font-size: ", fontSize);
    NumbersOfFour(w, h, m, f);
    SizesApart(l.width, l.height, l.maxWidth, fontSize);
    w + h + m + f
  }

  lemma NumbersOfFour(w: UIElement.Style, h: UIElement.Style, m: UIElement.Style, f: UIElement.Style)
    ensures UIElement.NumbersOf(w + h + m + f) ==
            UIElement.NumbersOf(w) + UIElement.NumbersOf(h) + UIElement.NumbersOf(m) + UIElement.NumbersOf(f)
  {
    UIElement.NumbersOfAppend(w, h);
    UIElement.NumbersOfAppend(w + h, m);
    UIElement.NumbersOfAppend(w + h + m, f);
  }

  /** Each size name is in the four size pieces only through its own piece,
      and neither flag is in any of them. */
  lemma SizesApart(width: real, height: real, maxWidth: real, fontSize: real)
    ensures var s := UIElement.SizePiece("width: ", width) + UIElement.SizePiece("height: ", height)
                     + UIElement.SizePiece("max-width: ", maxWidth) + UIElement.SizePiece("font-size: ", fontSize);
      && (UIElement.Lit("width: ") in s <==> width > 0.0)
      && (UIElement.Lit("height: ") in s <==> height > 0.0)
      && (UIElement.Lit("max-width: ") in s <==> maxWidth > 0.0)
      && (UIElement.Lit("font-size: ") in s <==> fontSize > 0.0)
      && Bold !in s && Italic !in s
  {
    PieceApart("width: ", width, "height: ", "max-width: ", "font-size: ");
    PieceApart("height: ", height, "width: ", "max-width: ", "font-size: ");
    PieceApart("max-width: ", maxWidth, "width: ", "height: ", "font-size: ");
    PieceApart("font-size: ", fontSize, "width: ", "height: ", "max-width: ");
  }

  /** One size piece holds none of the other size names and neither flag. */
  lemma PieceApart(name: string, value: real, a: string, b: string, c: string)
    requires a != name && b != name && c != name
    requires a != "px;" && b != "px;" && c != "px;"
    requires |name| < 18
    ensures UIElement.Lit(a) !in UIElement.SizePiece(name, value)
    ensures UIElement.Lit(b) !in UIElement.SizePiece(name, value)
    ensures UIElement.Lit(c) !in UIElement.SizePiece(name, value)
    ensures Bold !in UIElement.SizePiece(name, value) && Italic !in UIElement.SizePiece(name, value)
  {
    assert |Bold.text| == 18 && |Italic.text| == 19;
  }

  /** The font-weight and font-style entries the style string asks for,
      bold first. */
  function Flags(styleString: Option<string>): (f: UIElement.Style)
    ensures Bold in f <==> Wants(styleString, "bold")
    ensures Italic in f <==> Wants(styleString, "italic")
    ensures forall i :: 0 <= i < |f| ==> f[i] == Bold || f[i] == Italic
  {
    FlagPieces(Wants(styleString, "bold"), Wants(styleString, "italic"))
  }

  /** The bold entry when asked for, then the italic one. */
  function FlagPieces(bold: bool, italic: bool): (f: UIElement.Style)
    ensures Bold in f <==> bold
    ensures Italic in f <==> italic
    ensures forall i :: 0 <= i < |f| ==> f[i] == Bold || f[i] == Italic
  {
    assert |Bold.text| == 18 && |Italic.text| == 19;
    (if bold then [Bold] else []) + (if italic then [Italic] else [])
  }

  /** What `RenderStyle` appends to the margin and visibility style. */
  function StyleTail(l: Label, fontSize: real): (t: UIElement.Style)
    ensures SizesShown(t, l, fontSize)
    ensures Bold in t <==> Wants(l.styleString, "bold")
    ensures Italic in t <==> Wants(l.styleString, "italic")
    ensures UIElement.NumbersOf(t) == SizeNumbers(l, fontSize)
  {
    var sizes := Sizes(l, fontSize);
    var flags := Flags(l.styleString);
    TailParts(sizes, flags);
    sizes + ([Layout] + flags)
  }

  /** Appending the layout and the flags adds no number and no size name,
      and leaves bold and italic to the flags. */
  lemma TailParts(sizes: UIElement.Style, flags: UIElement.Style)
    requires forall i :: 0 <= i < |flags| ==> flags[i] == Bold || flags[i] == Italic
    requires Bold !in sizes && Italic !in sizes
    ensures var t := sizes + ([Layout] + flags);
      && UIElement.NumbersOf(t) == UIElement.NumbersOf(sizes)
      && (UIElement.Lit("width: ") in t <==> UIElement.Lit("width: ") in sizes)
      && (UIElement.Lit("height: ") in t <==> UIElement.Lit("height: ") in sizes)
      && (UIElement.Lit("max-width: ") in t <==> UIElement.Lit("max-width: ") in sizes)
      && (UIElement.Lit("font-size: ") in t <==> UIElement.Lit("font-size: ") in sizes)
      && (Bold in t <==> Bold in flags) && (Italic in t <==> Italic in flags)
  {
    TailNumbers(sizes, flags);
    OutsideLayoutAndFlags("width: ", flags);
    OutsideLayoutAndFlags("height: ", flags);
    OutsideLayoutAndFlags("max-width: ", flags);
    OutsideLayoutAndFlags("font-size: ", flags);
  }

  /** The layout and the flags carry no number. */
  lemma TailNumbers(sizes: UIElement.Style, flags: UIElement.Style)
    requires forall i :: 0 <= i < |flags| ==> flags[i] == Bold || flags[i] == Italic
    ensures UIElement.NumbersOf(sizes + ([Layout] + flags)) == UIElement.NumbersOf(sizes)
  {
    UIElement.NumbersOfAppend(sizes, [Layout] + flags);
    UIElement.NoNumbers([Layout] + flags);
  }

  /** A text shorter than the bold entry is neither the layout nor a flag;
      the layout is not a flag either. */
  lemma OutsideLayoutAndFlags(name: string, flags: UIElement.Style)
    requires |name| < 18
    requires forall i :: 0 <= i < |flags| ==> flags[i] == Bold || flags[i] == Italic
    ensures UIElement.Lit(name) != Layout && UIElement.Lit(name) !in flags
    ensures Layout != Bold && Layout != Italic
  {
    assert |Bold.text| == 18 && |Italic.text| == 19 && |Layout.text| > 19;
  }

  /** The rendered span style: margin and visibility, the sizes that are
      set, the fixed layout, then bold and italic as the style string asks. */
  function RenderStyle(l: Label, fontSize: real): (s: UIElement.Style)
    ensures UIElement.BaseStyle(l.base) <= s
    ensures UIElement.NumbersOf(s[|UIElement.BaseStyle(l.base)|..]) == SizeNumbers(l, fontSize)
    ensures Bold in s <==> Wants(l.styleString, "bold")
    ensures Italic in s <==> Wants(l.styleString, "italic")
    ensures SizesShown(s, l, fontSize)
  {
    var tail := StyleTail(l, fontSize);
    AfterBase(l.base, tail, l, fontSize, Wants(l.styleString, "bold"), Wants(l.styleString, "italic"));
    UIElement.BaseStyle(l.base) + tail
  }

  /** The margin and visibility style carries none of the pieces a label
      style is judged by, so after it they are there exactly when the tail
      has them. */
  lemma AfterBase(b: UIElement.Base, tail: UIElement.Style, l: Label, fontSize: real, bold: bool, italic: bool)
    requires SizesShown(tail, l, fontSize)
    requires Bold in tail <==> bold
    requires Italic in tail <==> italic
    ensures var s := UIElement.BaseStyle(b) + tail;
      && UIElement.BaseStyle(b) <= s
      && s[|UIElement.BaseStyle(b)|..] == tail
      && SizesShown(s, l, fontSize)
      && (Bold in s <==> bold) && (Italic in s <==> italic)
  {
    var base := UIElement.BaseStyle(b);
    assert (base + tail)[|base|..] == tail;
    UIElement.BaseLacks(b, Bold);
    UIElement.BaseLacks(b, Italic);
    UIElement.BaseLacks(b, UIElement.Lit("width: "));
    UIElement.BaseLacks(b, UIElement.Lit("height: "));
    UIElement.BaseLacks(b, UIElement.Lit("max-width: "));
    UIElement.BaseLacks(b, UIElement.Lit("font-size: "));
  }

  /** A header is rendered bold until its style is replaced by one without
      the word. */
  lemma HeaderIsBold(text: Option<string>, top: real, bottom: real, hasChildren: bool, fontSize: real)
    ensures Bold in RenderStyle(Create(text, true, 0.0, 0.0, 0.0, top, bottom, hasChildren), fontSize)
  {
    var l := Create(text, true, 0.0, 0.0, 0.0, top, bottom, hasChildren);
    Text.ContainsConcat("", Text.ToUpperAscii("bold"), "");
    assert Text.ToUpperAscii("bold") == "" + Text.ToUpperAscii("bold") + "";
  }

  /** The word test ignores case: upper-casing the style string or the
      word does not change it. */
  lemma WantsIgnoresCase()
    ensures forall style, word :: Wants(Some(style), word) == Wants(Some(Text.ToUpperAscii(style)), word)
    ensures forall style, word :: Wants(Some(style), word) == Wants(Some(style), Text.ToUpperAscii(word))
    ensures Wants(Some("BOLD"), "bold") && Wants(Some("Bold"), "bold")
    ensures !Wants(Some("bol"), "bold")
  {
    forall style: string
      ensures Text.ToUpperAscii(Text.ToUpperAscii(style)) == Text.ToUpperAscii(style)
    {
      Text.ToUpperAsciiIdempotent(style);
    }
    assert Text.ToUpperAscii("Bold") == "BOLD";
    assert Text.ToUpperAscii("bold") == "BOLD";
    assert Text.ToUpperAscii("BOLD") == "BOLD";
    assert Text.OccursAt("BOLD", "BOLD", 0);
    assert Text.ToUpperAscii("bol") == "BOL";
  }
}

=== FILE: loader.dfy ===
/** Request coalescing for the three asset loaders of a `CanvasInterop`
    (`LoadTextFile`, `LoadBinaryFile`, `LoadImageBytes`) and the fan-out
    of a completion to every waiting caller.

    A pending table maps a URL to the callbacks waiting for it, in request
    order. A callback is identified by a number; a `null` table is the same
    as an empty one for every operation that reads it, so it is modelled as
    the empty map.
 */
module Loader {
  import opened Wrappers

  datatype Kind = TextFile | BinaryFile | ImageBytes

  /** The error text used when the browser reports a failure without one. */
  function DefaultErrorPrefix(kind: Kind): string {
    match kind
    case TextFile => "Error loading text file: "
    case BinaryFile => "Error loading binary file: "
    case ImageBytes => "Error loading texture: "
  }

  /** One caller: its success callback and its optional error callback. */
  datatype Waiter = Waiter(onLoaded: nat, onError: Option<nat>)

  type Pending = map<string, seq<Waiter>>

  /** The table after a request, and whether a browser fetch was issued. */
  datatype Requested = Requested(pending: Pending, fetch: bool)

  /** One load request on a connected interop: the first request for a URL
      records the caller and starts the fetch; later ones only queue up. */
  function Request(p: Pending, url: string, w: Waiter): (r: Requested)
    ensures r.fetch <==> url !in p
    ensures url in r.pending
    ensures url in p ==> r.pending[url] == p[url] + [w]
    ensures url !in p ==> r.pending[url] == [w]
    ensures r.pending.Keys == p.Keys + {url}
    ensures forall u :: u in p && u != url ==> r.pending[u] == p[u]
  {
    if url in p then Requested(p[url := p[url] + [w]], false)
    else Requested(p[url := [w]], true)
  }

  /** The table after a series of requests for one URL, and how many
      fetches they issued. */
  function RequestAll(p: Pending, url: string, ws: seq<Waiter>): (Pending, nat)
  {
    if |ws| == 0 then (p, 0)
    else
      var (q, n) := RequestAll(p, url, ws[..|ws| - 1]);
      var r := Request(q, url, ws[|ws| - 1]);
      (r.pending, n + if r.fetch then 1 else 0)
  }

  /** Requests for a URL that is not yet pending issue exactly one fetch,
      and all their callers wait in request order. */
  lemma {:induction false} RequestsCoalesce(p: Pending, url: string, ws: seq<Waiter>)
    requires url !in p
    requires |ws| > 0
    ensures url in RequestAll(p, url, ws).0
    ensures RequestAll(p, url, ws).0[url] == ws
    ensures RequestAll(p, url, ws).1 == 1
    decreases |ws|
  {
    if |ws| > 1 {
      var init := ws[..|ws| - 1];
      RequestsCoalesce(p, url, init);
      assert init + [ws[|ws| - 1]] == ws;
    }
  }

  /** What the browser reported for a URL. */
  datatype Outcome<T> = Content(content: T) | Failure(errorText: Option<string>)

  /** One callback invocation made by a completion. */
  datatype Invocation<T> = Loaded(callback: nat, content: T) | Errored(callback: nat, text: string)

  /** The success callback of every waiter, in order, with the content. */
  function LoadedCalls<T>(ws: seq<Waiter>, content: T): (r: seq<Invocation<T>>)
    ensures |r| == |ws|
    ensures forall i :: 0 <= i < |ws| ==> r[i] == Loaded(ws[i].onLoaded, content)
  {
    if |ws| == 0 then [] else [Loaded(ws[0].onLoaded, content)] + LoadedCalls(ws[1..], content)
  }

  /** The error callback of every waiter that has one, in order. */
  function ErrorCalls<T>(ws: seq<Waiter>, text: string): (r: seq<Invocation<T>>)
    ensures |r| <= |ws|
    ensures forall i :: 0 <= i < |r| ==> r[i].Errored? && r[i].text == text
    ensures (forall i :: 0 <= i < |ws| ==> ws[i].onError.None?) ==> r == []
  {
    if |ws| == 0 then []
    else
      var rest := ErrorCalls<T>(ws[1..], text);
      match ws[0].onError
      case None => rest
      case Some(cb) => [Errored(cb, text)] + rest
  }

  /** Errors reach exactly the error callbacks, each once, in request order:
      the calls for a combined queue are the calls for each part in turn. */
  lemma {:induction false} ErrorCallsAppend<T>(a: seq<Waiter>, b: seq<Waiter>, text: string)
    ensures ErrorCalls<T>(a + b, text) == ErrorCalls<T>(a, text) + ErrorCalls<T>(b, text)
    decreases |a|
  {
    if |a| > 0 {
      assert (a + b)[1..] == a[1..] + b;
      ErrorCallsAppend<T>(a[1..], b, text);
    } else {
      assert a + b == b;
    }
  }

  /** Every waiter with an error callback gets an error call. */
  lemma {:induction false} ErrorCallsReachAll<T>(ws: seq<Waiter>, text: string, i: nat)
    requires i < |ws| && ws[i].onError.Some?
    ensures Errored(ws[i].onError.value, text) in ErrorCalls<T>(ws, text)
    decreases |ws|
  {
    if i > 0 {
      ErrorCallsReachAll<T>(ws[1..], text, i - 1);
    }
  }

  datatype Completed<T> = Completed(pending: Pending, calls: seq<Invocation<T>>)

  /** A completion from the browser for a URL on a live interop: the URL's
      queue is taken out of the table and every caller is notified, with the
      content or with the error text (the default one when none was given). */
  function Complete<T>(p: Pending, kind: Kind, url: string, outcome: Outcome<T>): (c: Completed<T>)
    ensures url !in c.pending
    ensures c.pending == p - {url}
    ensures url !in p ==> c.calls == []
    ensures url in p && outcome.Content? ==> c.calls == LoadedCalls(p[url], outcome.content)
    ensures url in p && outcome.Failure? ==>
              c.calls == ErrorCalls(p[url], outcome.errorText.GetOr(DefaultErrorPrefix(kind) + url))
  {
    if url !in p then Completed(p, [])
    else
      var ws := p[url];
      match outcome
      case Content(x) => Completed(p - {url}, LoadedCalls(ws, x))
      case Failure(e) => Completed(p - {url}, ErrorCalls(ws, e.GetOr(DefaultErrorPrefix(kind) + url)))
  }

  /** A second completion for the same URL finds nothing left to notify. */
  lemma CompleteTwice<T>(p: Pending, kind: Kind, url: string, o1: Outcome<T>, o2: Outcome<T>)
    ensures var c1 := Complete(p, kind, url, o1);
            var c2 := Complete(c1.pending, kind, url, o2);
            c2.pending == c1.pending && c2.calls == []
  {
  }

  /** Requests followed by a successful completion call every success
      callback once, in request order, and leave the URL no longer pending. */
  lemma RequestThenComplete<T>(p: Pending, kind: Kind, url: string, ws: seq<Waiter>, x: T)
    requires url !in p
    requires |ws| > 0
    ensures var c := Complete(RequestAll(p, url, ws).0, kind, url, Content(x));
            && url !in c.pending
            && |c.calls| == |ws|
            && forall i :: 0 <= i < |ws| ==> c.calls[i] == Loaded(ws[i].onLoaded, x)
  {
    RequestsCoalesce(p, url, ws);
  }
}

=== FILE: manual_input.dfy ===
/** `BlazorManualInputEventsSample`: routes the canvas's pointer events to
    the shared sample, turning the browser's repeated "button down" reports
    into one press and one release, and keeps a bounded message log in a
    text box.
 */
module ManualInput {
  import opened Wrappers

  /** The three canvas events the sample handles. */
  datatype Event = PointerMoved | PointerDown | PointerUp

  datatype Sample = Sample(
    isLeftPointerButtonPressed: bool,
    subscribedCanvasInterop: Option<nat>,
    handlers: multiset<(nat, Event)>)

  /** The handlers `SubscribeMouseEvents` attaches to one canvas. */
  function HandlersOf(canvas: nat): multiset<(nat, Event)> {
    multiset{(canvas, PointerMoved), (canvas, PointerDown), (canvas, PointerUp)}
  }

  /** `SubscribeMouseEvents`: nothing without a canvas interop; otherwise
      the three handlers are attached and the canvas remembered. */
  function Subscribe(s: Sample, canvasInterop: Option<nat>): (r: Sample)
    ensures canvasInterop.None? ==> r == s
    ensures canvasInterop.Some? ==>
              && r.handlers == s.handlers + HandlersOf(canvasInterop.value)
              && r.subscribedCanvasInterop == canvasInterop
              && r.isLeftPointerButtonPressed == s.isLeftPointerButtonPressed
  {
    if canvasInterop.None? then s
    else s.(handlers := s.handlers + HandlersOf(canvasInterop.value), subscribedCanvasInterop := canvasInterop)
  }

  /** `UnSubscribeMouseEvents`: the three handlers come off the remembered
      canvas, which is forgotten. */
  function Unsubscribe(s: Sample): (r: Sample)
    ensures r.subscribedCanvasInterop.None?
    ensures s.subscribedCanvasInterop.None? ==> r == s
    ensures s.subscribedCanvasInterop.Some? ==>
              r.handlers == s.handlers - HandlersOf(s.subscribedCanvasInterop.value)
  {
    if s.subscribedCanvasInterop.None? then s
    else s.(handlers := s.handlers - HandlersOf(s.subscribedCanvasInterop.value), subscribedCanvasInterop := None)
  }

  /** `OnDisposed` unsubscribes. */
  function OnDisposed(s: Sample): (r: Sample)
    ensures r.subscribedCanvasInterop.None?
    ensures r == Unsubscribe(s)
  {
    Unsubscribe(s)
  }

  /** Disposing a sample that subscribed once leaves the canvas's handlers
      as they were before. */
  lemma SubscribeThenDispose(s: Sample, canvas: nat)
    requires s.subscribedCanvasInterop.None?
    ensures OnDisposed(Subscribe(s, Some(canvas))).handlers == s.handlers
    ensures OnDisposed(Subscribe(s, Some(canvas))).isLeftPointerButtonPressed == s.isLeftPointerButtonPressed
  {
    var t := Subscribe(s, Some(canvas));
    assert t.handlers - HandlersOf(canvas) == s.handlers;
  }

  /** The edges passed on to the shared sample. */
  datatype Edge = Pressed | Released

  /** `OnPointerDown`: ignored while the left button counts as pressed;
      otherwise the left-button flag of the event is taken, and a press is
      reported when it is set. */
  function OnPointerDown(s: Sample, leftButton: bool): (r: (Sample, Option<Edge>))
    ensures s.isLeftPointerButtonPressed ==> r == (s, None)
    ensures !s.isLeftPointerButtonPressed ==>
              && r.0 == s.(isLeftPointerButtonPressed := leftButton)
              && (r.1 == Some(Pressed) <==> leftButton)
              && (r.1.None? <==> !leftButton)
  {
    if s.isLeftPointerButtonPressed then (s, None)
    else (s.(isLeftPointerButtonPressed := leftButton), if leftButton then Some(Pressed) else None)
  }

  /** `OnPointerUp`: ignored while the button counts as released; otherwise
      the flag of the event is taken, and a release is reported when it is
      clear. */
  function OnPointerUp(s: Sample, leftButton: bool): (r: (Sample, Option<Edge>))
    ensures !s.isLeftPointerButtonPressed ==> r == (s, None)
    ensures s.isLeftPointerButtonPressed ==>
              && r.0 == s.(isLeftPointerButtonPressed := leftButton)
              && (r.1 == Some(Released) <==> !leftButton)
              && (r.1.None? <==> leftButton)
  {
    if !s.isLeftPointerButtonPressed then (s, None)
    else (s.(isLeftPointerButtonPressed := leftButton), if !leftButton then Some(Released) else None)
  }

  /** A pointer button event as the canvas reports it: down or up, with
      whether the left button is among the pressed buttons. */
  datatype ButtonEvent = Down(left: bool) | Up(left: bool)

  function Step(s: Sample, e: ButtonEvent): (r: (Sample, Option<Edge>)) {
    match e
    case Down(left) => OnPointerDown(s, left)
    case Up(left) => OnPointerUp(s, left)
  }

  /** The edges a sequence of events produces, in order, and the final
      state. */
  function Run(s: Sample, events: seq<ButtonEvent>): (r: (Sample, seq<Edge>))
    decreases |events|
  {
    if |events| == 0 then (s, [])
    else
      var (s1, edge) := Step(s, events[0]);
      var (s2, rest) := Run(s1, events[1..]);
      (s2, (if edge.Some? then [edge.value] else []) + rest)
  }

  /** The edges alternate, the first being the opposite of the starting
      state. */
  predicate Alternates(edges: seq<Edge>, pressed: bool) {
    && (|edges| > 0 ==> (edges[0] == Pressed <==> !pressed))
    && (forall i :: 0 <= i < |edges| - 1 ==> edges[i] != edges[i + 1])
  }

  /** Whatever the canvas reports, the shared sample sees presses and
      releases strictly alternating, starting with the edge the initial
      state allows, and the final state is the last edge (or the initial
      state when none was passed on). */
  lemma {:induction false} EdgesAlternate(s: Sample, events: seq<ButtonEvent>)
    ensures Alternates(Run(s, events).1, s.isLeftPointerButtonPressed)
    ensures var r := Run(s, events);
            r.0.isLeftPointerButtonPressed ==
              (if |r.1| == 0 then s.isLeftPointerButtonPressed else r.1[|r.1| - 1] == Pressed)
    ensures Run(s, events).0.subscribedCanvasInterop == s.subscribedCanvasInterop
    decreases |events|
  {
    if |events| > 0 {
      var (s1, edge) := Step(s, events[0]);
      EdgesAlternate(s1, events[1..]);
      var rest := Run(s1, events[1..]).1;
      var edges := Run(s, events).1;
      if edge.Some? {
        assert s1.isLeftPointerButtonPressed == !s.isLeftPointerButtonPressed;
        assert edges == [edge.value] + rest;
        forall i | 0 <= i < |edges| - 1
          ensures edges[i] != edges[i + 1]
        {
          if i > 0 {
            assert edges[i] == rest[i - 1] && edges[i + 1] == rest[i];
          }
        }
      } else {
        assert s1.isLeftPointerButtonPressed == s.isLeftPointerButtonPressed;
        assert edges == rest;
      }
    }
  }

  /** The number of old characters kept below a new message. */
  const MaxOldMessagesLength: nat := 2000

  /** `ShowMessage`: with no info text box nothing happens; otherwise the
      message, a line break and the old text cut to its first 2000
      characters become the box's text. */
  function ShowMessage(infoText: Option<string>, message: string): (r: Option<string>)
    ensures infoText.None? <==> r.None?
    ensures infoText.Some? ==>
              var kept := |r.value| - |message| - 1;
              && message + "\n" <= r.value
              && kept == (if |infoText.value| > MaxOldMessagesLength then MaxOldMessagesLength else |infoText.value|)
              && r.value[|message| + 1..] <= infoText.value
  {
    if infoText.None? then None
    else
      var previous := infoText.value;
      var kept := if |previous| > MaxOldMessagesLength then previous[..MaxOldMessagesLength] else previous;
      var t := message + "\n" + kept;
      assert t[|message| + 1..] == kept;
      Some(t)
  }

  /** However many messages are shown, the text is never longer than the
      last message, the line break and the kept old text. */
  lemma {:induction false} ShowMessageBounded(infoText: string, messages: seq<string>)
    requires |messages| > 0
    ensures var r := ShowMessages(infoText, messages);
            |r| <= |messages[|messages| - 1]| + 1 + MaxOldMessagesLength
    decreases |messages|
  {
    var next := ShowMessage(Some(infoText), messages[0]).value;
    if |messages| > 1 {
      ShowMessageBounded(next, messages[1..]);
      assert messages[1..][|messages[1..]| - 1] == messages[|messages| - 1];
    } else {
      assert ShowMessages(next, messages[1..]) == next;
    }
  }

  /** The box's text after showing the messages in order. */
  function ShowMessages(infoText: string, messages: seq<string>): (r: string)
    decreases |messages|
  {
    if |messages| == 0 then infoText
    else ShowMessages(ShowMessage(Some(infoText), messages[0]).value, messages[1..])
  }
}

=== FILE: numbers.dfy ===
/** Decimal text for numbers: the formats the browser script writes and the
    parsers the managed code reads them back with.

    - `NatToString` is the decimal text of a non-negative integer (C#
      interpolation of an `int`, JavaScript template of an integer number).
    - `ParseInt32` / `TryParseInt32` are `int.Parse` / `int.TryParse` with
      the invariant culture: surrounding white space, an optional leading
      sign and decimal digits, with the 32-bit range check.
    - `Decimal` is a number written as `[-]digits[.digits]`: how JavaScript
      prints a device-pixel ratio such as `1.5`. `ParseDecimal` reads it
      back as `float.Parse` does, with surrounding white space, a leading
      `+` or `-`, and a missing whole or fraction part (`.5`, `5.`);
      exponents, group separators and the named infinities are not read.
 */
module Numbers {
  import opened Wrappers
  import Text

  const Int32Min: int := -0x8000_0000
  const Int32Max: int := 0x7FFF_FFFF

  predicate IsDigit(c: char) { '0' <= c <= '9' }

  predicate AllDigits(s: string) {
    forall i :: 0 <= i < |s| ==> IsDigit(s[i])
  }

  function DigitChar(d: nat): (c: char)
    requires d < 10
    ensures IsDigit(c)
  {
    (d + '0' as int) as char
  }

  function DigitValue(c: char): (d: nat)
    requires IsDigit(c)
    ensures d < 10 && DigitChar(d) == c
  {
    c as int - '0' as int
  }

  /** Decimal text of `n`, most significant digit first, no leading zero. */
  function NatToString(n: nat): (r: string)
    ensures |r| >= 1 && AllDigits(r)
    ensures r[0] == '0' ==> n == 0
  {
    if n < 10 then [DigitChar(n)] else NatToString(n / 10) + [DigitChar(n % 10)]
  }

  /** The number a non-empty string of digits denotes. */
  function DigitsValue(s: string): nat
    requires AllDigits(s)
  {
    if |s| == 0 then 0 else DigitsValue(s[..|s| - 1]) * 10 + DigitValue(s[|s| - 1])
  }

  lemma {:induction false} DigitsValueOfNatToString(n: nat)
    ensures DigitsValue(NatToString(n)) == n
  {
    if n >= 10 {
      var s := NatToString(n);
      assert s[..|s| - 1] == NatToString(n / 10);
      DigitsValueOfNatToString(n / 10);
    }
  }

  /** Distinct numbers have distinct texts. */
  lemma NatToStringInjective(a: nat, b: nat)
    ensures NatToString(a) == NatToString(b) ==> a == b
  {
    DigitsValueOfNatToString(a);
    DigitsValueOfNatToString(b);
  }

  /** Digits only, at least one. */
  function ParseNat(s: string): (r: Option<nat>)
    ensures r.Some? <==> |s| > 0 && AllDigits(s)
  {
    if |s| > 0 && AllDigits(s) then Some(DigitsValue(s)) else None
  }

  lemma ParseNatOfNatToString(n: nat)
    ensures ParseNat(NatToString(n)) == Some(n)
  {
    DigitsValueOfNatToString(n);
  }

  /** Signed decimal text of an integer. */
  function IntToString(n: int): string {
    if n < 0 then "-" + NatToString(-n) else NatToString(n)
  }

  /** The integer the text denotes, if it is `[+|-]digits`. */
  function ParseIntText(s: string): (r: Option<int>)
  {
    if |s| > 0 && (s[0] == '-' || s[0] == '+') then
      match ParseNat(s[1..])
      case None => None
      case Some(v) => Some(if s[0] == '-' then -(v as int) else v as int)
    else
      match ParseNat(s)
      case None => None
      case Some(v) => Some(v)
  }

  /** The white space .NET number parsing skips around a number. */
  predicate IsNumberWhite(c: char) {
    c == ' ' || '\t' <= c <= '\r'
  }

  function TrimStartWhite(s: string): (r: string)
    ensures |r| <= |s| && r == s[|s| - |r|..]
    ensures |r| > 0 ==> !IsNumberWhite(r[0])
  {
    if |s| > 0 && IsNumberWhite(s[0]) then TrimStartWhite(s[1..]) else s
  }

  function TrimEndWhite(s: string): (r: string)
    ensures |r| <= |s| && r == s[..|r|]
    ensures |r| > 0 ==> !IsNumberWhite(r[|r| - 1])
  {
    if |s| > 0 && IsNumberWhite(s[|s| - 1]) then TrimEndWhite(s[..|s| - 1]) else s
  }

  /** The text between the leading and the trailing white space. */
  function TrimWhite(s: string): string {
    TrimEndWhite(TrimStartWhite(s))
  }

  /** Text that neither starts nor ends with white space is its own trim. */
  lemma TrimWhiteKeeps(s: string)
    requires |s| > 0 && !IsNumberWhite(s[0]) && !IsNumberWhite(s[|s| - 1])
    ensures TrimWhite(s) == s
  {
  }

  lemma {:induction false} TrimStartWhitePadded(a: string, s: string)
    requires forall i :: 0 <= i < |a| ==> IsNumberWhite(a[i])
    requires |s| > 0 && !IsNumberWhite(s[0])
    ensures TrimStartWhite(a + s) == s
    decreases |a|
  {
    if |a| == 0 {
      assert a + s == s;
    } else {
      assert (a + s)[0] == a[0] && (a + s)[1..] == a[1..] + s;
      TrimStartWhitePadded(a[1..], s);
    }
  }

  lemma {:induction false} TrimEndWhitePadded(s: string, b: string)
    requires forall i :: 0 <= i < |b| ==> IsNumberWhite(b[i])
    requires |s| > 0 && !IsNumberWhite(s[|s| - 1])
    ensures TrimEndWhite(s + b) == s
    decreases |b|
  {
    if |b| == 0 {
      assert s + b == s;
    } else {
      var t := s + b;
      assert t[|t| - 1] == b[|b| - 1] && t[..|t| - 1] == s + b[..|b| - 1];
      TrimEndWhitePadded(s, b[..|b| - 1]);
    }
  }

  /** White space around a text is what `TrimWhite` removes. */
  lemma TrimWhiteOfPadded(a: string, s: string, b: string)
    requires forall i :: 0 <= i < |a| ==> IsNumberWhite(a[i])
    requires forall i :: 0 <= i < |b| ==> IsNumberWhite(b[i])
    requires |s| > 0 && !IsNumberWhite(s[0]) && !IsNumberWhite(s[|s| - 1])
    ensures TrimWhite(a + s + b) == s
  {
    assert a + s + b == a + (s + b);
    TrimStartWhitePadded(a, s + b);
    TrimEndWhitePadded(s, b);
  }

  /** `int.Parse`: FormatException for bad text, OverflowException outside
      the 32-bit range. */
  function ParseInt32(s: string): (r: Result<int>)
    ensures r.Ok? ==> Int32Min <= r.value <= Int32Max && ParseIntText(TrimWhite(s)) == Some(r.value)
    ensures r == Throw(Format) <==> ParseIntText(TrimWhite(s)).None?
  {
    match ParseIntText(TrimWhite(s))
    case None => Throw(Format)
    case Some(v) => if Int32Min <= v <= Int32Max then Ok(v) else Throw(Overflow)
  }

  /** `int.TryParse`: the value, or None where .NET returns false. */
  function TryParseInt32(s: string): Option<int> {
    match ParseInt32(s)
    case Ok(v) => Some(v)
    case Throw(_) => None
  }

  lemma {:induction false} ParseIntOfIntToString(n: int)
    ensures ParseIntText(IntToString(n)) == Some(n)
    ensures Int32Min <= n <= Int32Max ==> ParseInt32(IntToString(n)) == Ok(n)
  {
    var s := IntToString(n);
    if n < 0 {
      assert s[0] == '-' && s[1..] == NatToString(-n);
      ParseNatOfNatToString(-n);
    } else {
      assert IsDigit(s[0]);
      ParseNatOfNatToString(n);
    }
  }

  /** White space around the text of a 32-bit integer does not change what
      `int.Parse` reads. */
  lemma ParseInt32Padded(n: int, a: string, b: string)
    requires Int32Min <= n <= Int32Max
    requires forall i :: 0 <= i < |a| ==> IsNumberWhite(a[i])
    requires forall i :: 0 <= i < |b| ==> IsNumberWhite(b[i])
    ensures ParseInt32(a + IntToString(n) + b) == Ok(n)
  {
    var s := IntToString(n);
    var digits := NatToString(if n < 0 then -n else n);
    assert s[|s| - 1] == digits[|digits| - 1];
    assert s[0] == '-' || s[0] == digits[0];
    TrimWhiteOfPadded(a, s, b);
    ParseIntOfIntToString(n);
    TrimWhiteKeeps(s);
  }

  /** `[-]whole[.frac]`; `frac` is kept as text so leading zeros survive. */
  datatype Decimal = Decimal(negative: bool, whole: nat, frac: string)

  predicate WellFormed(d: Decimal) {
    AllDigits(d.frac)
  }

  function Pow10(k: nat): (r: nat)
    ensures r >= 1
  {
    if k == 0 then 1 else 10 * Pow10(k - 1)
  }

  /** The exact rational a decimal denotes (the conversion to the nearest
      `float` is not modelled). */
  function Value(d: Decimal): real
    requires WellFormed(d)
  {
    var magnitude := d.whole as real + DigitsValue(d.frac) as real / Pow10(|d.frac|) as real;
    if d.negative then -magnitude else magnitude
  }

  /** The text after the sign. */
  function UnsignedText(d: Decimal): string {
    NatToString(d.whole) + (if d.frac == "" then "" else "." + d.frac)
  }

  /** How JavaScript prints such a number in a template string. */
  function FormatDecimal(d: Decimal): string {
    (if d.negative then "-" else "") + UnsignedText(d)
  }

  /** Unsigned part of `ParseDecimal`: digits, a point and digits, where
      one of the two digit runs may be empty. */
  function ParseUnsignedDecimal(s: string, negative: bool): (r: Option<Decimal>)
    ensures r.Some? ==> WellFormed(r.value) && r.value.negative == negative
  {
    match Text.IndexOfChar(s, '.')
    case None =>
      (match ParseNat(s)
       case None => None
       case Some(w) => Some(Decimal(negative, w, "")))
    case Some(k) =>
      var wholeText := s[..k];
      var fracText := s[k + 1..];
      if !AllDigits(fracText) || (|wholeText| == 0 && |fracText| == 0) then None
      else if |wholeText| == 0 then Some(Decimal(negative, 0, fracText))
      else match ParseNat(wholeText)
        case None => None
        case Some(w) => Some(Decimal(negative, w, fracText))
  }

  /** The plain-decimal subset of `float.Parse` / `float.TryParse` with the
      invariant culture: white space, an optional sign, digits and a point.
      None stands for FormatException; it is also the answer for the
      exponent and named-infinity forms .NET would accept. */
  function ParseDecimal(s: string): (r: Option<Decimal>)
    ensures r.Some? ==> WellFormed(r.value)
  {
    var t := TrimWhite(s);
    if |t| > 0 && (t[0] == '-' || t[0] == '+') then ParseUnsignedDecimal(t[1..], t[0] == '-')
    else ParseUnsignedDecimal(t, false)
  }

  lemma AllDigitsHasNoDot(s: string)
    requires AllDigits(s)
    ensures '.' !in s
  {
    forall i | 0 <= i < |s|
      ensures s[i] != '.'
    {
      assert IsDigit(s[i]);
    }
  }

  lemma ParseUnsignedText(d: Decimal)
    requires WellFormed(d)
    ensures ParseUnsignedDecimal(UnsignedText(d), d.negative) == Some(d)
  {
    var w := NatToString(d.whole);
    var body := UnsignedText(d);
    ParseNatOfNatToString(d.whole);
    AllDigitsHasNoDot(w);
    if d.frac == "" {
      assert body == w;
      assert Text.IndexOfChar(body, '.').None?;
    } else {
      assert body == w + "." + d.frac;
      assert body[|w|] == '.';
      assert body[..|w|] == w;
      assert Text.IndexOfChar(body, '.') == Some(|w|);
      assert body[|w| + 1..] == d.frac;
    }
  }

  /** Formatted text starts with a sign or a digit and ends with a digit. */
  lemma FormatDecimalUntrimmed(d: Decimal)
    requires WellFormed(d)
    ensures TrimWhite(FormatDecimal(d)) == FormatDecimal(d)
  {
    var body := UnsignedText(d);
    var t := FormatDecimal(d);
    var w := NatToString(d.whole);
    assert IsDigit(body[|body| - 1]) by {
      if d.frac == "" {
        assert body[|body| - 1] == w[|w| - 1];
      } else {
        assert body[|body| - 1] == d.frac[|d.frac| - 1];
      }
    }
    assert t[|t| - 1] == body[|body| - 1];
    assert t[0] == '-' || t[0] == w[0];
    TrimWhiteKeeps(t);
  }

  /** Reading back a decimal the formatter wrote gives the same decimal. */
  lemma ParseFormatDecimal(d: Decimal)
    requires WellFormed(d)
    ensures ParseDecimal(FormatDecimal(d)) == Some(d)
  {
    var body := UnsignedText(d);
    var t := FormatDecimal(d);
    ParseUnsignedText(d);
    FormatDecimalUntrimmed(d);
    if d.negative {
      assert t[0] == '-' && t[1..] == body;
      assert ParseDecimal(t) == ParseUnsignedDecimal(body, true);
    } else {
      assert t == body;
      assert IsDigit(t[0]) by { assert t[0] == NatToString(d.whole)[0]; }
      assert ParseDecimal(t) == ParseUnsignedDecimal(body, false);
    }
  }

  /** `(int)x` for a float `x` within the 32-bit range: truncation toward
      zero (Dafny's `Floor` rounds toward negative infinity). */
  function TruncateToInt(x: real): (r: int)
    ensures x >= 0.0 ==> r as real <= x < r as real + 1.0
    ensures x < 0.0 ==> r as real - 1.0 < x <= r as real
  {
    if x >= 0.0 then x.Floor else -((-x).Floor)
  }
}

=== FILE: radio_buttons.dfy ===
/** `RadioButtonsUIElement`: a group of radio buttons with one selected
    index. Every group gets its name from a process-wide counter so that
    two groups on a page never share a name.
 */
module RadioButtons {
  import opened Wrappers
  import Numbers
  import ToolTip
  import UIElement

  const GroupNamePrefix: string := "RadioButtonsGroup_"

  function GroupName(n: nat): string {
    GroupNamePrefix + Numbers.NatToString(n)
  }

  datatype Radio = Radio(
    base: UIElement.Base,
    items: seq<string>,
    selected: int,
    keyText: Option<string>,
    groupName: string)

  /** Construction: the counter is incremented first and names the group;
      the key text goes through the tool-tip parser. The selected index is
      stored as given. */
  function Create(groupsCount: nat, items: seq<string>, selectedIndex: int, keyText: Option<string>)
    : (r: (Radio, nat))
    ensures r.1 == groupsCount + 1
    ensures r.0.groupName == GroupName(groupsCount + 1)
    ensures r.0.items == items && r.0.selected == selectedIndex
    ensures r.0.keyText == ToolTip.ParseTextAndToolTip(keyText).text
    ensures r.0.base.toolTip == ToolTip.ParseTextAndToolTip(keyText).toolTip
  {
    var n := groupsCount + 1;
    var parsed := ToolTip.ParseTextAndToolTip(keyText);
    var b := if parsed.toolTip.Some? then UIElement.SetToolTip(UIElement.NewBase, parsed.toolTip.value)
             else UIElement.NewBase;
    (Radio(b, items, selectedIndex, parsed.text, GroupName(n)), n)
  }

  /** The group names of `k` groups created one after another. */
  function CreateMany(groupsCount: nat, k: nat): (names: seq<string>)
    ensures |names| == k
    decreases k
  {
    if k == 0 then []
    else [GroupName(groupsCount + 1)] + CreateMany(groupsCount + 1, k - 1)
  }

  /** Groups created one after another never share a name. */
  lemma {:induction false} GroupNamesDistinct(groupsCount: nat, k: nat)
    ensures var names := CreateMany(groupsCount, k);
            forall i, j :: 0 <= i < j < k ==> names[i] != names[j]
    ensures forall i :: 0 <= i < k ==> CreateMany(groupsCount, k)[i] == GroupName(groupsCount + 1 + i)
    decreases k
  {
    if k > 0 {
      GroupNamesDistinct(groupsCount + 1, k - 1);
      var names := CreateMany(groupsCount, k);
      var rest := CreateMany(groupsCount + 1, k - 1);
      assert names == [GroupName(groupsCount + 1)] + rest;
      forall i | 0 <= i < k
        ensures names[i] == GroupName(groupsCount + 1 + i)
      {
        if i > 0 {
          assert names[i] == rest[i - 1];
        }
      }
      forall i, j | 0 <= i < j < k
        ensures names[i] != names[j]
      {
        var a, b := groupsCount + 1 + i, groupsCount + 1 + j;
        assert names[i] == GroupName(a) && names[j] == GroupName(b);
        Numbers.NatToStringInjective(a, b);
        assert GroupName(a)[|GroupNamePrefix|..] == Numbers.NatToString(a);
        assert GroupName(b)[|GroupNamePrefix|..] == Numbers.NatToString(b);
      }
    }
  }

  /** Index of the first item equal to the text (`Array.IndexOf`). */
  function IndexOfItem(items: seq<string>, s: string): (r: Option<nat>)
    ensures r.Some? ==> r.value < |items| && items[r.value] == s
    ensures r.Some? ==> forall i :: 0 <= i < r.value ==> items[i] != s
    ensures r.None? <==> forall i :: 0 <= i < |items| ==> items[i] != s
  {
    if |items| == 0 then None
    else if items[0] == s then Some(0)
    else match IndexOfItem(items[1..], s)
      case None => None
      case Some(k) => Some(k + 1)
  }

  /** `SetValue`: an index must be in range, a text must be one of the
      items, anything else is rejected; a failure changes nothing. */
  function SetValue(r: Radio, v: UIElement.Value): (res: Result<Radio>)
    ensures v.IntV? ==> (res.Ok? <==> 0 <= v.i < |r.items|)
    ensures v.IntV? && res.Ok? ==> res.value == r.(selected := v.i)
    ensures v.IntV? && res.Throw? ==> res.error == ArgumentOutOfRange
    ensures v.StringV? ==> (res.Ok? <==> v.s in r.items)
    ensures v.StringV? && res.Ok? ==>
              && res.value == r.(selected := res.value.selected)
              && 0 <= res.value.selected < |r.items|
              && r.items[res.value.selected] == v.s
              && v.s !in r.items[..res.value.selected]
    ensures v.StringV? && res.Throw? ==> res.error == Argument
    ensures !v.IntV? && !v.StringV? ==> res == Throw(Argument)
  {
    match v
    case IntV(i) =>
      if i < 0 || i > |r.items| - 1 then Throw(ArgumentOutOfRange) else Ok(r.(selected := i))
    case StringV(s) =>
      (match IndexOfItem(r.items, s)
       case None => Throw(Argument)
       case Some(k) => Ok(r.(selected := k)))
    case _ => Throw(Argument)
  }

  /** The user checks button `i`: the selection moves there and the
      callback receives the index and the item's text. */
  function Choose(r: Radio, i: nat): (res: (Radio, (nat, string)))
    requires i < |r.items|
    ensures res.0 == r.(selected := i)
    ensures res.1 == (i, r.items[i])
  {
    (r.(selected := i), (i, r.items[i]))
  }

  /** `GetText` and `SetText` work on the key text, unparsed. */
  function SetText(r: Radio, text: Option<string>): (res: Radio)
    ensures res.keyText == text
    ensures res == r.(keyText := text)
  {
    r.(keyText := text)
  }

  /** One rendered button: its parsed text, its tool tip, and whether it
      carries the `checked` attribute. */
  datatype Button = Button(text: Option<string>, toolTip: Option<string>, checked: bool, name: string)

  function Render(r: Radio): (bs: seq<Button>)
    ensures |bs| == |r.items|
    ensures forall i :: 0 <= i < |bs| ==> (bs[i].checked <==> i == r.selected)
    ensures forall i :: 0 <= i < |bs| ==> bs[i].name == r.groupName
    ensures forall i :: 0 <= i < |bs| ==>
              bs[i].text == ToolTip.ParseTextAndToolTip(Some(r.items[i])).text
  {
    seq(|r.items|, i requires 0 <= i < |r.items| =>
      var p := ToolTip.ParseTextAndToolTip(Some(r.items[i]));
      Button(p.text, p.toolTip, i == r.selected, r.groupName))
  }

  /** Which buttons are checked, in order. */
  function Checked(bs: seq<Button>): (marks: seq<bool>)
    ensures |marks| == |bs|
    ensures forall i :: 0 <= i < |bs| ==> (marks[i] <==> bs[i].checked)
  {
    seq(|bs|, i requires 0 <= i < |bs| => bs[i].checked)
  }

  /** Exactly one button is checked when the selection is in range, and
      none otherwise (a constructor index outside the items). */
  lemma RenderCheckedCount(r: Radio)
    ensures UIElement.CountTrue(Checked(Render(r))) == if 0 <= r.selected < |r.items| then 1 else 0
  {
    UIElement.CountTrueExactlyAtIndex(Checked(Render(r)), r.selected);
  }

  /** After a successful `SetValue` the rendered group shows exactly that
      item checked. */
  lemma SetValueChecksOne(r: Radio, v: UIElement.Value)
    requires SetValue(r, v).Ok?
    ensures UIElement.CountTrue(Checked(Render(SetValue(r, v).value))) == 1
  {
    RenderCheckedCount(SetValue(r, v).value);
  }
}

=== FILE: registry.dfy ===
/** The process-wide registry of connected `CanvasInterop` objects: the
    "initial" instance (fast path for the common single-canvas page) and the
    list of additional instances, which is `null` whenever it would be empty.

    An instance is a reference; `handle` stands for its identity and
    `canvasId` for its immutable `CanvasId` property.
 */
module Registry {
  import opened Wrappers

  datatype Entry = Entry(handle: nat, canvasId: string)

  datatype Registry = Registry(initial: Option<Entry>, additional: Option<seq<Entry>>)

  const Empty: Registry := Registry(None, None)

  function Additional(r: Registry): seq<Entry> {
    r.additional.GetOr([])
  }

  /** Every registered entry, in the order the frame tick visits them. */
  function Members(r: Registry): seq<Entry> {
    (if r.initial.Some? then [r.initial.value] else []) + Additional(r)
  }

  /** The shape the registry code keeps: no empty list object, and no
      additional instance without an initial one. */
  predicate Valid(r: Registry) {
    && r.additional != Some([])
    && (r.initial.None? ==> r.additional.None?)
  }

  /** The registration step of `InitWebGL`: the first instance becomes the
      initial one, later ones are appended to the additional list. */
  function Register(r: Registry, e: Entry): (r': Registry)
    ensures Valid(r) ==> Members(r') == Members(r) + [e]
    ensures r.initial.None? ==> r'.initial == Some(e)
    ensures r.initial.Some? ==> r'.initial == r.initial && Additional(r') == Additional(r) + [e]
    ensures Valid(r) ==> Valid(r')
  {
    if r.initial.None? then Registry(Some(e), r.additional)
    else Registry(r.initial, Some(Additional(r) + [e]))
  }

  /** The first entry with the given canvas id, scanning in list order. */
  function FirstWithId(list: seq<Entry>, id: string): (r: Option<Entry>)
    ensures r.Some? ==> r.value in list && r.value.canvasId == id
    ensures r.None? <==> forall i :: 0 <= i < |list| ==> list[i].canvasId != id
    ensures r.Some? ==> exists k :: 0 <= k < |list| && list[k] == r.value
                                    && forall i :: 0 <= i < k ==> list[i].canvasId != id
  {
    if |list| == 0 then None
    else if list[0].canvasId == id then Some(list[0])
    else
      var rest := FirstWithId(list[1..], id);
      if rest.Some? then
        var k :| 0 <= k < |list[1..]| && list[1..][k] == rest.value
                 && forall i :: 0 <= i < k ==> list[1..][i].canvasId != id;
        assert list[k + 1] == rest.value;
        rest
      else rest
  }

  /** `GetCanvasInterop(canvasId)`: a null id throws; otherwise the initial
      instance if its id matches ordinally, else the first matching
      additional instance, else null. */
  function Find(r: Registry, id: Option<string>): (res: Result<Option<Entry>>)
    ensures id.None? <==> res == Throw(LookupFailed)
    ensures res.Ok? && res.value.Some? ==> res.value.value in Members(r) && res.value.value.canvasId == id.value
    ensures id.Some? && r.initial.Some? && r.initial.value.canvasId == id.value ==>
              res == Ok(r.initial)
    ensures id.Some? && (r.initial.None? || r.initial.value.canvasId != id.value) ==>
              res == Ok(FirstWithId(Additional(r), id.value))
  {
    if id.None? then Throw(LookupFailed)
    else if r.initial.Some? && r.initial.value.canvasId == id.value then Ok(r.initial)
    else Ok(FirstWithId(Additional(r), id.value))
  }

  /** Lookup through the fast path agrees with a plain scan of all members
      in frame-tick order. */
  lemma FindIsFirstMember(r: Registry, id: string)
    ensures Find(r, Some(id)) == Ok(FirstWithId(Members(r), id))
  {
    if r.initial.Some? {
      assert Members(r)[0] == r.initial.value;
      assert Members(r)[1..] == Additional(r);
    } else {
      assert Members(r) == Additional(r);
    }
  }

  /** `List.Remove`: drops the first entry with the given reference, if any. */
  function RemoveFirst(list: seq<Entry>, handle: nat): (r: seq<Entry>)
    ensures (forall i :: 0 <= i < |list| ==> list[i].handle != handle) ==> r == list
    ensures (exists i :: 0 <= i < |list| && list[i].handle == handle) ==> |r| == |list| - 1
  {
    if |list| == 0 then []
    else if list[0].handle == handle then list[1..]
    else [list[0]] + RemoveFirst(list[1..], handle)
  }

  /** The registry part of `Dispose`. Removing the initial instance promotes
      the first additional one; otherwise the instance is removed from the
      additional list; a list left empty becomes null. */
  function Unregister(r: Registry, handle: nat): (r': Registry)
    ensures Valid(r) ==> Valid(r')
    ensures r.initial.Some? && r.initial.value.handle == handle && |Additional(r)| > 0 ==>
              r'.initial == Some(Additional(r)[0]) && Additional(r') == Additional(r)[1..]
    ensures r'.additional.Some? ==> |r'.additional.value| > 0
  {
    var r1 :=
      if r.initial.Some? && r.initial.value.handle == handle then
        if r.additional.Some? && |r.additional.value| > 0 then
          Registry(Some(r.additional.value[0]), Some(r.additional.value[1..]))
        else Registry(None, r.additional)
      else if r.additional.Some? then Registry(r.initial, Some(RemoveFirst(r.additional.value, handle)))
      else r;
    if r1.additional == Some([]) then Registry(r1.initial, None) else r1
  }

  /** Unregistering removes exactly the first registered occurrence of the
      instance from the members, keeping the order of the others. */
  lemma UnregisterMembers(r: Registry, handle: nat)
    requires Valid(r)
    ensures Members(Unregister(r, handle)) == RemoveFirst(Members(r), handle)
  {
    var m := Members(r);
    if r.initial.Some? {
      assert m[0] == r.initial.value && m[1..] == Additional(r);
      if r.initial.value.handle != handle {
        assert m == [m[0]] + Additional(r);
      }
    } else {
      assert m == Additional(r);
    }
  }

  /** A lookup by the id of the promoted instance is answered by the fast
      path right after the initial instance is disposed. */
  lemma PromotedIsFoundFirst(r: Registry, handle: nat)
    requires r.initial.Some? && r.initial.value.handle == handle
    requires |Additional(r)| > 0
    ensures var r' := Unregister(r, handle);
            Find(r', Some(Additional(r)[0].canvasId)) == Ok(Some(Additional(r)[0]))
  {
  }

  predicate DistinctIds(list: seq<Entry>) {
    forall i, j :: 0 <= i < j < |list| ==> list[i].canvasId != list[j].canvasId
  }

  /** With distinct canvas ids, every registered instance is found by its id. */
  lemma FindRegistered(r: Registry, e: Entry)
    requires DistinctIds(Members(r))
    requires e in Members(r)
    ensures Find(r, Some(e.canvasId)) == Ok(Some(e))
  {
    FindIsFirstMember(r, e.canvasId);
    var m := Members(r);
    var found := FirstWithId(m, e.canvasId);
    var k :| 0 <= k < |m| && m[k] == found.value && forall i :: 0 <= i < k ==> m[i].canvasId != e.canvasId;
    var j :| 0 <= j < |m| && m[j] == e;
    assert m[k].canvasId == m[j].canvasId;
    assert k == j;
  }
}

=== FILE: sharp_engine_script.dfy ===
/** The browser side of the bridge: the module-level state of the
    `sharp-engine.js` script and its exported and event-handler functions.

    Canvas elements are identified by their `id`; `document` is the set of
    canvas ids the page contains. Every function returns the next script
    state and the calls it makes, in order: into the managed `CanvasInterop`
    callbacks, to `requestAnimationFrame`, or to the console. What the
    browser measures (context support, rounded sizes, pinch distance and
    centre) arrives as parameters.
 */
module SharpEngineScript {
  import opened Wrappers
  import Numbers
  import Handshake

  datatype Size = Size(width: int, height: int)

  datatype Script = Script(
    interopSet: bool,                    // `interop` was assigned by initInteropAsync
    document: set<string>,
    initialCanvas: Option<string>,
    hasResizeObserver: bool,
    observed: set<string>,               // canvases the resize observer watches
    sizeMap: Option<map<string, Size>>,  // canvasToDisplaySizeMap, created with the observer
    listening: set<string>,              // canvases carrying the seven input listeners
    isUpdating: bool,                    // the animation-frame loop is running
    isPinchZooming: bool)

  /** The observer and the size map are created together. */
  predicate Valid(s: Script) {
    s.hasResizeObserver <==> s.sizeMap.Some?
  }

  datatype Out =
    | RequestFrame
    | FrameUpdateCall
    | PointerMovedCall(canvasId: string, x: real, y: real, buttons: int, modifiers: int)
    | PointerDownCall(canvasId: string, x: real, y: real, button: int, buttons: int, pointerId: int, modifiers: int)
    | PointerUpCall(canvasId: string, x: real, y: real, button: int, buttons: int, pointerId: int, modifiers: int)
    | TouchDownCall(canvasId: string, button: int, modifiers: int)
    | TouchUpCall(canvasId: string, button: int, modifiers: int)
    | WheelCall(canvasId: string, deltaX: real, deltaY: real, modifiers: int)
    | PinchStartedCall(canvasId: string, distance: real, centerX: real, centerY: real)
    | PinchEndedCall(canvasId: string)
    | PinchCall(canvasId: string, distance: real, centerX: real, centerY: real)
    | CanvasResizedCall(canvasId: string, width: int, height: int, devicePixelRatio: real)
    | CanvasNotFoundLogged(canvasId: string)

  // ---------------------------------------------------------------------
  // Keyboard modifiers
  // ---------------------------------------------------------------------

  /** `getKeyboardModifiers`: Shift = 4, Control = 2, Alt = 1. */
  function KeyboardModifiers(shift: bool, ctrl: bool, alt: bool): (m: int)
    ensures 0 <= m <= 7
  {
    (if shift then 4 else 0) + (if ctrl then 2 else 0) + (if alt then 1 else 0)
  }

  /** The flags a modifier value stands for. */
  function DecodeModifiers(m: int): (r: (bool, bool, bool))
    requires 0 <= m <= 7
  {
    (m / 4 == 1, (m / 2) % 2 == 1, m % 2 == 1)
  }

  /** Each flag combination has its own value, and every value in 0..7
      is the value of exactly the flags it decodes to. */
  lemma ModifiersBijective(shift: bool, ctrl: bool, alt: bool, m: int)
    ensures DecodeModifiers(KeyboardModifiers(shift, ctrl, alt)) == (shift, ctrl, alt)
    ensures 0 <= m <= 7 ==> var (a, b, c) := DecodeModifiers(m); KeyboardModifiers(a, b, c) == m
  {
  }

  // ---------------------------------------------------------------------
  // Canvas lookup, subscriptions and the frame loop
  // ---------------------------------------------------------------------

  /** `getCanvas`: the initial canvas when the id is empty or is its id,
      otherwise the document's element (logging an error when missing). */
  function GetCanvas(s: Script, canvasId: string): (r: (Option<string>, seq<Out>))
    ensures s.initialCanvas.Some? && (canvasId == "" || s.initialCanvas.value == canvasId) ==>
              r == (s.initialCanvas, [])
    ensures !(s.initialCanvas.Some? && (canvasId == "" || s.initialCanvas.value == canvasId)) ==>
              && (r.0.Some? <==> canvasId in s.document)
              && (r.0.Some? ==> r.0.value == canvasId && r.1 == [])
              && (r.0.None? ==> r.1 == [CanvasNotFoundLogged(canvasId)])
  {
    if s.initialCanvas.Some? && (canvasId == "" || s.initialCanvas.value == canvasId) then (s.initialCanvas, [])
    else if canvasId in s.document then (Some(canvasId), [])
    else (None, [CanvasNotFoundLogged(canvasId)])
  }

  /** `subscribeBrowserEventsInt`: add the input listeners to a found
      canvas, and start the frame loop unless it is already running. */
  function SubscribeInt(s: Script, canvas: Option<string>, mouse: bool, animationFrame: bool): (r: (Script, seq<Out>))
    ensures mouse && canvas.Some? ==> r.0.listening == s.listening + {canvas.value}
    ensures !(mouse && canvas.Some?) ==> r.0.listening == s.listening
    ensures r.0.isUpdating == (s.isUpdating || animationFrame)
    ensures r.1 == (if animationFrame && !s.isUpdating then [RequestFrame] else [])
    ensures r.0 == s.(listening := r.0.listening, isUpdating := r.0.isUpdating)
  {
    var listening := if mouse && canvas.Some? then s.listening + {canvas.value} else s.listening;
    if animationFrame && !s.isUpdating then (s.(listening := listening, isUpdating := true), [RequestFrame])
    else (s.(listening := listening), [])
  }

  /** `subscribeBrowserEvents`. */
  function Subscribe(s: Script, canvasId: string, mouse: bool, animationFrame: bool): (r: (Script, seq<Out>))
    ensures r.0.isUpdating == (s.isUpdating || animationFrame)
    ensures var (canvas, logs) := GetCanvas(s, canvasId);
            && (mouse && canvas.Some? ==> r.0.listening == s.listening + {canvas.value})
            && (!(mouse && canvas.Some?) ==> r.0.listening == s.listening)
            && r.1 == logs + (if animationFrame && !s.isUpdating then [RequestFrame] else [])
    ensures r.0 == s.(listening := r.0.listening, isUpdating := r.0.isUpdating)
  {
    var (canvas, logs) := GetCanvas(s, canvasId);
    var (s1, outs) := SubscribeInt(s, canvas, mouse, animationFrame);
    (s1, logs + outs)
  }

  /** Subscribing twice starts the frame loop at most once. */
  lemma FrameLoopStartedOnce(s: Script, c1: Option<string>, c2: Option<string>, m1: bool, m2: bool)
    requires !s.isUpdating
    ensures var (s1, o1) := SubscribeInt(s, c1, m1, true);
            var (s2, o2) := SubscribeInt(s1, c2, m2, true);
            o1 == [RequestFrame] && o2 == [] && s2.isUpdating
  {
  }

  /** `unsubscribeBrowserEvents`: nothing before the interop is set; then
      remove the listeners from a found canvas and, when asked, stop the
      frame loop. */
  function Unsubscribe(s: Script, canvasId: string, mouse: bool, animationFrame: bool): (r: (Script, seq<Out>))
    ensures !s.interopSet ==> r == (s, [])
    ensures s.interopSet ==>
              && (animationFrame ==> !r.0.isUpdating)
              && (!animationFrame ==> r.0.isUpdating == s.isUpdating)
              && r.0.listening <= s.listening
              && (mouse && GetCanvas(s, canvasId).0.Some? ==>
                    r.0.listening == s.listening - {GetCanvas(s, canvasId).0.value})
              && (!mouse ==> r.0.listening == s.listening && r.1 == [])
    ensures r.0 == s.(listening := r.0.listening, isUpdating := r.0.isUpdating)
  {
    if !s.interopSet then (s, [])
    else
      var (listening, logs) :=
        if mouse then
          var (canvas, logs) := GetCanvas(s, canvasId);
          (if canvas.Some? then s.listening - {canvas.value} else s.listening, logs)
        else (s.listening, []);
      (s.(listening := listening, isUpdating := if animationFrame then false else s.isUpdating), logs)
  }

  /** `onFrameUpdate`: while the loop runs, tick the managed side and ask
      for the next frame; otherwise the loop ends here. */
  function OnFrameUpdate(s: Script): (outs: seq<Out>)
    ensures outs == [] <==> !s.interopSet || !s.isUpdating
    ensures outs != [] ==> outs == [FrameUpdateCall, RequestFrame]
  {
    if !s.interopSet || !s.isUpdating then [] else [FrameUpdateCall, RequestFrame]
  }

  /** Unsubscribing with the frame flag stops the loop at its next frame. */
  lemma UnsubscribeStopsFrames(s: Script, canvasId: string, mouse: bool)
    requires s.interopSet
    ensures OnFrameUpdate(Unsubscribe(s, canvasId, mouse, true).0) == []
  {
  }

  // ---------------------------------------------------------------------
  // Connecting a canvas
  // ---------------------------------------------------------------------

  /** What WebGL the browser offers for the canvas. */
  datatype ContextSupport = WebGL2 | WebGL1Only | NoWebGL

  /** A device-pixel ratio of zero, as JavaScript's `||` tests it. */
  predicate IsZero(d: Numbers.Decimal) {
    d.whole == 0 && forall i :: 0 <= i < |d.frac| ==> d.frac[i] == '0'
  }

  const One: Numbers.Decimal := Numbers.Decimal(false, 1, "")

  /** `window.devicePixelRatio || 1.0`. */
  function EffectiveDpi(devicePixelRatio: Option<Numbers.Decimal>): (d: Numbers.Decimal)
    ensures devicePixelRatio.Some? && !IsZero(devicePixelRatio.value) ==> d == devicePixelRatio.value
    ensures devicePixelRatio.None? || IsZero(devicePixelRatio.value) ==> d == One
  {
    if devicePixelRatio.None? || IsZero(devicePixelRatio.value) then One else devicePixelRatio.value
  }

  /** `initWebGLCanvas`. `display` is the back-buffer size the script
      computes (the element's box times the ratio, rounded). On success the
      canvas becomes the initial one if there is none, is observed for
      resizes with its size recorded, gets its subscriptions, and the
      handshake text is returned; otherwise an error text is returned and
      nothing changes. */
  function InitWebGLCanvas(s: Script, canvasId: string, support: ContextSupport, display: Size,
                           devicePixelRatio: Option<Numbers.Decimal>, mouse: bool, animationFrame: bool)
    : (r: (Script, seq<Out>, string))
    ensures canvasId !in s.document ==> r == (s, [], Handshake.CanvasNotFoundText(canvasId))
    ensures canvasId in s.document && support.NoWebGL? ==> r == (s, [], Handshake.NoWebGLText)
    ensures canvasId in s.document && !support.NoWebGL? ==>
              && r.2 == Handshake.SuccessText(support.WebGL2?, display.width, display.height,
                                              EffectiveDpi(devicePixelRatio))
              && r.0.initialCanvas == (if s.initialCanvas.Some? then s.initialCanvas else Some(canvasId))
              && r.0.hasResizeObserver
              && r.0.observed == s.observed + {canvasId}
              && r.0.sizeMap.Some? && canvasId in r.0.sizeMap.value && r.0.sizeMap.value[canvasId] == display
              && r.0.isUpdating == (s.isUpdating || animationFrame)
              && (mouse ==> canvasId in r.0.listening)
    ensures Valid(s) ==> Valid(r.0)
  {
    if canvasId !in s.document then (s, [], Handshake.CanvasNotFoundText(canvasId))
    else if support.NoWebGL? then (s, [], Handshake.NoWebGLText)
    else
      var dpi := EffectiveDpi(devicePixelRatio);
      var sizes := s.sizeMap.GetOr(map[]);
      var s1 := s.(initialCanvas := if s.initialCanvas.Some? then s.initialCanvas else Some(canvasId),
                   hasResizeObserver := true,
                   observed := s.observed + {canvasId},
                   sizeMap := Some(sizes[canvasId := display]));
      var (s2, outs) := SubscribeInt(s1, Some(canvasId), mouse, animationFrame);
      (s2, outs, Handshake.SuccessText(support.WebGL2?, display.width, display.height, dpi))
  }

  /** The managed parser reads every text the script returns as the script
      meant it: a success with the same version and size, or a decline. */
  lemma HandshakeAgrees(s: Script, canvasId: string, support: ContextSupport, display: Size,
                        devicePixelRatio: Option<Numbers.Decimal>, mouse: bool, animationFrame: bool)
    requires Numbers.Int32Min <= display.width <= Numbers.Int32Max
    requires Numbers.Int32Min <= display.height <= Numbers.Int32Max
    requires devicePixelRatio.Some? ==> Numbers.WellFormed(devicePixelRatio.value)
    ensures var text := InitWebGLCanvas(s, canvasId, support, display, devicePixelRatio, mouse, animationFrame).2;
            var p := Handshake.Parse(Some(text));
            && (p.Accepted? <==> canvasId in s.document && !support.NoWebGL?)
            && (p.Accepted? ==> p.isWebGL2 == support.WebGL2? && p.width == display.width
                                && p.height == display.height
                                && p.dpi == EffectiveDpi(devicePixelRatio))
            && (!p.Accepted? ==> p.Declined?)
  {
    if canvasId !in s.document || support.NoWebGL? {
      Handshake.ErrorTextsAreDeclined(canvasId);
    } else {
      Handshake.ParseSuccessText(support.WebGL2?, display.width, display.height, EffectiveDpi(devicePixelRatio));
    }
  }

  // ---------------------------------------------------------------------
  // Resizes
  // ---------------------------------------------------------------------

  /** One resize-observer entry, already measured and rounded. */
  datatype ResizeEntry = ResizeEntry(canvasId: string, display: Size, devicePixelRatio: real)

  /** One entry of `onResize`: canvases without a recorded size are
      skipped; a changed size is recorded and reported. */
  function ResizeOne(s: Script, e: ResizeEntry): (r: (Script, seq<Out>))
    requires s.sizeMap.Some?
    ensures r.0.sizeMap.Some?
    ensures e.canvasId !in s.sizeMap.value ==> r == (s, [])
    ensures e.canvasId in s.sizeMap.value && s.sizeMap.value[e.canvasId] == e.display ==> r == (s, [])
    ensures e.canvasId in s.sizeMap.value && s.sizeMap.value[e.canvasId] != e.display ==>
              && r.0 == s.(sizeMap := Some(s.sizeMap.value[e.canvasId := e.display]))
              && r.1 == (if s.interopSet
                         then [CanvasResizedCall(e.canvasId, e.display.width, e.display.height, e.devicePixelRatio)]
                         else [])
  {
    var sizes := s.sizeMap.value;
    if e.canvasId !in sizes || sizes[e.canvasId] == e.display then (s, [])
    else
      (s.(sizeMap := Some(sizes[e.canvasId := e.display])),
       if s.interopSet then [CanvasResizedCall(e.canvasId, e.display.width, e.display.height, e.devicePixelRatio)]
       else [])
  }

  /** `onResize`: the entries in order. */
  function OnResize(s: Script, entries: seq<ResizeEntry>): (r: (Script, seq<Out>))
    requires s.sizeMap.Some?
    ensures r.0.sizeMap.Some?
    ensures r.0.sizeMap.value.Keys == s.sizeMap.value.Keys
    ensures r.0 == s.(sizeMap := r.0.sizeMap)
    decreases |entries|
  {
    if |entries| == 0 then (s, [])
    else
      var (s1, o1) := ResizeOne(s, entries[0]);
      var (s2, o2) := OnResize(s1, entries[1..]);
      (s2, o1 + o2)
  }

  /** Reporting the same size again is silent: a resize is reported once. */
  lemma ResizeReportedOnce(s: Script, e: ResizeEntry)
    requires s.sizeMap.Some?
    ensures var (s1, _) := ResizeOne(s, e);
            ResizeOne(s1, e) == (s1, [])
  {
  }

  // ---------------------------------------------------------------------
  // Pinch zoom and input handlers
  // ---------------------------------------------------------------------

  /** A touch event as the handlers see it: the number of touches still
      down, the pinch distance and centre (meaningful with two touches), and
      the position of the changed touch. */
  datatype TouchEvent = TouchEvent(canvasId: string, touches: nat, distance: real, centerX: real, centerY: real,
                                   x: real, y: real, buttons: int, shift: bool, ctrl: bool, alt: bool)

  /** `checkPinch`: two touches start (or continue) a pinch, anything else
      ends it; a started pinch reports its start, a continuing one reports
      an update only when asked to, and a zero distance reports nothing. */
  function CheckPinch(pinching: bool, e: TouchEvent, callPinchZoom: bool): (r: (bool, seq<Out>))
    ensures r.0 <==> e.touches == 2
    ensures |r.1| <= 1
    ensures pinching && e.touches != 2 ==> r.1 == [PinchEndedCall(e.canvasId)]
    ensures !pinching && e.touches != 2 ==> r.1 == []
    ensures !pinching && e.touches == 2 ==>
              r.1 == (if e.distance > 0.0 then [PinchStartedCall(e.canvasId, e.distance, e.centerX, e.centerY)] else [])
    ensures pinching && e.touches == 2 ==>
              r.1 == (if e.distance > 0.0 && callPinchZoom then [PinchCall(e.canvasId, e.distance, e.centerX, e.centerY)]
                      else [])
  {
    var started := e.touches == 2 && !pinching;
    var (now, ended) :=
      if e.touches == 2 then (true, [])
      else if pinching then (false, [PinchEndedCall(e.canvasId)])
      else (false, []);
    var calls :=
      if now && e.distance > 0.0 then
        if started then [PinchStartedCall(e.canvasId, e.distance, e.centerX, e.centerY)]
        else if callPinchZoom then [PinchCall(e.canvasId, e.distance, e.centerX, e.centerY)]
        else []
      else [];
    (now, ended + calls)
  }

  /** A pointer event as the handlers see it. */
  datatype PointerEvent = PointerEvent(canvasId: string, offsetX: real, offsetY: real, button: int, buttons: int,
                                       pointerId: int, shift: bool, ctrl: bool, alt: bool)

  datatype PointerKind = Move | Down | Up

  /** What a handler did: the next state, whether it cancelled the browser's
      default action, and the calls it made. */
  datatype Handled = Handled(script: Script, prevented: bool, outs: seq<Out>)

  /** `pointerMove` / `pointerDown` / `pointerUp`: ignored before the
      interop is set, swallowed while pinching, forwarded otherwise. */
  function OnPointer(s: Script, kind: PointerKind, e: PointerEvent): (h: Handled)
    ensures h.script == s
    ensures h.prevented <==> s.interopSet
    ensures |h.outs| <= 1
    ensures h.outs != [] <==> s.interopSet && !s.isPinchZooming
    ensures h.outs != [] ==>
              var o := h.outs[0];
              && (o.PointerMovedCall? || o.PointerDownCall? || o.PointerUpCall?)
              && (o.PointerMovedCall? <==> kind == Move)
              && (o.PointerDownCall? <==> kind == Down)
              && (o.PointerUpCall? <==> kind == Up)
              && o.canvasId == e.canvasId && o.x == e.offsetX && o.y == e.offsetY && o.buttons == e.buttons
              && 0 <= o.modifiers <= 7 && DecodeModifiers(o.modifiers) == (e.shift, e.ctrl, e.alt)
              && (kind != Move ==> o.button == e.button && o.pointerId == e.pointerId)
  {
    if !s.interopSet then Handled(s, false, [])
    else if s.isPinchZooming then Handled(s, true, [])
    else
      var m := KeyboardModifiers(e.shift, e.ctrl, e.alt);
      var call := match kind
        case Move => PointerMovedCall(e.canvasId, e.offsetX, e.offsetY, e.buttons, m)
        case Down => PointerDownCall(e.canvasId, e.offsetX, e.offsetY, e.button, e.buttons, e.pointerId, m)
        case Up => PointerUpCall(e.canvasId, e.offsetX, e.offsetY, e.button, e.buttons, e.pointerId, m);
      Handled(s, true, [call])
  }

  /** `mouseWheel`: forwarded whenever the interop is set, pinch or not. */
  function OnWheel(s: Script, canvasId: string, deltaX: real, deltaY: real, shift: bool, ctrl: bool, alt: bool)
    : (h: Handled)
    ensures h.script == s
    ensures h.prevented <==> s.interopSet
    ensures s.interopSet ==> h.outs == [WheelCall(canvasId, deltaX, deltaY, KeyboardModifiers(shift, ctrl, alt))]
    ensures !s.interopSet ==> h.outs == []
  {
    if !s.interopSet then Handled(s, false, [])
    else Handled(s, true, [WheelCall(canvasId, deltaX, deltaY, KeyboardModifiers(shift, ctrl, alt))])
  }

  /** `touchStart`: a single touch is a move then a press of button 0; then
      the pinch check, without updates. */
  function OnTouchStart(s: Script, e: TouchEvent): (h: Handled)
    ensures !s.interopSet ==> h == Handled(s, false, [])
    ensures s.interopSet ==>
              var (p, pinchOuts) := CheckPinch(s.isPinchZooming, e, false);
              var m := KeyboardModifiers(e.shift, e.ctrl, e.alt);
              && h.script == s.(isPinchZooming := p) && h.prevented
              && h.outs == (if e.touches == 1
                            then [PointerMovedCall(e.canvasId, e.x, e.y, e.buttons, m), TouchDownCall(e.canvasId, 0, m)]
                            else []) + pinchOuts
  {
    if !s.interopSet then Handled(s, false, [])
    else
      var m := KeyboardModifiers(e.shift, e.ctrl, e.alt);
      var press := if e.touches == 1
                   then [PointerMovedCall(e.canvasId, e.x, e.y, e.buttons, m), TouchDownCall(e.canvasId, 0, m)]
                   else [];
      var (p, pinchOuts) := CheckPinch(s.isPinchZooming, e, false);
      Handled(s.(isPinchZooming := p), true, press + pinchOuts)
  }

  /** `touchMove`: the pinch check with updates first, then a single touch
      is a move with the left button (1) held. */
  function OnTouchMove(s: Script, e: TouchEvent): (h: Handled)
    ensures !s.interopSet ==> h == Handled(s, false, [])
    ensures s.interopSet ==>
              var (p, pinchOuts) := CheckPinch(s.isPinchZooming, e, true);
              && h.script == s.(isPinchZooming := p) && h.prevented
              && h.outs == pinchOuts + (if e.touches == 1
                                        then [PointerMovedCall(e.canvasId, e.x, e.y, 1, KeyboardModifiers(e.shift, e.ctrl, e.alt))]
                                        else [])
  {
    if !s.interopSet then Handled(s, false, [])
    else
      var (p, pinchOuts) := CheckPinch(s.isPinchZooming, e, true);
      var move := if e.touches == 1
                  then [PointerMovedCall(e.canvasId, e.x, e.y, 1, KeyboardModifiers(e.shift, e.ctrl, e.alt))]
                  else [];
      Handled(s.(isPinchZooming := p), true, pinchOuts + move)
  }

  /** `touchEnd`: when the last touch lifts it is a move then a release of
      button 0; then the pinch check, without updates. */
  function OnTouchEnd(s: Script, e: TouchEvent): (h: Handled)
    ensures !s.interopSet ==> h == Handled(s, false, [])
    ensures s.interopSet ==>
              var (p, pinchOuts) := CheckPinch(s.isPinchZooming, e, false);
              var m := KeyboardModifiers(e.shift, e.ctrl, e.alt);
              && h.script == s.(isPinchZooming := p) && h.prevented
              && h.outs == (if e.touches == 0
                            then [PointerMovedCall(e.canvasId, e.x, e.y, e.buttons, m), TouchUpCall(e.canvasId, 0, m)]
                            else []) + pinchOuts
  {
    if !s.interopSet then Handled(s, false, [])
    else
      var m := KeyboardModifiers(e.shift, e.ctrl, e.alt);
      var release := if e.touches == 0
                     then [PointerMovedCall(e.canvasId, e.x, e.y, e.buttons, m), TouchUpCall(e.canvasId, 0, m)]
                     else [];
      var (p, pinchOuts) := CheckPinch(s.isPinchZooming, e, false);
      Handled(s.(isPinchZooming := p), true, release + pinchOuts)
  }

  /** A two-finger gesture: the second finger down reports the start, a
      move reports an update, lifting one finger reports the end; pointer
      events in between are swallowed. */
  lemma PinchGesture(s: Script, down: TouchEvent, move: TouchEvent, up: TouchEvent, p: PointerEvent, k: PointerKind)
    requires s.interopSet && !s.isPinchZooming
    requires down.touches == 2 && down.distance > 0.0
    requires move.touches == 2 && move.distance > 0.0
    requires up.touches == 1
    ensures var h1 := OnTouchStart(s, down);
            var h2 := OnTouchMove(h1.script, move);
            var h3 := OnTouchEnd(h2.script, up);
            && h1.outs == [PinchStartedCall(down.canvasId, down.distance, down.centerX, down.centerY)]
            && OnPointer(h1.script, k, p).outs == []
            && h2.outs == [PinchCall(move.canvasId, move.distance, move.centerX, move.centerY)]
            && h3.outs == [PinchEndedCall(up.canvasId)]
            && !h3.script.isPinchZooming
  {
  }

  // ---------------------------------------------------------------------
  // Disconnecting a canvas
  // ---------------------------------------------------------------------

  /** The part of `disconnectWebGLCanvas` before the observer is touched:
      unsubscribe input and the frame loop, look the canvas up, and forget
      it as the initial canvas. */
  function DisconnectPrefix(s: Script, canvasId: string): (r: (Script, Option<string>, seq<Out>))
  {
    var (s1, o1) := Unsubscribe(s, canvasId, true, true);
    var (canvas, o2) := GetCanvas(s1, canvasId);
    var s2 := if canvas.Some? && s1.initialCanvas == canvas then s1.(initialCanvas := None) else s1;
    (s2, canvas, o1 + o2)
  }

  /** `disconnectWebGLCanvas` as written: it unobserves the canvas only when
      there is NO resize observer, which throws a TypeError on the missing
      observer; when the observer exists the canvas stays observed. The
      size-map entry is removed. */
  function DisconnectAsWritten(s: Script, canvasId: string): (r: (Script, Option<Exn>))
    requires Valid(s)
    ensures Valid(r.0)
  {
    var (s2, canvas, _) := DisconnectPrefix(s, canvasId);
    if canvas.None? then (s2, None)
    else if !s2.hasResizeObserver then (s2, Some(ScriptTypeError))
    else (s2.(sizeMap := Some(s2.sizeMap.value - {canvas.value})), None)
  }

  /** A connected canvas is still watched by the observer after it has been
      disconnected, and any page that never connected a canvas makes the
      disconnect of an existing element throw. */
  lemma DisconnectAsWrittenKeepsObserving(s: Script, canvasId: string)
    requires Valid(s)
    requires s.hasResizeObserver && canvasId in s.document && canvasId in s.observed
    requires s.initialCanvas.None? || s.initialCanvas.value == canvasId
    ensures var (s', e) := DisconnectAsWritten(s, canvasId);
            e.None? && canvasId in s'.observed
  {
  }

  lemma DisconnectAsWrittenThrows(s: Script, canvasId: string)
    requires Valid(s) && !s.hasResizeObserver
    requires canvasId in s.document && s.initialCanvas.None?
    ensures DisconnectAsWritten(s, canvasId).1 == Some(ScriptTypeError)
  {
  }

  /** `disconnectWebGLCanvas` with the guard the code evidently intends:
      unobserve when the observer exists. The size map is created with the
      observer, so without one the `delete` still throws. */
  function Disconnect(s: Script, canvasId: string): (r: (Script, Option<Exn>))
    requires Valid(s)
    ensures Valid(r.0)
    ensures s.hasResizeObserver ==> r.1.None?
  {
    var (s2, canvas, _) := DisconnectPrefix(s, canvasId);
    if canvas.None? then (s2, None)
    else if !s2.hasResizeObserver then (s2, Some(ScriptTypeError))
    else (s2.(observed := s2.observed - {canvas.value}, sizeMap := Some(s2.sizeMap.value - {canvas.value})), None)
  }

  /** Connecting and then disconnecting a canvas leaves it unobserved, out
      of the size map, without listeners once the interop is set, and with
      the frame loop stopped. */
  lemma ConnectThenDisconnect(s: Script, canvasId: string, support: ContextSupport, display: Size,
                              dpr: Option<Numbers.Decimal>, mouse: bool, animationFrame: bool)
    requires Valid(s) && s.interopSet
    requires canvasId in s.document && !support.NoWebGL?
    requires s.initialCanvas.None? || s.initialCanvas.value == canvasId
    ensures var s1 := InitWebGLCanvas(s, canvasId, support, display, dpr, mouse, animationFrame).0;
            var (s2, e) := Disconnect(s1, canvasId);
            && e.None?
            && canvasId !in s2.observed
            && canvasId !in s2.sizeMap.value
            && canvasId !in s2.listening
            && !s2.isUpdating
            && s2.initialCanvas.None?
  {
  }

  /** The frame loop is shared by every canvas, and disconnecting any one
      of them stops it: a canvas that stays connected gets no more frames,
      with the observer guard as written or as intended. */
  lemma DisconnectStopsEveryFrame(s: Script, canvasId: string, other: string)
    requires Valid(s) && s.interopSet && s.isUpdating
    requires canvasId != "" && other != canvasId && other in s.observed
    ensures var (d, _) := DisconnectAsWritten(s, canvasId);
            other in d.observed && OnFrameUpdate(d) == []
    ensures var (d, _) := Disconnect(s, canvasId);
            other in d.observed && OnFrameUpdate(d) == []
  {
  }

  /** `disconnectWebGLCanvas` as `Disconnect`, except that the frame loop
      keeps running while another canvas is still connected (observed). */
  function DisconnectSharedLoop(s: Script, canvasId: string): (r: (Script, Option<Exn>))
    requires Valid(s)
    ensures Valid(r.0)
    ensures r.1 == Disconnect(s, canvasId).1
    ensures r.0 == Disconnect(s, canvasId).0.(isUpdating := r.0.isUpdating)
    ensures s.interopSet && Disconnect(s, canvasId).0.observed != {} ==> r.0.isUpdating == s.isUpdating
    ensures Disconnect(s, canvasId).0.observed == {} ==> r.0.isUpdating == Disconnect(s, canvasId).0.isUpdating
  {
    var (d, e) := Disconnect(s, canvasId);
    if s.interopSet && d.observed != {} then (d.(isUpdating := s.isUpdating), e) else (d, e)
  }

  /** With the shared loop kept, a canvas that stays connected still gets
      its frames. */
  lemma DisconnectSharedLoopKeepsOthers(s: Script, canvasId: string, other: string)
    requires Valid(s) && s.interopSet && s.isUpdating
    requires canvasId != "" && other != canvasId && other in s.observed
    ensures var (d, _) := DisconnectSharedLoop(s, canvasId);
            other in d.observed && OnFrameUpdate(d) == [FrameUpdateCall, RequestFrame]
  {
    var (d0, _) := Disconnect(s, canvasId);
    assert other in d0.observed;
  }

  /** Disconnecting the last connected canvas still stops the loop. */
  lemma DisconnectSharedLoopStopsLast(s: Script, canvasId: string)
    requires Valid(s) && s.interopSet && s.hasResizeObserver
    requires canvasId in s.document && s.observed <= {canvasId}
    requires s.initialCanvas.None? || s.initialCanvas.value == canvasId
    ensures var (d, e) := DisconnectSharedLoop(s, canvasId);
            e.None? && d.observed == {} && OnFrameUpdate(d) == []
  {
  }
}

=== FILE: slider.dfy ===
/** `SliderUIElement`: a range input over single-precision values, with an
    optional key text and an optional formatted read-out of the value.

    A `float` is represented by the decimal its invariant-culture text
    denotes (`Numbers.Decimal`), so that formatting and parsing are exact
    inverses; rounding to the nearest `float` is not modelled. The value
    getter and the read-out formatter are caller code: the getter's result
    is a parameter, the formatter a function parameter.
 */
module Slider {
  import opened Wrappers
  import Numbers
  import Text
  import ToolTip
  import UIElement

  type Float = Numbers.Decimal

  datatype Slider = Slider(
    base: UIElement.Base,
    minValue: Float,
    maxValue: Float,
    currentValue: Float,
    keyText: Option<string>,
    hasFormatter: bool,
    shownValueWidth: real)

  const IsUpdateSupported: bool := true

  /** Pixels per character and padding of the read-out width estimate. */
  const CharWidth: nat := 8
  const ReadOutPadding: nat := 10

  function Max(a: nat, b: nat): nat {
    if a >= b then a else b
  }

  /** Construction: with a formatter and no read-out width, the width is
      estimated from the longer of the formatted minimum and maximum; the
      value is then read once from the getter. */
  function Create(minValue: Float, maxValue: Float, value: Float, keyText: Option<string>,
                  format: Option<Float -> string>, shownValueWidth: real): (s: Slider)
    ensures s.minValue == minValue && s.maxValue == maxValue && s.currentValue == value
    ensures s.keyText == ToolTip.ParseTextAndToolTip(keyText).text
    ensures s.base.toolTip == ToolTip.ParseTextAndToolTip(keyText).toolTip
    ensures s.hasFormatter == format.Some?
    ensures format.Some? && shownValueWidth == 0.0 ==>
              var longest := Max(|format.value(minValue)|, |format.value(maxValue)|);
              && s.shownValueWidth == (longest * CharWidth + ReadOutPadding) as real
              && s.shownValueWidth >= (|format.value(minValue)| * CharWidth + ReadOutPadding) as real
              && s.shownValueWidth >= (|format.value(maxValue)| * CharWidth + ReadOutPadding) as real
    ensures format.None? || shownValueWidth != 0.0 ==> s.shownValueWidth == shownValueWidth
  {
    var parsed := ToolTip.ParseTextAndToolTip(keyText);
    var b := if parsed.toolTip.Some? then UIElement.SetToolTip(UIElement.NewBase, parsed.toolTip.value)
             else UIElement.NewBase;
    var width :=
      if format.Some? && shownValueWidth == 0.0 then
        (Max(|format.value(minValue)|, |format.value(maxValue)|) * CharWidth + ReadOutPadding) as real
      else shownValueWidth;
    UpdateValue(Slider(b, minValue, maxValue, minValue, parsed.text, format.Some?, width), value)
  }

  /** `UpdateValue`: the value becomes the getter's result. */
  function UpdateValue(s: Slider, value: Float): (r: Slider)
    ensures r.currentValue == value
    ensures r.(currentValue := s.currentValue) == s
  {
    s.(currentValue := value)
  }

  /** The float an `int` converts to. */
  function FromInt(i: int): (d: Float)
    ensures Numbers.WellFormed(d) && Numbers.Value(d) == i as real
  {
    if i < 0 then Numbers.Decimal(true, -i, "") else Numbers.Decimal(false, i, "")
  }

  /** `SetValue`: an int, float or double becomes the current value;
      anything else is rejected and changes nothing. */
  function SetValue(s: Slider, v: UIElement.Value): (r: Result<Slider>)
    ensures r.Ok? <==> v.IntV? || v.FloatV? || v.DoubleV?
    ensures r.Throw? ==> r.error == Argument
    ensures r.Ok? ==> r.value.(currentValue := s.currentValue) == s
    ensures v.IntV? ==> Numbers.WellFormed(r.value.currentValue) && Numbers.Value(r.value.currentValue) == v.i as real
    ensures v.FloatV? ==> r.value.currentValue == v.f
    ensures v.DoubleV? ==> r.value.currentValue == v.d
  {
    match v
    case IntV(i) => Ok(s.(currentValue := FromInt(i)))
    case FloatV(f) => Ok(s.(currentValue := f))
    case DoubleV(d) => Ok(s.(currentValue := d))
    case _ => Throw(Argument)
  }

  const MaximumName: string := "Maximum"
  const MinimumName: string := "Minimum"

  /** `SetProperty`: "Maximum" and "Minimum", in any letter case, parse the
      value into that bound (a malformed value throws); other names do
      nothing. */
  function SetProperty(s: Slider, name: string, value: string): (r: Result<Slider>)
    ensures !Text.EqualsIgnoreCase(name, MaximumName) && !Text.EqualsIgnoreCase(name, MinimumName) ==> r == Ok(s)
    ensures r.Throw? ==> r.error == Format && Numbers.ParseDecimal(value).None?
    ensures ((Text.EqualsIgnoreCase(name, MaximumName) || Text.EqualsIgnoreCase(name, MinimumName))
             && Numbers.ParseDecimal(value).None?) ==> r == Throw(Format)
    ensures Text.EqualsIgnoreCase(name, MaximumName) && Numbers.ParseDecimal(value).Some? ==>
              r == Ok(s.(maxValue := Numbers.ParseDecimal(value).value))
    ensures !Text.EqualsIgnoreCase(name, MaximumName) && Text.EqualsIgnoreCase(name, MinimumName)
            && Numbers.ParseDecimal(value).Some? ==>
              r == Ok(s.(minValue := Numbers.ParseDecimal(value).value))
  {
    if Text.EqualsIgnoreCase(name, MaximumName) then
      match Numbers.ParseDecimal(value)
      case None => Throw(Format)
      case Some(d) => Ok(s.(maxValue := d))
    else if Text.EqualsIgnoreCase(name, MinimumName) then
      match Numbers.ParseDecimal(value)
      case None => Throw(Format)
      case Some(d) => Ok(s.(minValue := d))
    else Ok(s)
  }

  /** `GetPropertyValue`: the bound's invariant text for the two names, null
      for any other. */
  function GetPropertyValue(s: Slider, name: string): (r: Option<string>)
    ensures r.Some? <==> Text.EqualsIgnoreCase(name, MaximumName) || Text.EqualsIgnoreCase(name, MinimumName)
    ensures Text.EqualsIgnoreCase(name, MaximumName) ==> r == Some(Numbers.FormatDecimal(s.maxValue))
    ensures !Text.EqualsIgnoreCase(name, MaximumName) && Text.EqualsIgnoreCase(name, MinimumName) ==>
              r == Some(Numbers.FormatDecimal(s.minValue))
  {
    if Text.EqualsIgnoreCase(name, MaximumName) then Some(Numbers.FormatDecimal(s.maxValue))
    else if Text.EqualsIgnoreCase(name, MinimumName) then Some(Numbers.FormatDecimal(s.minValue))
    else None
  }

  /** The two names cannot both match. */
  lemma NamesDiffer(name: string)
    ensures !(Text.EqualsIgnoreCase(name, MaximumName) && Text.EqualsIgnoreCase(name, MinimumName))
  {
    assert Text.ToUpperAscii(MaximumName)[1] == 'A' && Text.ToUpperAscii(MinimumName)[1] == 'I';
  }

  /** A bound written through `SetProperty` is read back unchanged through
      `GetPropertyValue`, whatever the letter case of either name. */
  lemma SetThenGetProperty(s: Slider, setName: string, getName: string, d: Float)
    requires Numbers.WellFormed(d)
    requires Text.EqualsIgnoreCase(setName, getName)
    requires Text.EqualsIgnoreCase(setName, MaximumName) || Text.EqualsIgnoreCase(setName, MinimumName)
    ensures SetProperty(s, setName, Numbers.FormatDecimal(d)).Ok?
    ensures GetPropertyValue(SetProperty(s, setName, Numbers.FormatDecimal(d)).value, getName)
            == Some(Numbers.FormatDecimal(d))
  {
    Numbers.ParseFormatDecimal(d);
    NamesDiffer(setName);
  }

  /** The browser's `oninput`: a parsable value becomes current and goes to
      the set callback (second component) with a re-render; anything else
      changes nothing. */
  function OnInput(s: Slider, value: Option<string>): (r: (Slider, Option<Float>))
    ensures value.None? || Numbers.ParseDecimal(value.value).None? ==> r == (s, None)
    ensures value.Some? && Numbers.ParseDecimal(value.value).Some? ==>
              && r.1 == Numbers.ParseDecimal(value.value)
              && r.0 == s.(currentValue := r.1.value)
  {
    if value.None? then (s, None)
    else
      match Numbers.ParseDecimal(value.value)
      case None => (s, None)
      case Some(d) => (s.(currentValue := d), Some(d))
  }

  /** Moving the slider to the value the input element shows hands exactly
      that value to the callback. */
  lemma InputRoundTrip(s: Slider, d: Float)
    requires Numbers.WellFormed(d)
    ensures OnInput(s, Some(Numbers.FormatDecimal(d))) == (s.(currentValue := d), Some(d))
  {
    Numbers.ParseFormatDecimal(d);
  }
}

=== FILE: stack_panel.dfy ===
/** `StackPanelUIElement`: a flex container, placed absolutely at a screen
    edge or corner unless it is nested in another panel. Its child list is
    the one of `UIPanel`; the element type stays a parameter.
 */
module StackPanel {
  import opened Wrappers
  import UIElement
  import UIPanel

  /** The flags of the engine's `PositionTypes` that the panel tests; the
      engine's `Center` is the empty set. */
  datatype Position = Left | Right | Top | Bottom

  datatype Config = Config(
    alignment: set<Position>,
    isVertical: bool,
    addBorder: bool,
    isSemiTransparent: bool,
    isChildPanel: bool)

  datatype StackPanel<T> = StackPanel(base: UIElement.Base, config: Config, panel: UIPanel.Panel<T>)

  /** Every stack panel starts with a 5 pixel margin on each side. */
  const PanelMargin: real := 5.0

  function Create<T>(config: Config): (p: StackPanel<T>)
    ensures p.base.margin == UIElement.Margin(PanelMargin, PanelMargin, PanelMargin, PanelMargin)
    ensures p.base.isVisible && p.base.toolTip.None?
    ensures p.config == config && UIPanel.ChildrenCount(p.panel) == 0
  {
    StackPanel(UIElement.SetMargin(UIElement.NewBase, PanelMargin, PanelMargin, PanelMargin, PanelMargin),
               config, UIPanel.Empty())
  }

  predicate IsVertical<T>(p: StackPanel<T>) {
    p.config.isVertical
  }

  /** Where the panel sits along one axis. */
  datatype Placement = AtStart | AtEnd | Centered

  /** Horizontal placement: left wins over right; neither centres. */
  function Horizontal(alignment: set<Position>): (r: Placement)
    ensures r == AtStart <==> Left in alignment
    ensures r == AtEnd <==> Left !in alignment && Right in alignment
    ensures r == Centered <==> Left !in alignment && Right !in alignment
  {
    if Left in alignment then AtStart else if Right in alignment then AtEnd else Centered
  }

  /** Vertical placement: top wins over bottom; neither centres. */
  function Vertical(alignment: set<Position>): (r: Placement)
    ensures r == AtStart <==> Top in alignment
    ensures r == AtEnd <==> Top !in alignment && Bottom in alignment
    ensures r == Centered <==> Top !in alignment && Bottom !in alignment
  {
    if Top in alignment then AtStart else if Bottom in alignment then AtEnd else Centered
  }

  const AbsolutePiece: UIElement.Piece := UIElement.Lit("position: absolute; padding: 5px 10px; ")
  const BorderPiece: UIElement.Piece := UIElement.Lit("border: 2px solid black; ")
  const SemiTransparentPiece: UIElement.Piece := UIElement.Lit("background-color: rgba(255, 255, 255, 0.86); ")
  const WhitePiece: UIElement.Piece := UIElement.Lit("background-color: white; ")
  const LeftPiece: UIElement.Piece := UIElement.Lit("left: 0; ")
  const RightPiece: UIElement.Piece := UIElement.Lit("right: 0; ")
  const HCenterPiece: UIElement.Piece := UIElement.Lit("left: 0; right: 0; width: fit-content; margin-inline: auto; ")
  const TopPiece: UIElement.Piece := UIElement.Lit("top: 0; ")
  const BottomPiece: UIElement.Piece := UIElement.Lit("bottom: 0; ")
  const VCenterPiece: UIElement.Piece := UIElement.Lit("top: 50%; bottom: 50%; height: fit-content; margin-inline: auto; ")

  function HorizontalPiece(p: Placement): UIElement.Piece {
    match p
    case AtStart => LeftPiece
    case AtEnd => RightPiece
    case Centered => HCenterPiece
  }

  function VerticalPiece(p: Placement): UIElement.Piece {
    match p
    case AtStart => TopPiece
    case AtEnd => BottomPiece
    case Centered => VCenterPiece
  }

  /** The frame part of the outer style: a border and a background, white or
      semi-transparent, when a border is asked for. */
  function Frame(c: Config): (s: UIElement.Style)
    ensures BorderPiece in s <==> c.addBorder
    ensures SemiTransparentPiece in s <==> c.addBorder && c.isSemiTransparent
    ensures WhitePiece in s <==> c.addBorder && !c.isSemiTransparent
    ensures forall i :: 0 <= i < |s| ==> s[i] in {BorderPiece, SemiTransparentPiece, WhitePiece}
  {
    if c.addBorder then [BorderPiece, if c.isSemiTransparent then SemiTransparentPiece else WhitePiece]
    else []
  }

  predicate IsEdgePiece(q: UIElement.Piece) {
    q == LeftPiece || q == RightPiece || q == TopPiece || q == BottomPiece
  }

  /** Everything of the outer style before the placement: absolute
      placement for a top-level panel, margin and visibility, the frame. */
  function Prefix<T>(p: StackPanel<T>): (s: UIElement.Style)
    ensures (if p.config.isChildPanel then [] else [AbsolutePiece]) + UIElement.BaseStyle(p.base) <= s
    ensures AbsolutePiece in s <==> !p.config.isChildPanel
    ensures BorderPiece in s <==> p.config.addBorder
    ensures SemiTransparentPiece in s <==> p.config.addBorder && p.config.isSemiTransparent
    ensures WhitePiece in s <==> p.config.addBorder && !p.config.isSemiTransparent
    ensures forall i :: 0 <= i < |s| ==> !IsEdgePiece(s[i])
  {
    var c := p.config;
    var base := UIElement.BaseStyle(p.base);
    var head := (if c.isChildPanel then [] else [AbsolutePiece]) + base;
    var frame := Frame(c);
    assert !UIElement.BasePiece(BorderPiece) && !UIElement.BasePiece(SemiTransparentPiece);
    assert !UIElement.BasePiece(WhitePiece) && !UIElement.BasePiece(AbsolutePiece);
    assert !UIElement.BasePiece(LeftPiece) && !UIElement.BasePiece(RightPiece);
    assert !UIElement.BasePiece(TopPiece) && !UIElement.BasePiece(BottomPiece);
    head + frame
  }

  /** The style of the outer element: the prefix, then the horizontal and
      the vertical placement. */
  function OuterStyle<T>(p: StackPanel<T>): (s: UIElement.Style)
    ensures Prefix(p) <= s && |s| == |Prefix(p)| + 2
    ensures s[|s| - 2] == HorizontalPiece(Horizontal(p.config.alignment))
    ensures s[|s| - 1] == VerticalPiece(Vertical(p.config.alignment))
  {
    Prefix(p) + [HorizontalPiece(Horizontal(p.config.alignment)), VerticalPiece(Vertical(p.config.alignment))]
  }

  /** An edge piece occurs in the outer style only as one of the two
      placement pieces. */
  lemma EdgePieceAtEnd<T>(p: StackPanel<T>, q: UIElement.Piece)
    requires IsEdgePiece(q)
    ensures q in OuterStyle(p) <==>
              q == HorizontalPiece(Horizontal(p.config.alignment)) || q == VerticalPiece(Vertical(p.config.alignment))
  {
    var pre := Prefix(p);
    var s := OuterStyle(p);
    assert s == pre + [s[|s| - 2], s[|s| - 1]];
    assert q !in pre;
  }

  /** The placement the flags ask for: the left edge piece appears iff the
      left flag is set, the right one iff the right flag is set and the left
      is not, and likewise for top and bottom. */
  lemma {:induction false} OuterStylePlacement<T>(p: StackPanel<T>)
    ensures LeftPiece in OuterStyle(p) <==> Left in p.config.alignment
    ensures RightPiece in OuterStyle(p) <==> Left !in p.config.alignment && Right in p.config.alignment
    ensures TopPiece in OuterStyle(p) <==> Top in p.config.alignment
    ensures BottomPiece in OuterStyle(p) <==> Top !in p.config.alignment && Bottom in p.config.alignment
  {
    EdgePieceAtEnd(p, LeftPiece);
    EdgePieceAtEnd(p, RightPiece);
    EdgePieceAtEnd(p, TopPiece);
    EdgePieceAtEnd(p, BottomPiece);
  }

  /** The inner flex container: a column for a vertical panel, a row
      otherwise. */
  function ContentStyle<T>(p: StackPanel<T>): (s: string)
    ensures s == "display: flex; flex-direction: column;" <==> IsVertical(p)
    ensures s == "display: flex; flex-direction: row;" <==> !IsVertical(p)
  {
    "display: flex; flex-direction: " + (if p.config.isVertical then "column" else "row") + ";"
  }

  /** The rendered children, in the order of the child list. */
  function RenderedChildren<T>(p: StackPanel<T>): (r: seq<T>)
    ensures |r| == UIPanel.ChildrenCount(p.panel)
    ensures forall i :: 0 <= i < |r| ==> UIPanel.GetChild(p.panel, i) == Ok(r[i])
  {
    p.panel.children
  }
}

=== FILE: text.dfy ===
/** String helpers with the .NET semantics the modelled code relies on:
    ordinal `IndexOf`, `Contains`, `Split(char)`, `Replace(char, char)`,
    and ordinal case-insensitive comparison (ASCII letters only).
 */
module Text {
  import opened Wrappers

  /** `p` occurs in `s` starting at index `i`. */
  predicate OccursAt(s: string, p: string, i: nat) {
    i + |p| <= |s| && s[i..i + |p|] == p
  }

  function IndexOfFrom(s: string, p: string, i: nat): (r: Option<nat>)
    ensures r.Some? ==> i <= r.value && OccursAt(s, p, r.value)
    ensures r.Some? ==> forall j :: i <= j < r.value ==> !OccursAt(s, p, j)
    ensures r.None? ==> forall j :: i <= j ==> !OccursAt(s, p, j)
    decreases |s| - i
  {
    if i + |p| > |s| then None
    else if OccursAt(s, p, i) then Some(i)
    else IndexOfFrom(s, p, i + 1)
  }

  /** Ordinal `String.IndexOf(string)`: the first occurrence, or None
      (where .NET returns -1). */
  function IndexOf(s: string, p: string): (r: Option<nat>)
    ensures r.Some? ==> OccursAt(s, p, r.value)
    ensures r.Some? ==> forall j :: 0 <= j < r.value ==> !OccursAt(s, p, j)
    ensures r.None? <==> forall j :: 0 <= j ==> !OccursAt(s, p, j)
  {
    IndexOfFrom(s, p, 0)
  }

  predicate Contains(s: string, p: string) {
    IndexOf(s, p).Some?
  }

  /** An occurrence inside a prefix is an occurrence in the whole text. */
  lemma ContainsInPrefix(s: string, p: string, i: nat)
    requires i <= |s|
    ensures Contains(s[..i], p) ==> exists j :: 0 <= j && j + |p| <= i && OccursAt(s, p, j)
  {
    if Contains(s[..i], p) {
      var j := IndexOf(s[..i], p).value;
      assert j + |p| <= i && s[..i][j..j + |p|] == p;
      assert s[j..j + |p|] == s[..i][j..j + |p|] by {
        assert s[..i] == s[..j + |p|] + s[j + |p|..i];
        assert s[..j + |p|][j..] == s[j..j + |p|];
      }
      assert OccursAt(s, p, j);
    }
  }

  lemma ContainsConcat(a: string, p: string, b: string)
    ensures Contains(a + p + b, p)
  {
    assert OccursAt(a + p + b, p, |a|) by {
      assert (a + p + b)[|a|..|a| + |p|] == p;
    }
  }

  /** First index of a character, as `String.IndexOf(char)`. */
  function IndexOfChar(s: string, c: char): (r: Option<nat>)
    ensures r.Some? ==> r.value < |s| && s[r.value] == c && c !in s[..r.value]
    ensures r.None? <==> c !in s
  {
    if |s| == 0 then None
    else if s[0] == c then Some(0)
    else match IndexOfChar(s[1..], c)
      case None => None
      case Some(k) =>
        assert s[..k + 1] == [s[0]] + s[1..][..k];
        Some(k + 1)
  }

  /** `String.Split(char)`: every separator splits, empty pieces are kept. */
  function Split(s: string, sep: char): (r: seq<string>)
    ensures |r| >= 1
    ensures forall i :: 0 <= i < |r| ==> sep !in r[i]
    decreases |s|
  {
    match IndexOfChar(s, sep)
    case None => [s]
    case Some(k) => [s[..k]] + Split(s[k + 1..], sep)
  }

  /** The inverse of `Split`: the pieces with the separator between them. */
  function Join(parts: seq<string>, sep: char): string
    requires |parts| >= 1
  {
    if |parts| == 1 then parts[0] else parts[0] + [sep] + Join(parts[1..], sep)
  }

  lemma {:induction false} SplitJoin(parts: seq<string>, sep: char)
    requires |parts| >= 1
    requires forall i :: 0 <= i < |parts| ==> sep !in parts[i]
    ensures Split(Join(parts, sep), sep) == parts
    decreases |parts|
  {
    var s := Join(parts, sep);
    FirstSeparator(parts, sep);
    if |parts| > 1 {
      var k := |parts[0]|;
      assert s == parts[0] + [sep] + Join(parts[1..], sep);
      assert s[..k] == parts[0] && s[k + 1..] == Join(parts[1..], sep);
      assert Split(s, sep) == [parts[0]] + Split(Join(parts[1..], sep), sep);
      SplitJoin(parts[1..], sep);
      assert [parts[0]] + parts[1..] == parts;
    } else {
      assert s == parts[0] && parts == [s];
    }
  }

  /** In a join, the first separator is the one after the first part. */
  lemma FirstSeparator(parts: seq<string>, sep: char)
    requires |parts| >= 1
    requires sep !in parts[0]
    ensures |parts| == 1 ==> IndexOfChar(Join(parts, sep), sep).None?
    ensures |parts| > 1 ==> IndexOfChar(Join(parts, sep), sep) == Some(|parts[0]|)
  {
    var s := Join(parts, sep);
    if |parts| > 1 {
      assert s == parts[0] + [sep] + Join(parts[1..], sep);
      assert s[|parts[0]|] == sep;
      assert s[..|parts[0]|] == parts[0];
      var r := IndexOfChar(s, sep);
      assert r.value <= |parts[0]|;
      assert s[..r.value] <= parts[0];
    }
  }

  lemma {:induction false} JoinSplit(s: string, sep: char)
    ensures Join(Split(s, sep), sep) == s
    decreases |s|
  {
    match IndexOfChar(s, sep)
    case None =>
    case Some(k) =>
      var rest := Split(s[k + 1..], sep);
      var parts := [s[..k]] + rest;
      assert Split(s, sep) == parts;
      assert parts[0] == s[..k] && parts[1..] == rest;
      assert Join(parts, sep) == s[..k] + [sep] + Join(rest, sep);
      JoinSplit(s[k + 1..], sep);
      assert s == s[..k] + [sep] + s[k + 1..];
  }

  /** `String.Replace(char, char)`. */
  function ReplaceChar(s: string, from: char, to: char): (r: string)
    ensures |r| == |s|
    ensures forall i :: 0 <= i < |s| ==> r[i] == (if s[i] == from then to else s[i])
  {
    if |s| == 0 then [] else [if s[0] == from then to else s[0]] + ReplaceChar(s[1..], from, to)
  }

  /** Invariant upper-casing of one character, restricted to ASCII letters. */
  function UpperAscii(c: char): char {
    if 'a' <= c <= 'z' then (c as int - 32) as char else c
  }

  function ToUpperAscii(s: string): (r: string)
    ensures |r| == |s|
    ensures forall i :: 0 <= i < |s| ==> r[i] == UpperAscii(s[i])
  {
    if |s| == 0 then [] else [UpperAscii(s[0])] + ToUpperAscii(s[1..])
  }

  /** `String.Equals(a, b, StringComparison.OrdinalIgnoreCase)`. */
  predicate EqualsIgnoreCase(a: string, b: string) {
    ToUpperAscii(a) == ToUpperAscii(b)
  }

  /** Upper-casing twice is upper-casing once. */
  lemma ToUpperAsciiIdempotent(s: string)
    ensures ToUpperAscii(ToUpperAscii(s)) == ToUpperAscii(s)
  {
    var u := ToUpperAscii(s);
    assert forall i :: 0 <= i < |u| ==> UpperAscii(u[i]) == u[i];
  }

  /** `String.Contains(p, StringComparison.OrdinalIgnoreCase)`. */
  predicate ContainsIgnoreCase(s: string, p: string) {
    Contains(ToUpperAscii(s), ToUpperAscii(p))
  }

  lemma EqualsIgnoreCasePointwise(a: string, b: string)
    ensures EqualsIgnoreCase(a, b) <==>
      |a| == |b| && forall i :: 0 <= i < |a| ==> UpperAscii(a[i]) == UpperAscii(b[i])
  {
    if |a| == |b| && forall i :: 0 <= i < |a| ==> UpperAscii(a[i]) == UpperAscii(b[i]) {
      assert ToUpperAscii(a) == ToUpperAscii(b);
    }
  }
}

=== FILE: text_box.dfy ===
/** `TextBoxUIElement`: a single-line input or a multi-line text area,
    chosen once at creation.
 */
module TextBox {
  import opened Wrappers
  import UIElement

  datatype Box = Box(base: UIElement.Base, text: string, width: real, height: real, isMultiline: bool)

  function Create(width: real, height: real, initialText: Option<string>): (b: Box)
    ensures b.text == initialText.GetOr("")
    ensures b.isMultiline <==> height > 0.0 || (initialText.Some? && '\n' in initialText.value)
    ensures b.base == UIElement.NewBase
  {
    Box(UIElement.NewBase, initialText.GetOr(""), width, height,
        height > 0.0 || (initialText.Some? && '\n' in initialText.value))
  }

  /** The HTML element the box renders as. */
  datatype Tag = TextArea | TextInput

  /** What `Render` appends to the margin and visibility style. */
  function StyleTail(b: Box, fontSize: real): (r: UIElement.Style)
    ensures UIElement.Lit("overflow: auto;") in r <==> b.isMultiline
    ensures UIElement.Lit("width: ") in r <==> b.width > 0.0
    ensures UIElement.Lit("height: ") in r <==> b.height > 0.0
    ensures UIElement.Lit("font-size: ") in r <==> fontSize > 0.0
    ensures UIElement.NumbersOf(r) ==
            (if b.width > 0.0 then [b.width] else []) + (if b.height > 0.0 then [b.height] else [])
            + (if fontSize > 0.0 then [fontSize] else [])
  {
    TailApart(b.width, b.height, fontSize, b.isMultiline);
    UIElement.SizePiece("width: ", b.width) + UIElement.SizePiece("height: ", b.height)
    + UIElement.SizePiece("font-size: ", fontSize) + Scroll(b.isMultiline)
  }

  /** The scrolling entry of a text area. */
  function Scroll(isMultiline: bool): (s: UIElement.Style)
    ensures UIElement.Lit("overflow: auto;") in s <==> isMultiline
    ensures forall i :: 0 <= i < |s| ==> s[i].Lit?
  {
    if isMultiline then [UIElement.Lit("overflow: auto;")] else []
  }

  /** Each entry of the tail is there only through its own piece, and the
      numbers are the positive sizes in order. */
  lemma TailApart(width: real, height: real, fontSize: real, isMultiline: bool)
    ensures var t := UIElement.SizePiece("width: ", width) + UIElement.SizePiece("height: ", height)
                     + UIElement.SizePiece("font-size: ", fontSize) + Scroll(isMultiline);
      && (UIElement.Lit("overflow: auto;") in t <==> isMultiline)
      && (UIElement.Lit("width: ") in t <==> width > 0.0)
      && (UIElement.Lit("height: ") in t <==> height > 0.0)
      && (UIElement.Lit("font-size: ") in t <==> fontSize > 0.0)
      && UIElement.NumbersOf(t) ==
           (if width > 0.0 then [width] else []) + (if height > 0.0 then [height] else [])
           + (if fontSize > 0.0 then [fontSize] else [])
  {
    var w := UIElement.SizePiece("width: ", width);
    var h := UIElement.SizePiece("height: ", height);
    var f := UIElement.SizePiece("font-size: ", fontSize);
    TailNumbers(w, h, f, Scroll(isMultiline));
    assert "width: " != "height: " && "width: " != "font-size: " && "height: " != "font-size: ";
    UIElement.SizePieceLacks("width: ", width, "height: ");
    UIElement.SizePieceLacks("width: ", width, "font-size: ");
    UIElement.SizePieceLacks("width: ", width, "overflow: auto;");
    UIElement.SizePieceLacks("height: ", height, "width: ");
    UIElement.SizePieceLacks("height: ", height, "font-size: ");
    UIElement.SizePieceLacks("height: ", height, "overflow: auto;");
    UIElement.SizePieceLacks("font-size: ", fontSize, "width: ");
    UIElement.SizePieceLacks("font-size: ", fontSize, "height: ");
    UIElement.SizePieceLacks("font-size: ", fontSize, "overflow: auto;");
  }

  /** The rendered element and its style: margin, visibility, the sizes
      that are set, the provider's font size when set, and scrolling for a
      text area. */
  function Render(b: Box, fontSize: real): (r: (Tag, UIElement.Style))
    ensures r.0 == TextArea <==> b.isMultiline
    ensures UIElement.BaseStyle(b.base) <= r.1
    ensures UIElement.Lit("overflow: auto;") in r.1 <==> b.isMultiline
    ensures UIElement.Lit("width: ") in r.1 <==> b.width > 0.0
    ensures UIElement.Lit("height: ") in r.1 <==> b.height > 0.0
    ensures UIElement.Lit("font-size: ") in r.1 <==> fontSize > 0.0
    ensures UIElement.NumbersOf(r.1[|UIElement.BaseStyle(b.base)|..]) ==
            (if b.width > 0.0 then [b.width] else []) + (if b.height > 0.0 then [b.height] else [])
            + (if fontSize > 0.0 then [fontSize] else [])
  {
    var tail := StyleTail(b, fontSize);
    AfterBase(b.base, tail, b.isMultiline, b.width > 0.0, b.height > 0.0, fontSize > 0.0);
    (if b.isMultiline then TextArea else TextInput, UIElement.BaseStyle(b.base) + tail)
  }

  /** The margin and visibility style carries none of the entries a text
      box style is judged by, so after it they are there exactly when the
      tail has them. */
  lemma AfterBase(base: UIElement.Base, tail: UIElement.Style, overflow: bool, width: bool, height: bool,
                  fontSize: bool)
    requires UIElement.Lit("overflow: auto;") in tail <==> overflow
    requires UIElement.Lit("width: ") in tail <==> width
    requires UIElement.Lit("height: ") in tail <==> height
    requires UIElement.Lit("font-size: ") in tail <==> fontSize
    ensures var s := UIElement.BaseStyle(base) + tail;
      && UIElement.BaseStyle(base) <= s
      && s[|UIElement.BaseStyle(base)|..] == tail
      && (UIElement.Lit("overflow: auto;") in s <==> overflow)
      && (UIElement.Lit("width: ") in s <==> width)
      && (UIElement.Lit("height: ") in s <==> height)
      && (UIElement.Lit("font-size: ") in s <==> fontSize)
  {
    var b := UIElement.BaseStyle(base);
    assert (b + tail)[|b|..] == tail;
    UIElement.BaseLacks(base, UIElement.Lit("width: "));
    UIElement.BaseLacks(base, UIElement.Lit("height: "));
    UIElement.BaseLacks(base, UIElement.Lit("font-size: "));
    UIElement.BaseLacks(base, UIElement.Lit("overflow: auto;"));
  }

  lemma TailNumbers(w: UIElement.Style, h: UIElement.Style, f: UIElement.Style, scroll: UIElement.Style)
    requires forall i :: 0 <= i < |scroll| ==> scroll[i].Lit?
    ensures UIElement.NumbersOf(w + h + f + scroll) ==
            UIElement.NumbersOf(w) + UIElement.NumbersOf(h) + UIElement.NumbersOf(f)
  {
    UIElement.NumbersOfAppend(w, h);
    UIElement.NumbersOfAppend(w + h, f);
    UIElement.NumbersOfAppend(w + h + f, scroll);
    UIElement.NoNumbers(scroll);
  }

  /** `SetText`: null becomes empty, and the provider is asked to re-render
      (the second component). */
  function SetText(b: Box, text: Option<string>): (r: (Box, bool))
    ensures r.0 == b.(text := text.GetOr(""))
    ensures r.1
  {
    (b.(text := text.GetOr("")), true)
  }

  /** `SetValue`: only a string is accepted; no re-render is requested. */
  function SetValue(b: Box, v: UIElement.Value): (r: Result<Box>)
    ensures r.Ok? <==> v.StringV?
    ensures r.Throw? ==> r.error == Argument
    ensures v.StringV? ==> r == Ok(b.(text := v.s))
  {
    if v.StringV? then Ok(b.(text := v.s)) else Throw(Argument)
  }

  /** The browser's `oninput`: the value (empty for null) is stored and the
      same text goes to the callback. */
  function OnInput(b: Box, value: Option<string>): (r: (Box, string))
    ensures r.0.text == r.1
    ensures r.1 == value.GetOr("")
    ensures r.0 == b.(text := r.1)
  {
    (b.(text := value.GetOr("")), value.GetOr(""))
  }

  /** Typing never changes the kind of element: a box created single-line
      stays an input even when the text gains a line break. */
  lemma KindFixedAtCreation(width: real, text: string, typed: string)
    requires '\n' !in text && '\n' in typed
    ensures var b := OnInput(Create(width, 0.0, Some(text)), Some(typed)).0;
            b.text == typed && Render(b, 0.0).0 == TextInput
  {
  }
}

=== FILE: tooltip.dfy ===
/** `BlazorUIProvider.ParseTextAndToolTip`: a label written as
    `"Text (?):Tool tip"` is shown as `"Text 🛈"` with `"Tool tip"` as its
    tool tip. Every element that takes a label from the samples goes
    through it.

    The info glyph U+1F6C8 is one character here (two UTF-16 code units in
    .NET); the search for the key is ordinal.
 */
module ToolTip {
  import opened Wrappers
  import Text

  /** The marker that separates the shown text from the tool tip. */
  const Key: string := " (?):"

  const Glyph: char := '\U{1F6C8}'

  /** The shown text and the tool tip; either may be missing (null). */
  datatype Parsed = Parsed(text: Option<string>, toolTip: Option<string>)

  /** The label shown for the text before the key: the info glyph goes in
      front of a trailing colon, or at the end when there is none. */
  function Decorate(prefix: string): (r: string)
    requires |prefix| > 0
    ensures prefix[|prefix| - 1] == ':' ==> r == prefix[..|prefix| - 1] + [' ', Glyph, ':']
    ensures prefix[|prefix| - 1] != ':' ==> r == prefix + [' ', Glyph]
  {
    if prefix[|prefix| - 1] == ':' then prefix[..|prefix| - 1] + " \U{1F6C8}:"
    else prefix + " \U{1F6C8}"
  }

  /** Recovers the text before the key from a decorated label. */
  function Undecorate(shown: string): Option<string> {
    if |shown| >= 3 && shown[|shown| - 3..] == [' ', Glyph, ':'] then Some(shown[..|shown| - 3] + ":")
    else if |shown| >= 2 && shown[|shown| - 2..] == [' ', Glyph] then Some(shown[..|shown| - 2])
    else None
  }

  /** Decoration loses nothing: the text before the key can be read back. */
  lemma UndecorateDecorate(prefix: string)
    requires |prefix| > 0
    ensures Undecorate(Decorate(prefix)) == Some(prefix)
  {
    var r := Decorate(prefix);
    var n := |prefix|;
    if prefix[n - 1] == ':' {
      assert r[|r| - 3..] == [' ', Glyph, ':'];
      assert r[..|r| - 3] + ":" == prefix;
    } else {
      assert r[|r| - 1] == Glyph;
      assert r[|r| - 2..] == [' ', Glyph];
      assert r[..|r| - 2] == prefix;
    }
  }

  function ParseTextAndToolTip(s: Option<string>): (r: Parsed)
    ensures s.None? ==> r == Parsed(None, None)
    ensures s.Some? && !Text.Contains(s.value, Key) ==> r == Parsed(s, None)
    ensures s.Some? && Text.Contains(s.value, Key) ==>
              var i := Text.IndexOf(s.value, Key).value;
              && (r.text.None? <==> i == 0)
              && (i > 0 ==> r.text == Some(Decorate(s.value[..i])))
              && (r.toolTip.None? <==> i + |Key| == |s.value|)
              && (r.toolTip.Some? ==> s.value == s.value[..i] + Key + r.toolTip.value)
  {
    if s.None? then Parsed(None, None)
    else
      match Text.IndexOf(s.value, Key)
      case None => Parsed(s, None)
      case Some(i) =>
        var t := s.value;
        var text := if i == 0 then None else Some(Decorate(t[..i]));
        var tip := if i == |t| - |Key| then None else Some(t[i + |Key|..]);
        assert tip.Some? ==> t == t[..i] + t[i..i + |Key|] + t[i + |Key|..];
        Parsed(text, tip)
  }

  /** The label a sample writes: a text, the key, then a tool tip. */
  function Compose(prefix: string, toolTip: string): string {
    prefix + Key + toolTip
  }

  /** The key cannot overlap itself: at the position right after a text
      that does not contain it, the key occurs and no earlier occurrence
      exists. */
  lemma FirstKeyAfterPrefix(prefix: string, tail: string)
    requires !Text.Contains(prefix, Key)
    ensures Text.IndexOf(prefix + Key + tail, Key) == Some(|prefix|)
  {
    var s := prefix + Key + tail;
    assert s[|prefix|..|prefix| + |Key|] == Key;
    assert Text.OccursAt(s, Key, |prefix|);
    forall j | 0 <= j < |prefix|
      ensures !Text.OccursAt(s, Key, j)
    {
      if j + |Key| <= |prefix| {
        assert prefix[j..j + |Key|] == s[j..j + |Key|];
        assert !Text.OccursAt(prefix, Key, j);
      } else if j + |Key| <= |s| {
        var d := |prefix| - j;
        assert s[j..j + |Key|][d] == s[|prefix|] == ' ';
        assert Key[d] != ' ';
      }
    }
    var found := Text.IndexOf(s, Key);
    assert found.Some?;
    assert found.value == |prefix|;
  }

  /** Parsing a composed label gives back the decorated text and the tool
      tip, whenever the text does not itself contain the key. */
  lemma ParseCompose(prefix: string, toolTip: string)
    requires !Text.Contains(prefix, Key)
    ensures ParseTextAndToolTip(Some(Compose(prefix, toolTip))) ==
              Parsed(if prefix == "" then None else Some(Decorate(prefix)),
                     if toolTip == "" then None else Some(toolTip))
  {
    FirstKeyAfterPrefix(prefix, toolTip);
    var s := Compose(prefix, toolTip);
    assert s[..|prefix|] == prefix;
    assert s[|prefix| + |Key|..] == toolTip;
  }

  /** A label with the key yields a tool tip exactly when something follows
      the key, and a text exactly when something precedes it; the two
      parts read back the original label. */
  lemma ParseRecomposes(s: string)
    requires Text.Contains(s, Key)
    ensures var r := ParseTextAndToolTip(Some(s));
            var i := Text.IndexOf(s, Key).value;
            && !Text.Contains(s[..i], Key)
            && s == Compose(s[..i], r.toolTip.GetOr(""))
            && (r.text.Some? ==> Undecorate(r.text.value) == Some(s[..i]))
  {
    var i := Text.IndexOf(s, Key).value;
    var r := ParseTextAndToolTip(Some(s));
    Text.ContainsInPrefix(s, Key, i);
    if r.toolTip.None? {
      assert s[i..] == Key;
      assert s == s[..i] + s[i..];
    }
    if r.text.Some? {
      UndecorateDecorate(s[..i]);
    }
  }
}

=== FILE: ui_element.dfy ===
/** The state every Blazor UI element shares (`BlazorUIElement`):
    visibility, tool tip and margin, the style fragments derived from them,
    and the members a derived element has to override.

    A style string is kept as a sequence of pieces: literal text and the
    numbers .NET formats into it. How a `double` is printed is not part of
    the model; which number goes where is.
 */
module UIElement {
  import opened Wrappers
  import Numbers

  /** Margin in the (left, top, right, bottom) order of `GetMargin`. */
  datatype Margin = Margin(left: real, top: real, right: real, bottom: real)

  const NoMargin: Margin := Margin(0.0, 0.0, 0.0, 0.0)

  datatype Base = Base(isVisible: bool, toolTip: Option<string>, margin: Margin)

  /** A freshly constructed element: visible, no tool tip, no margin. */
  const NewBase: Base := Base(true, None, NoMargin)

  function SetIsVisible(b: Base, isVisible: bool): (r: Base)
    ensures r.isVisible == isVisible
    ensures r.toolTip == b.toolTip && r.margin == b.margin
  {
    b.(isVisible := isVisible)
  }

  function SetToolTip(b: Base, toolTip: string): (r: Base)
    ensures r.toolTip == Some(toolTip)
    ensures r.isVisible == b.isVisible && r.margin == b.margin
  {
    b.(toolTip := Some(toolTip))
  }

  function SetMargin(b: Base, left: real, top: real, right: real, bottom: real): (r: Base)
    ensures r.margin.left == left && r.margin.top == top
    ensures r.margin.right == right && r.margin.bottom == bottom
    ensures r.isVisible == b.isVisible && r.toolTip == b.toolTip
  {
    b.(margin := Margin(left, top, right, bottom))
  }

  /** Each setter is read back by its getter and leaves the other two
      properties alone, whatever order the setters are called in. */
  lemma SettersCommute(b: Base, v: bool, t: string, l: real, tp: real, rt: real, bt: real)
    ensures SetIsVisible(SetToolTip(SetMargin(b, l, tp, rt, bt), t), v)
         == SetMargin(SetToolTip(SetIsVisible(b, v), t), l, tp, rt, bt)
    ensures SetMargin(SetToolTip(SetIsVisible(b, v), t), l, tp, rt, bt)
         == Base(v, Some(t), Margin(l, tp, rt, bt))
  {
  }

  /** One piece of a style string. */
  datatype Piece = Lit(text: string) | Num(value: real)

  type Style = seq<Piece>

  /** The numbers a style carries, in order. */
  function NumbersOf(s: Style): (r: seq<real>)
    ensures |r| <= |s|
  {
    if |s| == 0 then []
    else (if s[0].Num? then [s[0].value] else []) + NumbersOf(s[1..])
  }

  lemma {:induction false} NumbersOfAppend(a: Style, b: Style)
    ensures NumbersOf(a + b) == NumbersOf(a) + NumbersOf(b)
    decreases |a|
  {
    if |a| == 0 {
      assert a + b == b;
    } else {
      assert (a + b)[0] == a[0] && (a + b)[1..] == a[1..] + b;
      NumbersOfAppend(a[1..], b);
    }
  }

  /** A style made of literal text only carries no numbers. */
  lemma {:induction false} NoNumbers(s: Style)
    requires forall i :: 0 <= i < |s| ==> s[i].Lit?
    ensures NumbersOf(s) == []
    decreases |s|
  {
    if |s| > 0 {
      NoNumbers(s[1..]);
    }
  }

  /** A size property such as `width: Npx;`, present only when the size is
      positive, as the elements test before writing one. */
  function SizePiece(name: string, value: real): (r: Style)
    ensures r != [] <==> value > 0.0
    ensures NumbersOf(r) == (if value > 0.0 then [value] else [])
    ensures Lit(name) in r <==> value > 0.0
    ensures forall p :: p in r ==> p == Lit(name) || p.Num? || p == Lit("px;")
  {
    if value > 0.0 then
      var r := [Lit(name), Num(value), Lit("px;")];
      assert NumbersOf(r[1..]) == [value] by {
        assert r[1..][1..] == [Lit("px;")];
        assert NumbersOf([Lit("px;")]) == [];
      }
      r
    else []
  }

  lemma SizePieceLacks(name: string, value: real, other: string)
    requires other != name && other != "px;"
    ensures Lit(other) !in SizePiece(name, value)
  {
  }

  /** `GetMarginStyle`: empty for a zero margin, otherwise the CSS shorthand
      with the sides in CSS order (top, right, bottom, left). */
  function MarginStyle(m: Margin): (s: Style)
    ensures s == [] <==> m == NoMargin
    ensures s != [] ==> s[0] == Lit("margin: ")
  {
    if m == NoMargin then []
    else [Lit("margin: "), Num(m.top), Lit("px "), Num(m.right), Lit("px "),
          Num(m.bottom), Lit("px "), Num(m.left), Lit("px; ")]
  }

  /** The margin shorthand lists the four sides in CSS order. */
  lemma MarginStyleOrder(m: Margin)
    requires m != NoMargin
    ensures NumbersOf(MarginStyle(m)) == [m.top, m.right, m.bottom, m.left]
  {
    var s := MarginStyle(m);
    assert NumbersOf(s[8..]) == [];
    assert NumbersOf(s[7..]) == [m.left];
    assert NumbersOf(s[5..]) == [m.bottom, m.left] by {
      assert s[5..][1..] == s[6..] && s[6..][1..] == s[7..];
    }
    assert NumbersOf(s[3..]) == [m.right, m.bottom, m.left] by {
      assert s[3..][1..] == s[4..] && s[4..][1..] == s[5..];
    }
    assert NumbersOf(s[1..]) == [m.top, m.right, m.bottom, m.left] by {
      assert s[1..][1..] == s[2..] && s[2..][1..] == s[3..];
    }
  }

  /** `GetVisibilityStyle`. */
  function VisibilityStyle(isVisible: bool): (s: Style)
    ensures s == [] <==> isVisible
    ensures !isVisible ==> s == [Lit("display: none; ")]
  {
    if isVisible then [] else [Lit("display: none; ")]
  }

  /** The pieces margin and visibility styles are made of. */
  predicate BasePiece(p: Piece) {
    p.Num? || p.text in {"margin: ", "px ", "px; ", "display: none; "}
  }

  /** The style every element starts with: margin, then visibility. */
  function BaseStyle(b: Base): (s: Style)
    ensures s == [] <==> b.margin == NoMargin && b.isVisible
    ensures forall i :: 0 <= i < |s| ==> BasePiece(s[i])
  {
    MarginStyle(b.margin) + VisibilityStyle(b.isVisible)
  }

  /** A piece outside the margin and visibility alphabet is not in the
      base style. */
  lemma BaseLacks(b: Base, p: Piece)
    requires !BasePiece(p)
    ensures p !in BaseStyle(b)
  {
  }

  /** How many marks are set: the options carrying `selected`, or the
      radio buttons carrying `checked`. */
  function CountTrue(marks: seq<bool>): nat {
    if |marks| == 0 then 0 else (if marks[0] then 1 else 0) + CountTrue(marks[1..])
  }

  /** Marks meaning "the position is k" count exactly one when k is a
      position, and none otherwise. */
  lemma {:induction false} CountTrueExactlyAtIndex(marks: seq<bool>, k: int)
    requires forall i :: 0 <= i < |marks| ==> (marks[i] <==> i == k)
    ensures CountTrue(marks) == if 0 <= k < |marks| then 1 else 0
    decreases |marks|
  {
    if |marks| > 0 {
      CountTrueExactlyAtIndex(marks[1..], k - 1);
    }
  }

  /** The `object` handed to `SetValue` or received from a browser event,
      by the runtime types the elements test for. Single and double
      precision values are numbers with a decimal text. */
  datatype Value =
    | IntV(i: int)
    | FloatV(f: Numbers.Decimal)
    | DoubleV(d: Numbers.Decimal)
    | StringV(s: string)
    | BoolV(b: bool)
    | NullV
    | OtherV

  /** The members whose base version throws. */
  datatype Overridable =
    | GetText | SetText | GetStyle | SetStyle | UpdateValue
    | SetValue | SetProperty | GetPropertyValue

  /** What the base version of a member throws when an element does not
      override it. */
  function BaseFailure(m: Overridable): (e: Exn)
    ensures e == InvalidOperation <==> m in {GetText, SetText, GetStyle, SetStyle, UpdateValue}
    ensures e == NotImplemented <==> m in {SetValue, SetProperty, GetPropertyValue}
  {
    match m
    case SetValue | SetProperty | GetPropertyValue => NotImplemented
    case _ => InvalidOperation
  }

  /** Elements without a periodic value getter are skipped by
      `UpdateAllValues`. */
  const BaseIsUpdateSupported: bool := false
}

=== FILE: ui_panel.dfy ===
/** The child list of a panel (`BlazorUIPanel`): an ordered list of Blazor
    elements and a count of how many times the panel's render fragment was
    rebuilt. Elements are compared by reference; `T` stands for that
    identity.

    The list methods take any `ICommonSampleUIElement`; only Blazor
    elements are stored, others are ignored without a rebuild.
 */
module UIPanel {
  import opened Wrappers

  /** An element handed to a list method: a Blazor element, or one of
      another UI framework. */
  datatype Candidate<T> = Blazor(element: T) | Foreign

  datatype Panel<T> = Panel(children: seq<T>, regenerations: nat)

  function Empty<T>(): Panel<T> {
    Panel([], 0)
  }

  function ChildrenCount<T>(p: Panel<T>): (n: nat)
    ensures n == |p.children|
  {
    |p.children|
  }

  /** The list indexer: out of range throws. */
  function GetChild<T>(p: Panel<T>, index: int): (r: Result<T>)
    ensures r.Ok? <==> 0 <= index < |p.children|
    ensures r.Ok? ==> r.value == p.children[index]
    ensures r.Throw? ==> r.error == ArgumentOutOfRange
  {
    if 0 <= index < |p.children| then Ok(p.children[index]) else Throw(ArgumentOutOfRange)
  }

  function AddChild<T>(p: Panel<T>, c: Candidate<T>): (r: Panel<T>)
    ensures c.Foreign? ==> r == p
    ensures c.Blazor? ==> r.children == p.children + [c.element]
    ensures c.Blazor? ==> r.regenerations == p.regenerations + 1
  {
    match c
    case Foreign => p
    case Blazor(e) => Panel(p.children + [e], p.regenerations + 1)
  }

  /** `List.Insert`: an index outside `0..Count` throws before anything
      changes. */
  function InsertChild<T>(p: Panel<T>, index: int, c: Candidate<T>): (r: Result<Panel<T>>)
    ensures c.Foreign? ==> r == Ok(p)
    ensures c.Blazor? ==> (r.Ok? <==> 0 <= index <= |p.children|)
    ensures r.Throw? ==> r.error == ArgumentOutOfRange
    ensures c.Blazor? && r.Ok? ==>
              && |r.value.children| == |p.children| + 1
              && r.value.children[index] == c.element
              && (forall i :: 0 <= i < index ==> r.value.children[i] == p.children[i])
              && (forall i :: index < i <= |p.children| ==> r.value.children[i] == p.children[i - 1])
              && r.value.regenerations == p.regenerations + 1
  {
    match c
    case Foreign => Ok(p)
    case Blazor(e) =>
      if 0 <= index <= |p.children| then
        Ok(Panel(p.children[..index] + [e] + p.children[index..], p.regenerations + 1))
      else Throw(ArgumentOutOfRange)
  }

  /** `List.RemoveAt`: an index outside `0..Count-1` throws before the
      rebuild. */
  function RemoveChildAt<T>(p: Panel<T>, index: int): (r: Result<Panel<T>>)
    ensures r.Ok? <==> 0 <= index < |p.children|
    ensures r.Throw? ==> r.error == ArgumentOutOfRange
    ensures r.Ok? ==>
              && |r.value.children| == |p.children| - 1
              && (forall i :: 0 <= i < index ==> r.value.children[i] == p.children[i])
              && (forall i :: index <= i < |r.value.children| ==> r.value.children[i] == p.children[i + 1])
              && r.value.regenerations == p.regenerations + 1
  {
    if 0 <= index < |p.children| then
      Ok(Panel(p.children[..index] + p.children[index + 1..], p.regenerations + 1))
    else Throw(ArgumentOutOfRange)
  }

  /** Index of the first occurrence of an element. */
  function FirstIndex<T(==)>(s: seq<T>, e: T): (r: Option<nat>)
    ensures r.Some? ==> r.value < |s| && s[r.value] == e && e !in s[..r.value]
    ensures r.None? <==> e !in s
  {
    if |s| == 0 then None
    else if s[0] == e then Some(0)
    else match FirstIndex(s[1..], e)
      case None => None
      case Some(k) =>
        assert s[..k + 1] == [s[0]] + s[1..][..k];
        Some(k + 1)
  }

  /** `List.Remove`: drops the first occurrence only; the panel is rebuilt
      even when the element was not a child. */
  function RemoveChild<T(==)>(p: Panel<T>, c: Candidate<T>): (r: Panel<T>)
    ensures c.Foreign? ==> r == p
    ensures c.Blazor? ==> r.regenerations == p.regenerations + 1
    ensures c.Blazor? && c.element !in p.children ==> r.children == p.children
    ensures c.Blazor? && c.element in p.children ==>
              var k := FirstIndex(p.children, c.element).value;
              r.children == p.children[..k] + p.children[k + 1..]
  {
    match c
    case Foreign => p
    case Blazor(e) =>
      match FirstIndex(p.children, e)
      case None => Panel(p.children, p.regenerations + 1)
      case Some(k) => Panel(p.children[..k] + p.children[k + 1..], p.regenerations + 1)
  }

  function ClearChildren<T>(p: Panel<T>): (r: Panel<T>)
    ensures ChildrenCount(r) == 0
    ensures r.regenerations == p.regenerations + 1
  {
    Panel([], p.regenerations + 1)
  }

  /** An added child is the last one and can be read back at that index. */
  lemma AddThenGet<T>(p: Panel<T>, e: T)
    ensures GetChild(AddChild(p, Blazor(e)), ChildrenCount(p)) == Ok(e)
    ensures ChildrenCount(AddChild(p, Blazor(e))) == ChildrenCount(p) + 1
  {
  }

  /** Removing at the index just inserted at restores the list. */
  lemma InsertThenRemoveAt<T>(p: Panel<T>, index: int, e: T)
    requires 0 <= index <= |p.children|
    ensures InsertChild(p, index, Blazor(e)).Ok?
    ensures RemoveChildAt(InsertChild(p, index, Blazor(e)).value, index).value.children == p.children
  {
    var q := InsertChild(p, index, Blazor(e)).value;
    var r := RemoveChildAt(q, index).value;
    assert r.children == p.children;
  }

  /** Removing an element takes away exactly one copy of it, and keeps
      every later copy and every other child in order. */
  lemma RemoveChildTakesOneCopy<T>(p: Panel<T>, e: T)
    requires e in p.children
    ensures multiset(RemoveChild(p, Blazor(e)).children) == multiset(p.children) - multiset{e}
  {
    var k := FirstIndex(p.children, e).value;
    var s := p.children;
    assert s == s[..k] + [e] + s[k + 1..];
    assert multiset(s) == multiset(s[..k]) + multiset{e} + multiset(s[k + 1..]);
  }

  /** One call of the list methods. */
  datatype Mutation<T> =
    | Add(c: Candidate<T>)
    | Insert(index: int, c: Candidate<T>)
    | Remove(c: Candidate<T>)
    | RemoveAt(index: int)
    | Clear

  function Apply<T(==)>(p: Panel<T>, m: Mutation<T>): Result<Panel<T>> {
    match m
    case Add(c) => Ok(AddChild(p, c))
    case Insert(i, c) => InsertChild(p, i, c)
    case Remove(c) => Ok(RemoveChild(p, c))
    case RemoveAt(i) => RemoveChildAt(p, i)
    case Clear => Ok(ClearChildren(p))
  }

  /** The calls in order; the first one that throws ends the series. */
  function ApplyAll<T(==)>(p: Panel<T>, ms: seq<Mutation<T>>): Result<Panel<T>>
    decreases |ms|
  {
    if |ms| == 0 then Ok(p)
    else match Apply(p, ms[0])
      case Throw(e) => Throw(e)
      case Ok(q) => ApplyAll(q, ms[1..])
  }

  /** Whether a call rebuilds the panel when it does not throw: every call
      on a Blazor element, and every index or clear call. */
  predicate Rebuilds<T>(m: Mutation<T>) {
    match m
    case Add(c) => c.Blazor?
    case Insert(_, c) => c.Blazor?
    case Remove(c) => c.Blazor?
    case RemoveAt(_) => true
    case Clear => true
  }

  function RebuildCount<T>(ms: seq<Mutation<T>>): (n: nat)
    ensures n <= |ms|
  {
    if |ms| == 0 then 0 else (if Rebuilds(ms[0]) then 1 else 0) + RebuildCount(ms[1..])
  }

  lemma ApplyRebuilds<T>(p: Panel<T>, m: Mutation<T>)
    ensures Apply(p, m).Ok? ==>
              Apply(p, m).value.regenerations == p.regenerations + (if Rebuilds(m) then 1 else 0)
  {
  }

  /** The number of rebuilds is the number of calls that took effect on a
      Blazor element or an index: any series of calls that does not throw
      adds exactly that many, and calls with a foreign element add none. */
  lemma {:induction false} RegenerationCount<T>(p: Panel<T>, ms: seq<Mutation<T>>)
    ensures ApplyAll(p, ms).Ok? ==>
              ApplyAll(p, ms).value.regenerations == p.regenerations + RebuildCount(ms)
    decreases |ms|
  {
    if |ms| > 0 {
      ApplyRebuilds(p, ms[0]);
      if Apply(p, ms[0]).Ok? {
        RegenerationCount(Apply(p, ms[0]).value, ms[1..]);
      }
    }
  }
}

=== FILE: ui_provider.dfy ===
/** `BlazorUIProvider`: builds the sample's settings panel. It keeps the
    root elements, the panel new elements go into, a pending separator
    height, and a small map of text settings from which four layout values
    are derived.

    Elements are tree nodes. A panel is addressed by the path of child
    indices leading to it from the root list, so "the current panel" is a
    path that must lead to a panel. Each node carries an id the provider
    hands out, standing for the object's identity. The state-changed
    callback is counted, not called.
 */
module UIProvider {
  import opened Wrappers
  import Numbers
  import UIElement
  import Label
  import KeyValueLabel
  import Slider
  import StackPanel
  import ToolTip

  datatype Kind =
    | LabelKind | KeyValueKind | ButtonKind | SliderKind
    | ComboBoxKind | RadioButtonsKind | CheckBoxKind | TextBoxKind

  /** `IsUpdateSupported` of each element kind. */
  function UpdateSupported(k: Kind): bool {
    match k
    case KeyValueKind => KeyValueLabel.IsUpdateSupported
    case SliderKind => Slider.IsUpdateSupported
    case _ => UIElement.BaseIsUpdateSupported
  }

  datatype Node =
    | Element(id: nat, kind: Kind, base: UIElement.Base)
    | Panel(id: nat, base: UIElement.Base, isVertical: bool, children: seq<Node>)

  type Path = seq<nat>

  /** The node a path leads to, if any. */
  function Resolve(nodes: seq<Node>, path: Path): Option<Node>
    decreases path
  {
    if |path| == 0 || path[0] >= |nodes| then None
    else if |path| == 1 then Some(nodes[path[0]])
    else if nodes[path[0]].Panel? then Resolve(nodes[path[0]].children, path[1..])
    else None
  }

  predicate IsPanelPath(nodes: seq<Node>, path: Path) {
    Resolve(nodes, path).Some? && Resolve(nodes, path).value.Panel?
  }

  /** Whether `x` occurs anywhere in the forest. */
  predicate InTree(nodes: seq<Node>, x: Node)
    decreases nodes
  {
    && |nodes| > 0
    && (|| nodes[0] == x
        || (nodes[0].Panel? && InTree(nodes[0].children, x))
        || InTree(nodes[1..], x))
  }

  /** The ids of a node and everything below it, depth first. */
  function NodeIds(n: Node): seq<nat>
    decreases n
  {
    match n
    case Element(id, _, _) => [id]
    case Panel(id, _, _, children) => [id] + AllIds(children)
  }

  function AllIds(nodes: seq<Node>): seq<nat>
    decreases nodes
  {
    if |nodes| == 0 then [] else NodeIds(nodes[0]) + AllIds(nodes[1..])
  }

  lemma {:induction false} AllIdsConcat(a: seq<Node>, b: seq<Node>)
    ensures AllIds(a + b) == AllIds(a) + AllIds(b)
    decreases a
  {
    if |a| == 0 {
      assert a + b == b;
    } else {
      assert (a + b)[0] == a[0] && (a + b)[1..] == a[1..] + b;
      AllIdsConcat(a[1..], b);
    }
  }

  lemma {:induction false} AllIdsSplit(nodes: seq<Node>, i: nat)
    requires i < |nodes|
    ensures AllIds(nodes) == AllIds(nodes[..i]) + NodeIds(nodes[i]) + AllIds(nodes[i + 1..])
  {
    assert nodes == nodes[..i] + nodes[i..];
    AllIdsConcat(nodes[..i], nodes[i..]);
    assert nodes[i..][0] == nodes[i] && nodes[i..][1..] == nodes[i + 1..];
    assert AllIds(nodes[i..]) == NodeIds(nodes[i]) + AllIds(nodes[i + 1..]);
  }

  /** Every id occurs at most once and is below the next id to hand out. */
  ghost predicate IdsFresh(nodes: seq<Node>, nextId: nat) {
    && (forall x :: multiset(AllIds(nodes))[x] <= 1)
    && (forall x :: x in multiset(AllIds(nodes)) ==> x < nextId)
  }

  /** Appending a node (with id `nextId`, nothing below it) to the forest
      keeps the ids fresh. */
  lemma FreshAfterAdd(old_ids: multiset<nat>, new_ids: multiset<nat>, nextId: nat)
    requires forall x :: old_ids[x] <= 1
    requires forall x :: x in old_ids ==> x < nextId
    requires new_ids == old_ids + multiset{nextId}
    ensures forall x :: new_ids[x] <= 1
    ensures forall x :: x in new_ids ==> x < nextId + 1
  {
    assert nextId !in old_ids;
  }

  /** Appends `e` to the children of the panel at `path`. */
  function AppendAt(nodes: seq<Node>, path: Path, e: Node): (r: seq<Node>)
    requires IsPanelPath(nodes, path)
    ensures |r| == |nodes|
    ensures IsPanelPath(r, path)
    ensures Resolve(r, path).value ==
            Resolve(nodes, path).value.(children := Resolve(nodes, path).value.children + [e])
    decreases path
  {
    var i := path[0];
    var n := nodes[i];
    var children := if |path| == 1 then n.children + [e] else AppendAt(n.children, path[1..], e);
    nodes[i := n.(children := children)]
  }

  /** Appending adds exactly the ids of the appended node. */
  lemma {:induction false} AppendAtIds(nodes: seq<Node>, path: Path, e: Node)
    requires IsPanelPath(nodes, path)
    ensures multiset(AllIds(AppendAt(nodes, path, e))) == multiset(AllIds(nodes)) + multiset(NodeIds(e))
    decreases path
  {
    var i := path[0];
    var n := nodes[i];
    assert n.Panel?;
    var children := if |path| == 1 then n.children + [e] else AppendAt(n.children, path[1..], e);
    var n' := n.(children := children);
    var r := AppendAt(nodes, path, e);
    assert r == nodes[i := n'];
    assert multiset(AllIds(children)) == multiset(AllIds(n.children)) + multiset(NodeIds(e)) by {
      if |path| == 1 {
        AllIdsConcat(n.children, [e]);
        assert AllIds([e]) == NodeIds(e) by { assert [e][1..] == []; }
      } else {
        AppendAtIds(n.children, path[1..], e);
      }
    }
    assert multiset(NodeIds(n')) == multiset(NodeIds(n)) + multiset(NodeIds(e)) by {
      assert NodeIds(n') == [n.id] + AllIds(children);
      assert NodeIds(n) == [n.id] + AllIds(n.children);
    }
    ReplaceIds(nodes, i, n', multiset(NodeIds(e)));
  }

  /** Replacing a node by one with extra ids adds those ids to the forest. */
  lemma {:induction false} ReplaceIds(nodes: seq<Node>, i: nat, m: Node, extra: multiset<nat>)
    requires i < |nodes|
    requires multiset(NodeIds(m)) == multiset(NodeIds(nodes[i])) + extra
    ensures multiset(AllIds(nodes[i := m])) == multiset(AllIds(nodes)) + extra
  {
    var r := nodes[i := m];
    AllIdsSplit(nodes, i);
    AllIdsSplit(r, i);
    assert r[..i] == nodes[..i] && r[i + 1..] == nodes[i + 1..];
  }

  /** Adding at the end of the root list keeps every path leading where it
      led. */
  lemma ResolveAfterRootAppend(nodes: seq<Node>, e: Node, path: Path)
    requires Resolve(nodes, path).Some?
    ensures Resolve(nodes + [e], path) == Resolve(nodes, path)
  {
    assert (nodes + [e])[path[0]] == nodes[path[0]];
  }

  datatype Provider = Provider(
    roots: seq<Node>,
    current: Option<Path>,
    lastSeparator: real,
    settings: map<string, Option<string>>,
    standardMargin: real,
    headerTopMargin: real,
    headerBottomMargin: real,
    fontSize: real,
    nextId: nat,
    notifications: nat,
    canvasInterop: Option<nat>,
    subscribedInterop: Option<nat>,
    pointerHandlers: multiset<nat>)

  /** The provider's invariant: ids are fresh and the current panel, when
      set, is a panel of the tree. */
  ghost predicate Valid(p: Provider) {
    && IdsFresh(p.roots, p.nextId)
    && (p.current.Some? ==> IsPanelPath(p.roots, p.current.value))
  }

  const StandardMarginKey: string := "StandardMargin"
  const HeaderTopMarginKey: string := "HeaderTopMargin"
  const HeaderBottomMarginKey: string := "HeaderBottomMarin"
  const FontSizeKey: string := "FontSize"

  /** `GetSettingText`: the stored text, null for an unknown key. */
  function GetSettingText(p: Provider, key: string): (r: Option<string>)
    ensures key !in p.settings ==> r.None?
    ensures key in p.settings ==> r == p.settings[key]
  {
    if key in p.settings then p.settings[key] else None
  }

  /** `GetSettingFloat`; None stands for NaN: a missing key, a null text,
      or a text that does not parse. */
  function GetSettingFloat(p: Provider, key: string): (r: Option<real>)
    ensures r.Some? <==>
              GetSettingText(p, key).Some? && Numbers.ParseDecimal(GetSettingText(p, key).value).Some?
    ensures r.Some? ==> r.value == Numbers.Value(Numbers.ParseDecimal(GetSettingText(p, key).value).value)
  {
    match GetSettingText(p, key)
    case None => None
    case Some(text) =>
      match Numbers.ParseDecimal(text)
      case None => None
      case Some(d) => Some(Numbers.Value(d))
  }

  /** The header margins default to multiples of the standard margin. */
  function DefaultHeaderTopMargin(standardMargin: real): real {
    standardMargin * 2.0
  }

  function DefaultHeaderBottomMargin(standardMargin: real): real {
    standardMargin * 1.3
  }

  /** `OnSettingsChanged`: the four layout values are re-read. NaN gives 0
      for the standard margin and the font size, and the defaults (from the
      standard margin just read) for the header margins. */
  function OnSettingsChanged(p: Provider): (r: Provider)
    ensures r.standardMargin == GetSettingFloat(p, StandardMarginKey).GetOr(0.0)
    ensures r.headerTopMargin == GetSettingFloat(p, HeaderTopMarginKey).GetOr(DefaultHeaderTopMargin(r.standardMargin))
    ensures r.headerBottomMargin ==
            GetSettingFloat(p, HeaderBottomMarginKey).GetOr(DefaultHeaderBottomMargin(r.standardMargin))
    ensures r.fontSize == GetSettingFloat(p, FontSizeKey).GetOr(0.0)
    ensures r == p.(standardMargin := r.standardMargin, headerTopMargin := r.headerTopMargin,
                    headerBottomMargin := r.headerBottomMargin, fontSize := r.fontSize)
  {
    var sm := GetSettingFloat(p, StandardMarginKey).GetOr(0.0);
    p.(standardMargin := sm,
       headerTopMargin := GetSettingFloat(p, HeaderTopMarginKey).GetOr(DefaultHeaderTopMargin(sm)),
       headerBottomMargin := GetSettingFloat(p, HeaderBottomMarginKey).GetOr(DefaultHeaderBottomMargin(sm)),
       fontSize := GetSettingFloat(p, FontSizeKey).GetOr(0.0))
  }

  /** `SetSettingText`: stores the text (null included) and re-reads the
      layout values. */
  function SetSettingText(p: Provider, key: string, value: Option<string>): (r: Provider)
    ensures r.settings == p.settings[key := value]
    ensures r == OnSettingsChanged(p.(settings := r.settings))
  {
    OnSettingsChanged(p.(settings := p.settings[key := value]))
  }

  /** `SetSettingFloat`: stores the invariant text of the value. */
  function SetSettingFloat(p: Provider, key: string, value: Numbers.Decimal): (r: Provider)
    requires Numbers.WellFormed(value)
    ensures r == SetSettingText(p, key, Some(Numbers.FormatDecimal(value)))
    ensures GetSettingFloat(r, key) == Some(Numbers.Value(value))
  {
    Numbers.ParseFormatDecimal(value);
    SetSettingText(p, key, Some(Numbers.FormatDecimal(value)))
  }

  /** A text written under a key is what `GetSettingText` returns for it;
      other keys keep their texts. */
  lemma SettingTextRoundTrip(p: Provider, key: string, other: string, value: Option<string>)
    requires other != key
    ensures GetSettingText(SetSettingText(p, key, value), key) == value
    ensures GetSettingText(SetSettingText(p, key, value), other) == GetSettingText(p, other)
  {
  }

  /** Writing a number as the standard margin makes it the margin; clearing
      the header settings afterwards falls back to the defaults. */
  lemma StandardMarginDrivesDefaults(p: Provider, d: Numbers.Decimal)
    requires Numbers.WellFormed(d)
    ensures var r := SetSettingText(SetSettingText(SetSettingFloat(p, StandardMarginKey, d),
                                                   HeaderTopMarginKey, None), HeaderBottomMarginKey, None);
            && r.standardMargin == Numbers.Value(d)
            && r.headerTopMargin == 2.0 * Numbers.Value(d)
            && r.headerBottomMargin == 1.3 * Numbers.Value(d)
  {
    var r1 := SetSettingFloat(p, StandardMarginKey, d);
    var r2 := SetSettingText(r1, HeaderTopMarginKey, None);
    var r3 := SetSettingText(r2, HeaderBottomMarginKey, None);
    assert GetSettingText(r2, StandardMarginKey) == GetSettingText(r1, StandardMarginKey);
    assert GetSettingText(r3, StandardMarginKey) == GetSettingText(r1, StandardMarginKey);
    assert GetSettingFloat(r3, StandardMarginKey) == Some(Numbers.Value(d));
    assert GetSettingFloat(r3, HeaderTopMarginKey).None? && GetSettingFloat(r3, HeaderBottomMarginKey).None?;
  }

  const Three: Numbers.Decimal := Numbers.Decimal(false, 3, "")
  const Six: Numbers.Decimal := Numbers.Decimal(false, 6, "")
  const ThreePointNine: Numbers.Decimal := Numbers.Decimal(false, 3, "9")
  const Fourteen: Numbers.Decimal := Numbers.Decimal(false, 14, "")

  /** Drops one pointer-moved subscription, if any is recorded. */
  function UnsubscribePointer(p: Provider): (r: Provider)
    ensures r.subscribedInterop.None?
    ensures p.subscribedInterop.Some? ==>
              r.pointerHandlers == p.pointerHandlers - multiset{p.subscribedInterop.value}
    ensures p.subscribedInterop.None? ==> r == p
  {
    if p.subscribedInterop.Some? then
      p.(pointerHandlers := p.pointerHandlers - multiset{p.subscribedInterop.value}, subscribedInterop := None)
    else p
  }

  /** The four layout keys name different settings. */
  lemma LayoutKeysDistinct()
    ensures StandardMarginKey != HeaderTopMarginKey && StandardMarginKey != HeaderBottomMarginKey
    ensures StandardMarginKey != FontSizeKey && HeaderTopMarginKey != HeaderBottomMarginKey
    ensures HeaderTopMarginKey != FontSizeKey && HeaderBottomMarginKey != FontSizeKey
  {
    assert |StandardMarginKey| == 14 && |HeaderTopMarginKey| == 15;
    assert |HeaderBottomMarginKey| == 17 && |FontSizeKey| == 8;
  }

  /** A settings map holding the invariant texts of four numbers under the
      four layout keys, written in `ResetSettings`' order. */
  function LayoutSettings(margin: Numbers.Decimal, top: Numbers.Decimal, bottom: Numbers.Decimal,
                          fontSize: Numbers.Decimal): map<string, Option<string>> {
    map[StandardMarginKey := Some(Numbers.FormatDecimal(margin)),
        HeaderTopMarginKey := Some(Numbers.FormatDecimal(top)),
        HeaderBottomMarginKey := Some(Numbers.FormatDecimal(bottom)),
        FontSizeKey := Some(Numbers.FormatDecimal(fontSize))]
  }

  /** The settings `ResetSettings` leaves. */
  const DefaultSettings: map<string, Option<string>> := LayoutSettings(Three, Six, ThreePointNine, Fourteen)

  /** Four `SetSettingFloat` calls on an emptied map: the map then holds
      exactly their texts, and the layout is the one read from it. */
  function WriteLayout(p: Provider, margin: Numbers.Decimal, top: Numbers.Decimal, bottom: Numbers.Decimal,
                       fontSize: Numbers.Decimal): (r: Provider)
    requires Numbers.WellFormed(margin) && Numbers.WellFormed(top)
    requires Numbers.WellFormed(bottom) && Numbers.WellFormed(fontSize)
    ensures r.settings == LayoutSettings(margin, top, bottom, fontSize)
    ensures r == OnSettingsChanged(p.(settings := LayoutSettings(margin, top, bottom, fontSize)))
  {
    var p1 := SetSettingFloat(p.(settings := map[]), StandardMarginKey, margin);
    var p2 := SetSettingFloat(p1, HeaderTopMarginKey, top);
    var p3 := SetSettingFloat(p2, HeaderBottomMarginKey, bottom);
    var r := SetSettingFloat(p3, FontSizeKey, fontSize);
    var m := LayoutSettings(margin, top, bottom, fontSize);
    assert r.settings == m;
    assert p3.(settings := m) == p.(settings := m).(
             standardMargin := p3.standardMargin, headerTopMargin := p3.headerTopMargin,
             headerBottomMargin := p3.headerBottomMargin, fontSize := p3.fontSize);
    r
  }

  /** The four writes of `ResetSettings` into an emptied map. */
  function WriteDefaults(p: Provider): (r: Provider)
    ensures r.settings == DefaultSettings
    ensures r == OnSettingsChanged(p.(settings := DefaultSettings))
  {
    WriteLayout(p, Three, Six, ThreePointNine, Fourteen)
  }

  /** A setting holding the text of a decimal reads back as its value. */
  lemma SettingFloatOfFormat(p: Provider, key: string, d: Numbers.Decimal)
    requires Numbers.WellFormed(d)
    requires key in p.settings && p.settings[key] == Some(Numbers.FormatDecimal(d))
    ensures GetSettingFloat(p, key) == Some(Numbers.Value(d))
  {
    Numbers.ParseFormatDecimal(d);
  }

  /** Settings holding four numbers give those numbers as the layout. */
  lemma LayoutOfSettings(p: Provider, margin: Numbers.Decimal, top: Numbers.Decimal, bottom: Numbers.Decimal,
                         fontSize: Numbers.Decimal)
    requires Numbers.WellFormed(margin) && Numbers.WellFormed(top)
    requires Numbers.WellFormed(bottom) && Numbers.WellFormed(fontSize)
    requires p.settings == LayoutSettings(margin, top, bottom, fontSize)
    ensures OnSettingsChanged(p).standardMargin == Numbers.Value(margin)
    ensures OnSettingsChanged(p).headerTopMargin == Numbers.Value(top)
    ensures OnSettingsChanged(p).headerBottomMargin == Numbers.Value(bottom)
    ensures OnSettingsChanged(p).fontSize == Numbers.Value(fontSize)
  {
    LayoutKeysDistinct();
    SettingFloatOfFormat(p, StandardMarginKey, margin);
    SettingFloatOfFormat(p, HeaderTopMarginKey, top);
    SettingFloatOfFormat(p, HeaderBottomMarginKey, bottom);
    SettingFloatOfFormat(p, FontSizeKey, fontSize);
  }

  /** The layout values the default settings give. */
  lemma DefaultLayout(p: Provider)
    requires p.settings == DefaultSettings
    ensures OnSettingsChanged(p).standardMargin == 3.0
    ensures OnSettingsChanged(p).headerTopMargin == 6.0
    ensures OnSettingsChanged(p).headerBottomMargin == 3.9
    ensures OnSettingsChanged(p).fontSize == 14.0
  {
    LayoutOfSettings(p, Three, Six, ThreePointNine, Fourteen);
    DefaultValues();
  }

  /** The exact values of the four default texts. */
  lemma DefaultValues()
    ensures Numbers.Value(Three) == 3.0 && Numbers.Value(Six) == 6.0
    ensures Numbers.Value(ThreePointNine) == 3.9 && Numbers.Value(Fourteen) == 14.0
  {
    assert Numbers.DigitsValue("9") == 9;
    assert Numbers.Pow10(1) == 10;
  }

  /** `ResetSettings`: the map is cleared and refilled with the standard
      margin 3, the header margins at their defaults for it, and font size
      14; a pointer-moved subscription is dropped. */
  function ResetSettings(p: Provider): (r: Provider)
    ensures r.settings == DefaultSettings
    ensures r.standardMargin == 3.0 && r.fontSize == 14.0
    ensures r.headerTopMargin == DefaultHeaderTopMargin(r.standardMargin)
    ensures r.headerBottomMargin == DefaultHeaderBottomMargin(r.standardMargin)
    ensures r.subscribedInterop.None?
    ensures r.pointerHandlers == UnsubscribePointer(p).pointerHandlers
    ensures r.roots == p.roots && r.current == p.current && r.lastSeparator == p.lastSeparator
    ensures r.nextId == p.nextId && r.notifications == p.notifications
  {
    var q := WriteDefaults(p);
    DefaultLayout(p.(settings := DefaultSettings));
    UnsubscribePointer(q)
  }

  /** A new provider: nothing built yet and the default settings. */
  function New(): (p: Provider)
    ensures Valid(p) && p.roots == [] && p.current.None? && p.lastSeparator == 0.0
    ensures p.standardMargin == 3.0 && p.fontSize == 14.0
    ensures p.headerTopMargin == 6.0 && p.headerBottomMargin == 3.9
    ensures p.settings == DefaultSettings && p.pointerHandlers == multiset{} && p.subscribedInterop.None?
  {
    ResetSettings(Provider([], None, 0.0, map[], 0.0, 0.0, 0.0, 0.0, 0, 0, None, None, multiset{}))
  }

  /** `AddSeparator`: the heights add up until the next element. */
  function AddSeparator(p: Provider, height: real): (r: Provider)
    ensures r.lastSeparator == p.lastSeparator + height
    ensures r.(lastSeparator := p.lastSeparator) == p
  {
    p.(lastSeparator := p.lastSeparator + height)
  }

  /** Whether a new element gets a leading margin. */
  predicate Spaces(separator: real, standardMargin: real) {
    separator > 0.0 || standardMargin > 0.0
  }

  /** The margin `AddToCurrentPanel` gives an element: its top margin, or
      the standard margin when that is 0, plus the pending separator, as
      the top margin in a vertical panel and as the left margin in a
      horizontal one. The horizontal case keeps the old top margin and
      drops the old left margin. */
  function PlacedMargin(m: UIElement.Margin, separator: real, standardMargin: real, isVertical: bool)
    : (r: UIElement.Margin)
    ensures !Spaces(separator, standardMargin) ==> r == m
    ensures r.right == m.right && r.bottom == m.bottom
    ensures Spaces(separator, standardMargin) && isVertical ==>
              r.left == m.left && r.top == (if m.top == 0.0 then standardMargin else m.top) + separator
    ensures Spaces(separator, standardMargin) && !isVertical ==>
              r.top == m.top && r.left == (if m.top == 0.0 then standardMargin else m.top) + separator
  {
    if !Spaces(separator, standardMargin) then m
    else
      var value := (if m.top == 0.0 then standardMargin else m.top) + separator;
      if isVertical then m.(top := value) else m.(left := value)
  }

  /** The list new elements go to: the current panel's children, or the
      root list. */
  function Target(p: Provider): seq<Node>
    requires Valid(p)
  {
    if p.current.None? then p.roots else Resolve(p.roots, p.current.value).value.children
  }

  /** A missing current panel counts as vertical. */
  predicate CurrentIsVertical(p: Provider)
    requires Valid(p)
  {
    p.current.None? || Resolve(p.roots, p.current.value).value.isVertical
  }

  /** The root list with `e` appended to the target list. */
  function AppendToTarget(p: Provider, e: Node): (roots: seq<Node>)
    requires Valid(p)
    ensures multiset(AllIds(roots)) == multiset(AllIds(p.roots)) + multiset(NodeIds(e))
    ensures InTree(roots, e)
    ensures p.current.None? ==> roots == p.roots + [e]
    ensures p.current.Some? ==>
              && IsPanelPath(roots, p.current.value)
              && Resolve(roots, p.current.value).value.children ==
                 Resolve(p.roots, p.current.value).value.children + [e]
              && Resolve(roots, p.current.value).value.isVertical ==
                 Resolve(p.roots, p.current.value).value.isVertical
  {
    if p.current.None? then
      AllIdsConcat(p.roots, [e]);
      assert AllIds([e]) == NodeIds(e) by { assert [e][1..] == []; }
      InTreeLast(p.roots, e);
      p.roots + [e]
    else
      var roots := AppendAt(p.roots, p.current.value, e);
      AppendAtIds(p.roots, p.current.value, e);
      InTreeAtPath(roots, p.current.value, e);
      roots
  }

  /** Puts `e` at the end of the target list. */
  function AddNode(p: Provider, e: Node): (r: Provider)
    requires Valid(p) && NodeIds(e) == [p.nextId]
    ensures Valid(r) && r.current == p.current
    ensures Target(r) == Target(p) + [e]
    ensures InTree(r.roots, e)
    ensures r == p.(roots := r.roots, nextId := p.nextId + 1)
  {
    var roots := AppendToTarget(p, e);
    FreshAfterAdd(multiset(AllIds(p.roots)), multiset(AllIds(roots)), p.nextId);
    p.(roots := roots, nextId := p.nextId + 1)
  }

  lemma {:induction false} InTreeLast(nodes: seq<Node>, e: Node)
    ensures InTree(nodes + [e], e)
    decreases nodes
  {
    if |nodes| > 0 {
      assert (nodes + [e])[1..] == nodes[1..] + [e];
      InTreeLast(nodes[1..], e);
    }
  }

  lemma {:induction false} InTreeIndex(nodes: seq<Node>, i: nat, e: Node)
    requires i < |nodes| && (nodes[i] == e || (nodes[i].Panel? && InTree(nodes[i].children, e)))
    ensures InTree(nodes, e)
    decreases i
  {
    if i > 0 {
      InTreeIndex(nodes[1..], i - 1, e);
    }
  }

  /** The last child of the panel a path leads to is in the tree. */
  lemma {:induction false} InTreeAtPath(nodes: seq<Node>, path: Path, e: Node)
    requires IsPanelPath(nodes, path)
    requires |Resolve(nodes, path).value.children| > 0
    requires Resolve(nodes, path).value.children[|Resolve(nodes, path).value.children| - 1] == e
    ensures InTree(nodes, e)
    decreases path
  {
    var n := nodes[path[0]];
    if |path| == 1 {
      InTreeIndex(n.children, |n.children| - 1, e);
    } else {
      InTreeAtPath(n.children, path[1..], e);
    }
    InTreeIndex(nodes, path[0], e);
  }

  /** `AddToCurrentPanel` for an element of the given kind and state: the
      margin rule, the separator consumed, the element appended to the
      current panel or the root list, one state-changed notification. */
  function AddToCurrentPanel(p: Provider, kind: Kind, base: UIElement.Base): (r: (Provider, Node))
    requires Valid(p)
    ensures Valid(r.0) && r.0.current == p.current
    ensures r.1 == Element(p.nextId, kind,
                           base.(margin := PlacedMargin(base.margin, p.lastSeparator, p.standardMargin,
                                                        CurrentIsVertical(p))))
    ensures Target(r.0) == Target(p) + [r.1]
    ensures InTree(r.0.roots, r.1)
    ensures r.0.lastSeparator == (if Spaces(p.lastSeparator, p.standardMargin) then 0.0 else p.lastSeparator)
    ensures r.0.notifications == p.notifications + 1
    ensures r.0.settings == p.settings && r.0.standardMargin == p.standardMargin
  {
    var m := PlacedMargin(base.margin, p.lastSeparator, p.standardMargin, CurrentIsVertical(p));
    var e := Element(p.nextId, kind, base.(margin := m));
    var sep := if Spaces(p.lastSeparator, p.standardMargin) then 0.0 else p.lastSeparator;
    var q := AddNode(p, e);
    (q.(lastSeparator := sep, notifications := p.notifications + 1), e)
  }

  /** `CreateLabel`: the label reads the header margins and whether the
      current panel has children before it is added. */
  function CreateLabel(p: Provider, text: Option<string>, isHeader: bool, width: real, height: real,
                       maxWidth: real): (r: (Provider, Node))
    requires Valid(p)
    ensures r == AddToCurrentPanel(p, LabelKind,
                   Label.Create(text, isHeader, width, height, maxWidth, p.headerTopMargin,
                                p.headerBottomMargin, |Target(p)| > 0 && p.current.Some?).base)
  {
    var hasChildren := p.current.Some? && |Target(p)| > 0;
    var l := Label.Create(text, isHeader, width, height, maxWidth, p.headerTopMargin, p.headerBottomMargin,
                          hasChildren);
    AddToCurrentPanel(p, LabelKind, l.base)
  }

  /** `CreateKeyValueLabel`: the label's constructor reads the value once
      through `UpdateValue`, which notifies, and adding it to the current
      panel notifies again. */
  function CreateKeyValueLabel(p: Provider, keyText: Option<string>, value: string, keyTextWidth: real)
    : (r: (Provider, Node))
    requires Valid(p)
    ensures Valid(r.0) && r.0.current == p.current
    ensures r.0.notifications == p.notifications + 2
    ensures r.1.Element? && r.1.kind == KeyValueKind && r.1.id == p.nextId
    ensures r.1.base.toolTip == ToolTip.ParseTextAndToolTip(keyText).toolTip
    ensures Target(r.0) == Target(p) + [r.1]
    ensures InTree(r.0.roots, r.1)
  {
    var kv := KeyValueLabel.Create(keyText, value, keyTextWidth);
    var q := if kv.1 then NotifyStateChanged(p) else p;
    AddToCurrentPanel(q, KeyValueKind, kv.0.base)
  }

  /** A header in a vertical panel (or at the root) sits the header top
      margin below its predecessor, 8 more when the panel already has
      children, plus any pending separator. */
  lemma HeaderSpacing(p: Provider, text: Option<string>)
    requires Valid(p) && CurrentIsVertical(p)
    requires p.headerTopMargin > 0.0 && p.lastSeparator >= 0.0
    ensures var e := CreateLabel(p, text, true, 0.0, 0.0, 0.0).1;
            e.base.margin.top ==
              p.headerTopMargin + (if p.current.Some? && |Target(p)| > 0 then Label.HeaderGap else 0.0)
              + p.lastSeparator
    ensures CreateLabel(p, text, true, 0.0, 0.0, 0.0).0.lastSeparator == 0.0
  {
  }

  /** Separators add up and are consumed by the next element: two
      separators before an element with no own top margin in a vertical
      panel give it the standard margin plus both heights, and the element
      after it gets none of them. */
  lemma SeparatorsAccumulate(p: Provider, a: real, b: real, kind: Kind, base: UIElement.Base)
    requires Valid(p) && CurrentIsVertical(p)
    requires p.lastSeparator == 0.0 && a >= 0.0 && b >= 0.0 && p.standardMargin > 0.0
    requires base.margin.top == 0.0
    ensures var r := AddToCurrentPanel(AddSeparator(AddSeparator(p, a), b), kind, base);
            && r.1.base.margin.top == p.standardMargin + a + b
            && r.0.lastSeparator == 0.0
            && AddToCurrentPanel(r.0, kind, base).1.base.margin.top == p.standardMargin
  {
    var q := AddSeparator(AddSeparator(p, a), b);
    assert Valid(q) && CurrentIsVertical(q);
  }

  /** `CreateStackPanel`: a panel with the 5 pixel margin is added to the
      parent panel, or to the root list, and becomes current. No separator
      or standard margin is applied to it. */
  function CreateStackPanel(p: Provider, alignment: set<StackPanel.Position>, isVertical: bool,
                            addBorder: bool, isSemiTransparent: bool, parent: Option<Path>)
    : (r: (Provider, Path))
    requires Valid(p)
    requires parent.Some? ==> IsPanelPath(p.roots, parent.value)
    ensures Valid(r.0) && r.0.current == Some(r.1)
    ensures var panel := Panel(p.nextId, StackPanel.Create<Node>(StackPanel.Config(alignment, isVertical, addBorder,
                                            isSemiTransparent, parent.Some?)).base, isVertical, []);
            Resolve(r.0.roots, r.1) == Some(panel)
    ensures parent.None? ==> r.0.roots == p.roots + [Resolve(r.0.roots, r.1).value]
    ensures parent.Some? ==> r.1[..|r.1| - 1] == parent.value
    ensures r.0.lastSeparator == p.lastSeparator && r.0.notifications == p.notifications + 1
  {
    var sp := StackPanel.Create<Node>(StackPanel.Config(alignment, isVertical, addBorder, isSemiTransparent,
                                                        parent.Some?));
    var e := Panel(p.nextId, sp.base, isVertical, []);
    assert NodeIds(e) == [p.nextId] by { assert AllIds([]) == []; }
    var q := AddNode(p.(current := parent), e);
    var path :=
      if parent.None? then [|p.roots|]
      else parent.value + [|Resolve(p.roots, parent.value).value.children|];
    assert Resolve(q.roots, path) == Some(e) by {
      if parent.Some? {
        ResolveChild(q.roots, parent.value, |Resolve(p.roots, parent.value).value.children|);
      }
    }
    (q.(current := Some(path), notifications := p.notifications + 1), path)
  }

  /** A child index appended to a panel path leads to that child. */
  lemma {:induction false} ResolveChild(nodes: seq<Node>, path: Path, i: nat)
    requires IsPanelPath(nodes, path) && i < |Resolve(nodes, path).value.children|
    ensures Resolve(nodes, path + [i]) == Some(Resolve(nodes, path).value.children[i])
    decreases path
  {
    assert (path + [i])[0] == path[0];
    if |path| > 1 {
      assert (path + [i])[1..] == path[1..] + [i];
      ResolveChild(nodes[path[0]].children, path[1..], i);
    } else {
      assert (path + [i])[1..] == [i];
    }
  }

  /** `SetCurrentPanel`: a panel of the tree becomes current; anything else
      (no panel, or one that is not a Blazor panel) clears it. */
  function SetCurrentPanel(p: Provider, panel: Option<Path>): (r: Provider)
    requires Valid(p)
    ensures Valid(r)
    ensures panel.Some? && IsPanelPath(p.roots, panel.value) ==> r.current == panel
    ensures panel.None? || !IsPanelPath(p.roots, panel.value) ==> r.current.None?
    ensures r == p.(current := r.current)
  {
    if panel.Some? && IsPanelPath(p.roots, panel.value) then p.(current := panel) else p.(current := None)
  }

  /** `ClearAll`: no elements, no current panel, no pending separator, the
      default settings, one notification. */
  function ClearAll(p: Provider): (r: Provider)
    requires Valid(p)
    ensures Valid(r)
    ensures r.roots == [] && r.current.None? && r.lastSeparator == 0.0
    ensures r.settings == New().settings && r.standardMargin == 3.0 && r.fontSize == 14.0
    ensures r.headerTopMargin == New().headerTopMargin && r.headerBottomMargin == New().headerBottomMargin
    ensures r.subscribedInterop.None? && r.notifications == p.notifications + 1
    ensures r.pointerHandlers == UnsubscribePointer(p).pointerHandlers
    ensures r.nextId == p.nextId
  {
    var q := ResetSettings(p.(roots := [], current := None, lastSeparator := 0.0));
    q.(notifications := p.notifications + 1)
  }

  /** The ids `UpdateAllValues` calls `UpdateValue` on, in call order: root
      elements in order, each panel's children recursively in place of the
      panel, elements without update support skipped. */
  function Updates(nodes: seq<Node>): (r: seq<nat>)
    ensures multiset(r) <= multiset(AllIds(nodes))
    decreases nodes
  {
    if |nodes| == 0 then []
    else
      var head := match nodes[0]
        case Panel(_, _, _, children) => Updates(children)
        case Element(id, kind, _) => if UpdateSupported(kind) then [id] else [];
      head + Updates(nodes[1..])
  }

  /** An element of the tree that supports updates. */
  predicate Updatable(nodes: seq<Node>, x: Node) {
    InTree(nodes, x) && x.Element? && UpdateSupported(x.kind)
  }

  lemma {:induction false} UpdatesComplete(nodes: seq<Node>, x: Node)
    requires Updatable(nodes, x)
    ensures x.id in Updates(nodes)
    decreases nodes
  {
    var n := nodes[0];
    if n == x {
    } else if n.Panel? && InTree(n.children, x) {
      UpdatesComplete(n.children, x);
    } else {
      UpdatesComplete(nodes[1..], x);
    }
  }

  lemma {:induction false} UpdatesSound(nodes: seq<Node>, id: nat) returns (x: Node)
    requires id in Updates(nodes)
    ensures Updatable(nodes, x) && x.id == id
    decreases nodes
  {
    var n := nodes[0];
    var head := match n
      case Panel(_, _, _, children) => Updates(children)
      case Element(i, kind, _) => if UpdateSupported(kind) then [i] else [];
    assert Updates(nodes) == head + Updates(nodes[1..]);
    if id in head {
      if n.Panel? {
        x := UpdatesSound(n.children, id);
      } else {
        x := n;
      }
    } else {
      x := UpdatesSound(nodes[1..], id);
    }
  }

  /** The key-value labels anywhere in the forest. */
  function KeyValueCount(nodes: seq<Node>): nat
    decreases nodes
  {
    if |nodes| == 0 then 0
    else
      var head := match nodes[0]
        case Panel(_, _, _, children) => KeyValueCount(children)
        case Element(_, kind, _) => if kind == KeyValueKind then 1 else 0;
      head + KeyValueCount(nodes[1..])
  }

  /** The walk of `UpdateAllValues` over a list of nodes: each element with
      update support has `UpdateValue` called on it, and a key-value label's
      `UpdateValue` notifies a state change on its own; a slider's does not.
      Panels are walked in place. */
  function UpdatePass(p: Provider, nodes: seq<Node>): (r: (Provider, seq<nat>))
    ensures r.1 == Updates(nodes)
    ensures r.0 == p.(notifications := p.notifications + KeyValueCount(nodes))
    decreases nodes
  {
    if |nodes| == 0 then (p, [])
    else
      var head := match nodes[0]
        case Panel(_, _, _, children) => UpdatePass(p, children)
        case Element(id, kind, _) =>
          if !UpdateSupported(kind) then (p, [])
          else if kind == KeyValueKind then (NotifyStateChanged(p), [id])
          else (p, [id]);
      var rest := UpdatePass(head.0, nodes[1..]);
      (rest.0, head.1 + rest.1)
  }

  /** `UpdateAllValues`: the ids updated, in order; one notification per
      key-value label updated, then one for the whole pass. */
  function UpdateAllValues(p: Provider): (r: (Provider, seq<nat>))
    ensures r.0 == p.(notifications := p.notifications + KeyValueCount(p.roots) + 1)
    ensures r.1 == Updates(p.roots)
    ensures multiset(r.1) <= multiset(AllIds(p.roots))
  {
    var pass := UpdatePass(p, p.roots);
    (NotifyStateChanged(pass.0), pass.1)
  }

  lemma {:induction false} UpdatesConcat(a: seq<Node>, b: seq<Node>)
    ensures Updates(a + b) == Updates(a) + Updates(b)
    decreases a
  {
    if |a| == 0 {
      assert a + b == b;
    } else {
      var head := match a[0]
        case Panel(_, _, _, children) => Updates(children)
        case Element(id, kind, _) => if UpdateSupported(kind) then [id] else [];
      assert (a + b)[0] == a[0] && (a + b)[1..] == a[1..] + b;
      assert Updates(a + b) == head + Updates(a[1..] + b);
      UpdatesConcat(a[1..], b);
    }
  }

  lemma {:induction false} KeyValueCountConcat(a: seq<Node>, b: seq<Node>)
    ensures KeyValueCount(a + b) == KeyValueCount(a) + KeyValueCount(b)
    decreases a
  {
    if |a| == 0 {
      assert a + b == b;
    } else {
      assert (a + b)[0] == a[0] && (a + b)[1..] == a[1..] + b;
      KeyValueCountConcat(a[1..], b);
    }
  }

  /** An element with update support appended to a list is updated after
      the rest. */
  lemma AppendUpdated(nodes: seq<Node>, e: Node)
    requires e.Element? && UpdateSupported(e.kind)
    ensures Updates(nodes + [e]) == Updates(nodes) + [e.id]
  {
    assert Updates([e]) == [e.id];
    UpdatesConcat(nodes, [e]);
  }

  /** A key-value element appended to a list counts once more. */
  lemma AppendKeyValue(nodes: seq<Node>, e: Node)
    requires e.Element? && e.kind == KeyValueKind
    ensures KeyValueCount(nodes + [e]) == KeyValueCount(nodes) + 1
  {
    assert KeyValueCount([e]) == 1;
    KeyValueCountConcat(nodes, [e]);
  }

  /** A key-value label added at the root is updated last by every later
      pass, and adds one notification to it: its own, besides the one for
      the pass. */
  lemma KeyValueLabelNotifiesOnUpdate(p: Provider, keyText: Option<string>, value: string, keyTextWidth: real)
    requires Valid(p) && p.current.None?
    ensures var q := CreateKeyValueLabel(p, keyText, value, keyTextWidth).0;
      && UpdateAllValues(q).0.notifications == q.notifications + KeyValueCount(p.roots) + 2
      && UpdateAllValues(q).1 == Updates(p.roots) + [p.nextId]
  {
    var r := CreateKeyValueLabel(p, keyText, value, keyTextWidth);
    assert r.0.roots == p.roots + [r.1];
    AppendUpdated(p.roots, r.1);
    AppendKeyValue(p.roots, r.1);
  }

  /** Every element that supports updates is updated exactly once, and
      nothing else is updated. */
  lemma UpdateAllValuesExactlyOnce(p: Provider, x: Node, id: nat)
    requires Valid(p)
    ensures Updatable(p.roots, x) ==> multiset(UpdateAllValues(p).1)[x.id] == 1
    ensures id in UpdateAllValues(p).1 ==> exists y :: Updatable(p.roots, y) && y.id == id
    ensures multiset(UpdateAllValues(p).1)[id] <= 1
  {
    var u: seq<nat> := UpdateAllValues(p).1;
    var all: seq<nat> := AllIds(p.roots);
    assert multiset(u)[id] <= multiset(all)[id];
    if Updatable(p.roots, x) {
      UpdatesComplete(p.roots, x);
      assert multiset(u)[x.id] <= multiset(all)[x.id];
    }
    if id in u {
      var y := UpdatesSound(p.roots, id);
    }
  }

  /** `NotifyStateChanged`. */
  function NotifyStateChanged(p: Provider): (r: Provider)
    ensures r.notifications == p.notifications + 1
    ensures r.(notifications := p.notifications) == p
  {
    p.(notifications := p.notifications + 1)
  }

  /** `RegisterPointerMoved`: without a canvas interop nothing happens and
      false is returned; otherwise one more handler is attached to it and it
      is recorded as the subscribed interop. */
  function RegisterPointerMoved(p: Provider): (r: (Provider, bool))
    ensures r.1 <==> p.canvasInterop.Some?
    ensures !r.1 ==> r.0 == p
    ensures r.1 ==> r.0.pointerHandlers == p.pointerHandlers + multiset{p.canvasInterop.value}
    ensures r.1 ==> r.0.subscribedInterop == p.canvasInterop
    ensures r.0 == p.(pointerHandlers := r.0.pointerHandlers, subscribedInterop := r.0.subscribedInterop)
  {
    if p.canvasInterop.None? then (p, false)
    else
      (p.(pointerHandlers := p.pointerHandlers + multiset{p.canvasInterop.value},
          subscribedInterop := p.canvasInterop), true)
  }

  /** Registering twice attaches two handlers; clearing the provider drops
      one, so one stays attached. */
  lemma RegisterTwiceLeavesOne(p: Provider, ci: nat)
    requires Valid(p) && p.canvasInterop == Some(ci) && p.pointerHandlers == multiset{}
    ensures ClearAll(RegisterPointerMoved(RegisterPointerMoved(p).0).0).pointerHandlers == multiset{ci}
  {
    var q := RegisterPointerMoved(RegisterPointerMoved(p).0).0;
    assert q.pointerHandlers == multiset{ci, ci} && q.subscribedInterop == Some(ci);
    assert multiset{ci, ci} - multiset{ci} == multiset{ci};
  }
}

=== FILE: wrappers.dfy ===
/** Failure-carrying datatypes shared by every module of the model.

    `Option` stands for a nullable reference (`null` is `None`).
    `Result` stands for a call that either returns normally or throws one of
    the .NET exceptions the modelled code raises.
 */
module Wrappers {

  datatype Option<+T> = None | Some(value: T) {
    function GetOr(default: T): T {
      match this
      case Some(v) => v
      case None => default
    }
  }

  /** The exceptions thrown by the modelled code, by kind. The message text
      is kept only where the code builds it from its inputs. */
  datatype Exn =
    | InvalidOperation
    | NotImplemented
    | NotSupported
    | ArgumentOutOfRange
    | Argument
    | ArgumentNull
    | IndexOutOfRange
    | Format
    | Overflow
    | LookupFailed                              // plain Exception: null canvas id
    | NotInitializeCalled(methodName: string)   // SharpEngineException
    | InteropNotInitialized(methodName: string) // SharpEngineException
    | NotConnected(methodName: string)          // SharpEngineException
    | NotInBrowser                              // SharpEngineException
    | ScriptNotFound                            // SharpEngineException
    | ScriptSyntaxError                         // SharpEngineException
    | ScriptLoadFailed                          // SharpEngineException
    | InteropInitFailed                         // SharpEngineException
    | ScriptTypeError                           // JavaScript TypeError

  datatype Result<+T> = Ok(value: T) | Throw(error: Exn) {
    predicate IsFailure() { Throw? }

    function PropagateFailure<U>(): Result<U>
      requires Throw?
    {
      Throw(error)
    }

    function Extract(): T
      requires Ok?
    {
      value
    }
  }
}
